=== FILE: README.md ===
# NSO ⇄ ELF64 conversion, modelled in Dafny

NsoElfConverterDotNet converts between two formats:
- the Nintendo Switch NSO module container: a 0x100-byte header, then three LZ4-compressed segments (text, rodata and data);
- ELF64 AArch64 shared objects.

This project models the byte-level core of the converter as pure functions on byte sequences, and proves what those functions compute.

- **Fixed-layout little-endian codecs.**
  - NSO side: the NSO header, the 16-byte segment descriptor and the `DataExtent` u64 packing.
  - ELF64 side: the header, program header, section header, note header, symbol, rela and dyn entries, in both the `Structures.Elf` and the `Elf2Nso` variants.
  - Each codec has a reader, a writer and read-after-write lemmas.
  - A generic `Layout` module (`Pack`/`Unpack` over a list of field widths) carries the shared proofs.
- **ELF → NSO reduction** (`ElfToNsoConverter.ConvertElfToNso`):
  - header validation;
  - selection of the first three `PT_LOAD` program headers;
  - the segment descriptors, running compressed file offsets and digests;
  - the GNU build-id scan over the section headers;
  - assembly of the output.
  - LZ4 compression and SHA-256 are function-typed parameters.
- **NSO → ELF reconstruction helpers** (`NsoFile`):
  - the MOD0 module header and the dynamic-section walk;
  - the masked and unmasked forward byte searches and the reverse search;
  - the PLT-stub search;
  - the build-id note search and the `R_AARCH64_JUMP_SLOT` end;
  - the GOT search and the `.init`/`.fini` scans;
  - the section-name string table and `vaddrToShdr`;
  - the three `PT_LOAD` program headers and `vaddr_to_foffset`;
  - `insert_shdr`;
  - `ALIGN_DOWN`/`ALIGN_UP`.
- **`.eh_frame_hdr` measurement** (`ElfEHInfo.MeasureFrame`). This is the DWARF exception-header pointer decoder of section 10.5.1 of the Linux Standard Base Core specification. It covers:
  - bases absptr, pcrel and datarel;
  - formats udata2, udata4 and sdata4, plus the indirect bit;
  - the FDE table walk of section 10.6.2.

How C# semantics map into the model:
- C# exceptions (out-of-range `Span.Slice`, index errors, explicit `throw`) become `Err` values of a `Result`.
- Unchecked casts to `int` are `Bytes.I32`.
- `uint` and `ulong` arithmetic wraps explicitly modulo 2^32 or 2^64.

Modules:

| file | module | models |
|---|---|---|
| `results.dfy` | `Results` | `Option`/`Result` |
| `bytes.dfy` | `Bytes` | bytes, LE words, C# casts |
| `layout.dfy` | `Layout` | field-width packing |
| `elf_constants.dfy` | `ElfConstants` | the `Elf64Common` constants used |
| `elf_structures.dfy` | `ElfStructures` | `Structures/Elf/*` codecs |
| `elf2nso_headers.dfy` | `Elf2NsoHeaders` | `Elf2Nso/Elf64Phdr`, `Elf2Nso/Elf64Shdr` |
| `nso_structures.dfy` | `NsoStructures` | `NsoHeader`, `NsoSegment`, `DataExtent` |
| `elf_to_nso.dfy` | `ElfToNso` | `ElfToNsoConverter` |
| `string_table.dfy` | `StringTables` | `NsoFile.StringTable` |
| `byte_search.dfy` | `ByteSearch` | `memcmp*`, `memmem*`, `memmemr` |
| `nso_dynamic.dfy` | `NsoDynamic` | MOD0 header, dynamic walk |
| `nso_scans.dfy` | `NsoScans` | PLT, build-id note, jump slots, GOT, `.init`/`.fini` |
| `nso_sections.dfy` | `NsoSections` | `vaddrToShdr`, `PT_LOAD`, `vaddr_to_foffset`, `insert_shdr` |
| `align.dfy` | `Align` | `ALIGN_DOWN`/`ALIGN_UP` |
| `eh_frame.dfy` | `ElfEh` | `EhFrameHdr`, `MeasureFrame` |

## Model

| member | source | states |
|---|---|---|
| ElfStructures.ReadPhdr | NsoElfConverterDotNet/Structures/Elf/Elf64Phdr.cs:37-54 | A program header needs 56 bytes. Type and Flags are the LE u32s at 0 and 4; Offset, VAddr, PAddr, FileSize, MemSize and Align are the LE u64s at 8, 16, …, 48 |
| ElfStructures.WritePhdr | NsoElfConverterDotNet/Structures/Elf/Elf64Phdr.cs:56-67 | Writing fails on a target under 56 bytes. Otherwise it puts the encoded header in bytes [0,56) and leaves every later byte unchanged |
| ElfStructures.PhdrRoundTrip | NsoElfConverterDotNet/Structures/Elf/Elf64Phdr.cs:43-67 | Reading back what was written, or its encoding followed by anything, gives the same program header |
| ElfStructures.PhdrPrefix | NsoElfConverterDotNet/Structures/Elf/Elf64Phdr.cs:43-54 | The reader depends only on the first 56 bytes; encoding what it read gives those bytes back |
| ElfStructures.DefaultEhdr | NsoElfConverterDotNet/Structures/Elf/Elf64Ehdr.cs:42-45 | The default header has a zeroed 16-byte Ident and every field 0 |
| ElfStructures.ReadEhdr | NsoElfConverterDotNet/Structures/Elf/Elf64Ehdr.cs:40-66 | An ELF header needs 64 bytes. Ident is bytes [0,16); Type, Machine and Version are at 16, 18 and 20; Entry, PhOff and ShOff are at 24, 32 and 40; Flags is at 48; the six u16 fields are at 52…62 |
| ElfStructures.WriteEhdr | NsoElfConverterDotNet/Structures/Elf/Elf64Ehdr.cs:68-85 | Writing fails when the target is under 64 bytes or shorter than Ident. Otherwise Ident is copied to offset 0, bytes [16,64) are the packed fields, and later bytes keep their value unless Ident reaches them |
| ElfStructures.EhdrRoundTrip | NsoElfConverterDotNet/Structures/Elf/Elf64Ehdr.cs:47-85 | With a 16-byte Ident, reading back the written header gives it back |
| ElfStructures.EhdrShortIdent | NsoElfConverterDotNet/Structures/Elf/Elf64Ehdr.cs:70 | With an Ident shorter than 16 bytes, the write succeeds. Ident lands at offset 0, and target bytes [\|Ident\|,16) keep their old value |
| ElfStructures.ReadShdr | NsoElfConverterDotNet/Structures/Elf/Elf64Shdr.cs:11-45 | A section header needs 64 bytes. Name and Type are at 0 and 4; Flags, Addr, Offset and Size are at 8…32; Link and Info are at 40 and 44; AddrAlign and EntSize are at 48 and 56 |
| ElfStructures.ReadShdrAccessor | NsoElfConverterDotNet/Structures/Elf/Elf64Shdr.cs:17-30 | The accessor reader fails iff the input is under 64 bytes |
| ElfStructures.ShdrReadersAgree | NsoElfConverterDotNet/Structures/Elf/Elf64Shdr.cs:17-45 | The accessor and span readers give the same result on every input |
| ElfStructures.ShdrPrefix | NsoElfConverterDotNet/Structures/Elf/Elf64Shdr.cs:32-45 | The span reader depends only on the first 64 bytes |
| ElfStructures.WriteShdrAsWritten | NsoElfConverterDotNet/Structures/Elf/Elf64Shdr.cs:47-60 | The writer as written emits Info as a u64, so it writes 68 bytes: bytes [0,68) are the ten fields packed at widths 4, 4, 8, 8, 8, 8, 4, 8, 8, 8. It fails on a target under 68 bytes and leaves bytes from 68 on unchanged |
| ElfStructures.ShdrWrittenHeadRead | NsoElfConverterDotNet/Structures/Elf/Elf64Shdr.cs:32-60 | After the as-written writer, Name through Info read back unchanged |
| ElfStructures.ShdrAsWrittenReadBack | NsoElfConverterDotNet/Structures/Elf/Elf64Shdr.cs:32-60 | After the as-written writer, AddrAlign reads back as its low word shifted up 32 bits. EntSize reads back as AddrAlign's high word plus EntSize's low word shifted up 32 bits |
| ElfStructures.ShdrAsWrittenLosesAlignment | NsoElfConverterDotNet/Structures/Elf/Elf64Shdr.cs:57 | A header with AddrAlign 8 reads back with AddrAlign 8·2^32, so it is not the header written |
| ElfStructures.WriteShdr | NsoElfConverterDotNet/Structures/Elf/Elf64Shdr.cs:47-60 | The corrected writer emits Info as u32: bytes [0,64) are the ten fields packed at the readers' widths. It fails on a target under 64 bytes and leaves bytes from 64 on unchanged |
| ElfStructures.ShdrRoundTrip | NsoElfConverterDotNet/Structures/Elf/Elf64Shdr.cs:32-60 | With the corrected writer, reading back gives the header written |
| ElfStructures.ReadNhdr | NsoElfConverterDotNet/Structures/Elf/Elf64Nhdr.cs:19-33 | A note header needs 12 bytes: NameSize, DescriptorSize and Type are the LE u32s at 0, 4 and 8 |
| ElfStructures.ReadNhdrAccessor | NsoElfConverterDotNet/Structures/Elf/Elf64Nhdr.cs:21-26 | The accessor constructor fails iff the input is under 12 bytes |
| ElfStructures.NhdrReadersAgree | NsoElfConverterDotNet/Structures/Elf/Elf64Nhdr.cs:21-33 | The two note-header constructors agree on every input |
| ElfStructures.NhdrRoundTrip | NsoElfConverterDotNet/Structures/Elf/Elf64Nhdr.cs:28-33 | Reading an encoded note header, followed by anything, gives it back |
| ElfStructures.SymOffsets | NsoElfConverterDotNet/Structures/Elf/Elf64Sym.cs:11 | The symbol fields' widths 4+1+1+2+8+8 put them at 0, 4, 5, 6, 8 and 16, for 24 bytes in all |
| ElfStructures.ReadSym | NsoElfConverterDotNet/Structures/Elf/Elf64Sym.cs:11-21 | A symbol needs 24 bytes. Name is the u32 at 0; Info and Other are bytes 4 and 5; Shndx is the u16 at 6; Value and Size are the u64s at 8 and 16 |
| ElfStructures.SymRoundTrip | NsoElfConverterDotNet/Structures/Elf/Elf64Sym.cs:11-21 | Reading an encoded symbol, followed by anything, gives it back |
| ElfStructures.ReadRela | NsoElfConverterDotNet/Structures/Elf/Elf64Rela.cs:8-15 | A rela entry needs 24 bytes. Offset and Info are the whole u64s at 0 and 8; Addend is the two's-complement i64 at 16 |
| ElfStructures.RelaRoundTrip | NsoElfConverterDotNet/Structures/Elf/Elf64Rela.cs:8-15 | Reading an encoded rela entry, followed by anything, gives it back, negative addends included |
| ElfStructures.ReadDyn | NsoElfConverterDotNet/Structures/Elf/Elf64Dyn.cs:10-16 | A dyn entry needs 16 bytes: Tag and Un are the u64s at 0 and 8 |
| ElfStructures.DynEntryAt | NsoElfConverterDotNet/Structures/Elf/Elf64Dyn.cs:10-16 | Entry k of an array of dyn entries is read from bytes [16k, 16k+16) |
| ElfStructures.DynRoundTrip | NsoElfConverterDotNet/Structures/Elf/Elf64Dyn.cs:10-16 | Reading an encoded dyn entry, followed by anything, gives it back |
| Elf2NsoHeaders.ReadPhdr | NsoElfConverterDotNet/Elf2Nso/Elf64Phdr.cs:39-52 | The converter's program-header reader fails iff the input is under 56 bytes |
| Elf2NsoHeaders.PhdrReadersAgree | NsoElfConverterDotNet/Elf2Nso/Elf64Phdr.cs:41-52 | It agrees with the `Structures.Elf` reader on every input |
| Elf2NsoHeaders.PhdrPrefixOnly | NsoElfConverterDotNet/Elf2Nso/Elf64Phdr.cs:41-52 | It depends only on bytes [0,56) |
| Elf2NsoHeaders.ReadShdr | NsoElfConverterDotNet/Elf2Nso/Elf64Shdr.cs:10-25 | The converter's section-header reader fails iff the input is under 64 bytes |
| Elf2NsoHeaders.ShdrReadersAgree | NsoElfConverterDotNet/Elf2Nso/Elf64Shdr.cs:12-25 | It agrees with the `Structures.Elf` span reader on every input |
| Elf2NsoHeaders.ShdrPrefixOnly | NsoElfConverterDotNet/Elf2Nso/Elf64Shdr.cs:12-25 | It depends only on bytes [0,64) |
| NsoStructures.ExtentToU64 | NsoElfConverterDotNet/Structures/DataExtent.cs:15-21 | The packed value is Offset + Size·2^32 |
| NsoStructures.ExtentFromU64 | NsoElfConverterDotNet/Structures/DataExtent.cs:23-34 | Unpacking gives Offset = l mod 2^32 and Size = l div 2^32 |
| NsoStructures.ExtentRoundTrip | NsoElfConverterDotNet/Structures/DataExtent.cs:15-34 | Extent → u64 → extent is the identity |
| NsoStructures.U64RoundTrip | NsoElfConverterDotNet/Structures/DataExtent.cs:15-34 | u64 → extent → u64 is the identity |
| NsoStructures.SegmentToBytes | NsoElfConverterDotNet/Structures/NsoSegment.cs:35-43 | A descriptor serialises to 16 bytes |
| NsoStructures.SegmentLayout | NsoElfConverterDotNet/Structures/NsoSegment.cs:35-43 | FileOffset, MemoryOffset, MemorySize and AlignOrTotalSz are the LE u32s at 0, 4, 8 and 12 |
| NsoStructures.ReadSegment | NsoElfConverterDotNet/Structures/NsoSegment.cs:22-28 | The span reader fails iff the input is under 16 bytes |
| NsoStructures.SegmentReadersAgree | NsoElfConverterDotNet/Structures/NsoSegment.cs:13-28 | The two descriptor readers agree on every input |
| NsoStructures.SegmentRoundTrip | NsoElfConverterDotNet/Structures/NsoSegment.cs:22-43 | Reading a serialised descriptor, followed by anything, gives it back |
| NsoStructures.SegmentBytesBack | NsoElfConverterDotNet/Structures/NsoSegment.cs:22-43 | Serialising a descriptor read from 16 bytes gives those 16 bytes back |
| NsoStructures.DefaultNsoHeader | NsoElfConverterDotNet/Structures/NsoHeader.cs:12-27 | The default header has magic "NSO0" and Unk3 0x3f. Its build id, padding, hashes and all other fields are zero, and its arrays have their declared sizes |
| NsoStructures.NsoHeaderToBytes | NsoElfConverterDotNet/Structures/NsoHeader.cs:63-87 | A header whose arrays have their declared sizes serialises to exactly 0x100 bytes |
| NsoStructures.HeaderLayout | NsoElfConverterDotNet/Structures/NsoHeader.cs:63-87 | The fields are placed as follows: segments at 0x10, the build id at 0x40, file sizes at 0x60, padding at 0x6c, dynstr at 0x90, dynsym at 0x98, hashes at 0xa0. dynstr and dynsym go through the `DataExtent` packing |
| NsoStructures.ReadNsoHeaderAsWritten | NsoElfConverterDotNet/Structures/NsoHeader.cs:29-61 | The reader as written fails on every input. Below 0xc0 bytes, the end of the first hash, it reads past the end. Otherwise the first hash is read and storing it in the empty list throws. Whenever the corrected reader succeeds, this one fails by the indexer |
| NsoStructures.NsoHeaderAsWrittenFails | NsoElfConverterDotNet/Structures/NsoHeader.cs:56-59 | The as-written reader fails even on the serialisation of the default header, which the corrected reader reads back as that header |
| NsoStructures.ReadNsoHeader | NsoElfConverterDotNet/Structures/NsoHeader.cs:29-61 | The corrected reader fails iff the input is under 0x100 bytes, and what it reads has every array at its declared size |
| NsoStructures.NsoHeaderRoundTrip | NsoElfConverterDotNet/Structures/NsoHeader.cs:29-87 | Reading back a serialised well-sized header gives it back |
| NsoStructures.NsoHeaderPrefix | NsoElfConverterDotNet/Structures/NsoHeader.cs:29-61 | The corrected reader depends only on the first 0x100 bytes; serialising what it read reproduces them |
| NsoStructures.NsoHeaderBytesBack | NsoElfConverterDotNet/Structures/NsoHeader.cs:29-87 | Serialising the header the corrected reader read from at least 0x100 bytes reproduces the first 0x100 bytes |
| NsoStructures.NsoHeaderReadBackPrefix | NsoElfConverterDotNet/Structures/NsoHeader.cs:29-87 | A serialised header followed by anything reads back as the header |
| ElfToNso.PhTableInFileMeans | NsoElfConverterDotNet/Elf2Nso/ElfToNsoConverter.cs:27-31 | The wrap-around-or-past-end test on `PhOff + PHNum·56` accepts exactly the tables lying within the input |
| ElfToNso.CheckHeader | NsoElfConverterDotNet/Elf2Nso/ElfToNsoConverter.cs:16-31 | Input under 64 bytes is rejected, and so is a Machine other than AArch64. Otherwise the header is accepted iff its program-header table lies within the input |
| ElfToNso.PhdrEntry | NsoElfConverterDotNet/Elf2Nso/ElfToNsoConverter.cs:44-45 | Entry j is read from `(int)(PhOff + 56j)` with length PHEntSize. It fails iff that slice is out of range or shorter than a program header |
| ElfToNso.PhdrStartInTable | NsoElfConverterDotNet/Elf2Nso/ElfToNsoConverter.cs:44 | For an input under 2^31 bytes with a validated table, entry j starts at PhOff + 56j |
| ElfToNso.FindLoad | NsoElfConverterDotNet/Elf2Nso/ElfToNsoConverter.cs:42-56 | The cursor moves forward to the first `PT_LOAD` entry, skipping only non-load entries. Running out of entries is "too few loadable headers" exactly when every remaining entry reads as non-load |
| ElfToNso.SegmentData | NsoElfConverterDotNet/Elf2Nso/ElfToNsoConverter.cs:72 | The segment bytes are a slice of the input whose start and length agree with Offset and FileSize modulo 2^32 |
| ElfToNso.SegmentDataInFile | NsoElfConverterDotNet/Elf2Nso/ElfToNsoConverter.cs:72 | For an input under 2^31 bytes and a segment inside it, the bytes are exactly input[Offset..Offset+FileSize] |
| ElfToNso.BssSizeIsDifference | NsoElfConverterDotNet/Elf2Nso/ElfToNsoConverter.cs:65 | The data descriptor's 4th word is (MemSize − FileSize) mod 2^32; it is the plain difference when MemSize ≥ FileSize and they are close |
| ElfToNso.SegmentsFromHeaders | NsoElfConverterDotNet/Elf2Nso/ElfToNsoConverter.cs:39-80 | Each converted segment satisfies the following. Its header is `PT_LOAD`. Its hash is sha256 and its packed form is compress, both of the raw FileSize bytes. Its descriptor has MemoryOffset (uint)VAddr and MemorySize (uint)FileSize. Its 4th word is 1 for text and rodata and MemSize − FileSize for data |
| ElfToNso.SegmentOffsetsChain | NsoElfConverterDotNet/Elf2Nso/ElfToNsoConverter.cs:37-79 | The first descriptor gets the starting offset. Each later one gets the previous offset plus the previous compressed length, as a wrapping uint sum |
| ElfToNso.SegmentsAreFirstLoads | NsoElfConverterDotNet/Elf2Nso/ElfToNsoConverter.cs:38-56 | The segments come from `PT_LOAD` entries in table order, with only non-load entries between them |
| ElfToNso.FirstThreeLoads | NsoElfConverterDotNet/Elf2Nso/ElfToNsoConverter.cs:38-56 | The three indices are increasing. Up to the third, an entry is `PT_LOAD` iff it is one of the three |
| ElfToNso.ShdrCursorStep | NsoElfConverterDotNet/Elf2Nso/ElfToNsoConverter.cs:83-104 | The section cursor starts at ShOff and advances by SHEntSize as a wrapping u64 |
| ElfToNso.ShdrEntry | NsoElfConverterDotNet/Elf2Nso/ElfToNsoConverter.cs:86 | Section i is read at `(int)cursor` with length SHEntSize. It fails iff that slice is out of range or too short |
| ElfToNso.ReadNote | NsoElfConverterDotNet/Elf2Nso/ElfToNsoConverter.cs:89-93 | A note is read at `(int)Offset`. Its type and sizes are the note-header words, and the name must have at least 4 bytes. Out-of-range slices are errors |
| ElfToNso.ReadNoteInFile | NsoElfConverterDotNet/Elf2Nso/ElfToNsoConverter.cs:89-93 | For a note inside an input under 2^31 bytes, the name and descriptor are the consecutive slices after the 12-byte header |
| ElfToNso.BuildIdOf | NsoElfConverterDotNet/Elf2Nso/ElfToNsoConverter.cs:94-100 | A note contributes a build id iff its type is `NT_GNU_BUILD_ID` and its name is "GNU\0". The id is the descriptor's first min(DescriptorSize, 32) bytes |
| ElfToNso.CopyToFront | NsoElfConverterDotNet/Elf2Nso/ElfToNsoConverter.cs:101 | Copying to the front replaces the first \|src\| bytes and keeps the rest |
| ElfToNso.ScanBuildId | NsoElfConverterDotNet/Elf2Nso/ElfToNsoConverter.cs:84-105 | The section loop keeps a 32-byte build id. It succeeds only if every section reads, and its error is that of some section |
| ElfToNso.ScanKeepsTail | NsoElfConverterDotNet/Elf2Nso/ElfToNsoConverter.cs:84-105 | Bytes beyond every contributed id keep their prior value |
| ElfToNso.ScanLastNoteWins | NsoElfConverterDotNet/Elf2Nso/ElfToNsoConverter.cs:84-105 | The last contributing note's id is at the front of the result |
| ElfToNso.ScanSilent | NsoElfConverterDotNet/Elf2Nso/ElfToNsoConverter.cs:84-105 | With no contributing note, the build id is unchanged |
| ElfToNso.Take | NsoElfConverterDotNet/Elf2Nso/ElfToNsoConverter.cs:112 | `Take(n)` is the prefix of length clamp(n, 0, \|buf\|) |
| ElfToNso.CheckedSum | NsoElfConverterDotNet/Elf2Nso/ElfToNsoConverter.cs:108 | A successful checked `int` sum is the exact sum |
| ElfToNso.CheckedSumOverflow | NsoElfConverterDotNet/Elf2Nso/ElfToNsoConverter.cs:108 | The checked sum succeeds iff no running total leaves the `int` range |
| ElfToNso.Capacity | NsoElfConverterDotNet/Elf2Nso/ElfToNsoConverter.cs:108 | The list capacity is non-negative when accepted; overflow or a negative capacity is an error |
| ElfToNso.CapacityFits | NsoElfConverterDotNet/Elf2Nso/ElfToNsoConverter.cs:108 | When the output fits in an `int`, the capacity is 0x100 plus the three sizes |
| ElfToNso.BuildHeader | NsoElfConverterDotNet/Elf2Nso/ElfToNsoConverter.cs:58-79 | The filled-in header has its arrays at their declared sizes |
| ElfToNso.Assemble | NsoElfConverterDotNet/Elf2Nso/ElfToNsoConverter.cs:107-114 | The output is the serialised header followed by each compressed buffer cut to its reported size. The only failure is a capacity overflow |
| ElfToNso.ConvertElfToNso | NsoElfConverterDotNet/Elf2Nso/ElfToNsoConverter.cs:14-114 | A header rejection is the result's error. A success passed the header, loaded the three segments and scanned the build id, and is their assembly |
| ElfToNso.LoadedSegmentsAreFirstLoads | NsoElfConverterDotNet/Elf2Nso/ElfToNsoConverter.cs:38-56 | The three segments are the first three `PT_LOAD` entries of the table |
| ElfToNso.LoadedSegmentsContents | NsoElfConverterDotNet/Elf2Nso/ElfToNsoConverter.cs:58-79 | Each loaded segment's descriptor, hash and packed form derive from its header, as `SegmentsFromHeaders` describes |
| ElfToNso.LoadedSegmentOffsets | NsoElfConverterDotNet/Elf2Nso/ElfToNsoConverter.cs:37-79 | The file offsets are 0x100, then 0x100 + len0, then 0x100 + len0 + len1, as wrapping uint sums |
| ElfToNso.ChainedOffsets | NsoElfConverterDotNet/Elf2Nso/ElfToNsoConverter.cs:37-79 | The same offsets, for any table, from the segment loop itself |
| ElfToNso.OffsetsAdd | NsoElfConverterDotNet/Elf2Nso/ElfToNsoConverter.cs:79 | The chained offsets are running sums of the reported lengths modulo 2^32 |
| ElfToNso.AssembledHeaderReadBack | NsoElfConverterDotNet/Elf2Nso/ElfToNsoConverter.cs:58-107 | The output's header reads back, with the corrected reader, as magic "NSO0", Unk3 0x3f and the scanned build id. Its descriptors, hashes and uint-reduced sizes are the segments' |
| ElfToNso.PayloadLayout | NsoElfConverterDotNet/Elf2Nso/ElfToNsoConverter.cs:110-113 | With honest compressor lengths, the payload is the three compressed prefixes in order |
| ElfToNso.AssembledLayout | NsoElfConverterDotNet/Elf2Nso/ElfToNsoConverter.cs:107-114 | With honest compressor lengths, the output has length 0x100 + the three lengths: the header bytes, then the three compressed prefixes |
| StringTables.AddString | NsoElfConverterDotNet/Nx2elf/NsoFile.cs:1086-1093 | A present string changes nothing. A new string is placed at the watermark, and no other entry moves |
| StringTables.NewStringTable | NsoElfConverterDotNet/Nx2elf/NsoFile.cs:1072-1076 | A new table holds "" at offset 0, with watermark 1 |
| StringTables.GetOffset | NsoElfConverterDotNet/Nx2elf/NsoFile.cs:1095-1098 | A present name gives its offset and an absent one gives 0 |
| StringTables.NewStringTableLaid | NsoElfConverterDotNet/Nx2elf/NsoFile.cs:1072-1076 | A new table is well laid out: every entry and its NUL lies below the watermark, and no two entries overlap |
| StringTables.AddStringKeepsLayout | NsoElfConverterDotNet/Nx2elf/NsoFile.cs:1086-1093 | Adding keeps the layout well laid out while the watermark fits in a uint. A new string advances the watermark by length + 1 |
| StringTables.AddStringIdempotent | NsoElfConverterDotNet/Nx2elf/NsoFile.cs:1088 | Adding the same string twice is adding it once |
| StringTables.OffsetsDistinct | NsoElfConverterDotNet/Nx2elf/NsoFile.cs:1086-1098 | In a well-laid table, distinct names have distinct offsets, and only "" has offset 0 |
| StringTables.AbsentReadsAsEmpty | NsoElfConverterDotNet/Nx2elf/NsoFile.cs:1097 | An absent name reads as the offset of "", which is 0 |
| StringTables.AddStrings | NsoElfConverterDotNet/Nx2elf/NsoFile.cs:450-464 | Adding a list of names adds exactly those keys |
| StringTables.AddStringsKeepsLayout | NsoElfConverterDotNet/Nx2elf/NsoFile.cs:450-464 | Adding a list keeps the layout well laid out, and offsets of earlier names do not move |
| ByteSearch.Probe | NsoElfConverterDotNet/Nx2elf/NsoFile.cs:991-1014 | One step of `memcmp*` fails iff an index is out of range. Otherwise it gives `a[k] & b[k]` (`& mask[k]`), which is at most each operand |
| ByteSearch.CompareZero | NsoElfConverterDotNet/Nx2elf/NsoFile.cs:991-1014 | `memcmp*` returns 0 iff every probe below the length is 0 |
| ByteSearch.CompareFirst | NsoElfConverterDotNet/Nx2elf/NsoFile.cs:991-1014 | Otherwise it returns the first non-zero probe |
| ByteSearch.CompareInRange | NsoElfConverterDotNet/Nx2elf/NsoFile.cs:991-1014 | Operands at least `length` long never fail |
| ByteSearch.MemCmp | NsoElfConverterDotNet/Nx2elf/NsoFile.cs:991-1014 | The loop computes the recursive comparison, errors included |
| ByteSearch.HitDefined | NsoElfConverterDotNet/Nx2elf/NsoFile.cs:1016-1048 | Every window the forward search tries compares without error |
| ByteSearch.SearchFromLowest | NsoElfConverterDotNet/Nx2elf/NsoFile.cs:1016-1048 | Searching from an offset finds the lowest hit in [off, hl − nl), or gives 0 |
| ByteSearch.SearchLowest | NsoElfConverterDotNet/Nx2elf/NsoFile.cs:1016-1048 | `memmem*` returns the lowest hit in [0, hl − nl), never trying the last window. It returns 0 iff the hit is at 0 or there is none |
| ByteSearch.SearchNonZero | NsoElfConverterDotNet/Nx2elf/NsoFile.cs:1016-1048 | The result is non-zero iff offset 0 misses and some offset in (0, hl − nl) hits |
| ByteSearch.MemMem | NsoElfConverterDotNet/Nx2elf/NsoFile.cs:1016-1048 | The loop computes the recursive search |
| ByteSearch.SearchBackFromHighest | NsoElfConverterDotNet/Nx2elf/NsoFile.cs:1050-1065 | Searching down from an offset succeeds iff some offset at or below it hits. It then returns the highest hit, and a miss is the re-slice error |
| ByteSearch.SearchBackHighest | NsoElfConverterDotNet/Nx2elf/NsoFile.cs:1050-1065 | `memmemr` tries windows from hl − nl down to 0, and returns the highest hit in [0, hl − nl]; a full miss fails |
| ByteSearch.SearchBackFromHits | NsoElfConverterDotNet/Nx2elf/NsoFile.cs:1050-1065 | A result of the downward search from an offset is at most that offset and is a window the comparison accepts |
| ByteSearch.SearchBackHits | NsoElfConverterDotNet/Nx2elf/NsoFile.cs:1050-1065 | A result of `memmemr` lies between 0 and hl − nl, wrapped to `int`, and is a window the comparison accepts |
| ByteSearch.MemMemR | NsoElfConverterDotNet/Nx2elf/NsoFile.cs:1050-1065 | The loop computes the recursive reverse search |
| ByteSearch.EqualUpToIsEquality | NsoElfConverterDotNet/Nx2elf/NsoFile.cs:1004-1014 | The corrected comparison holds iff the two prefixes are equal |
| ByteSearch.IntendedSearchFromLowest | NsoElfConverterDotNet/Nx2elf/NsoFile.cs:1033-1048 | The corrected search from an offset finds the lowest matching window at or after it, and None iff there is none |
| ByteSearch.IntendedSearchLowest | NsoElfConverterDotNet/Nx2elf/NsoFile.cs:1033-1048 | The corrected search returns the lowest matching window, offset 0 and the last window included, and None iff nothing matches |
| ByteSearch.CompareAndNotEquality | NsoElfConverterDotNet/Nx2elf/NsoFile.cs:1009 | `memcmp([1],[2],1)` is 0 although the bytes differ |
| ByteSearch.SearchSkipsLastWindow | NsoElfConverterDotNet/Nx2elf/NsoFile.cs:1038 | In [7,8], the as-written comparison accepts the needle [7] only in the last window, at 1, yet the search returns 0. In [5,7], the corrected search finds [7] at 1 where the as-written one returns 0 |
| ByteSearch.SearchZeroAmbiguous | NsoElfConverterDotNet/Nx2elf/NsoFile.cs:1016-1048 | A hit at 0 ([1] in [2,1,1]) and a miss ([1] in [1,1,1]) both return 0. The corrected search tells Some(0) from None |
| NsoDynamic.ReadI32 | NsoElfConverterDotNet/Nx2elf/NsoFile.cs:1133-1138 | The signed word is in `int` range and congruent to the unsigned word |
| NsoDynamic.ModBase | NsoElfConverterDotNet/Nx2elf/NsoFile.cs:1116-1126 | Finding the module base succeeds iff the image has at least 8 bytes and the u32 at offset 4 is below 2^31 and within the image. The base is then that u32. An image under 8 bytes, and only such an image, is too short |
| NsoDynamic.ReadModHeader | NsoElfConverterDotNet/Nx2elf/NsoFile.cs:1128-1139 | Reading fails iff fewer than 28 bytes follow the module base. The magic is the first 4 bytes; the dynamic, eh-start and eh-end offsets are the signed words at 4, 16 and 20 |
| NsoDynamic.ModOffset | NsoElfConverterDotNet/Nx2elf/NsoFile.cs:176-180 | `mod_get_offset` succeeds iff 4 bytes exist at the offset, and gives the signed word there |
| NsoDynamic.EhInfoHdr | NsoElfConverterDotNet/Nx2elf/NsoFile.cs:182-183 | It succeeds iff both `mod_get_offset` reads succeed. The address is the word at eh_start. The size is in `int` range and congruent mod 2^32 to the word at eh_end minus the address |
| NsoDynamic.FieldsDetermine | NsoElfConverterDotNet/Nx2elf/NsoFile.cs:1154-1172 | Two `DynInfo` values with equal fields for the sixteen tags are equal |
| NsoDynamic.ApplyDyn | NsoElfConverterDotNet/Nx2elf/NsoFile.cs:60-110 | A recognised tag sets its own field to the value and nothing else; an unrecognised tag changes nothing |
| NsoDynamic.FoldIsLastOccurrence | NsoElfConverterDotNet/Nx2elf/NsoFile.cs:54-114 | After the walk, each recognised field holds the value of the tag's last occurrence, or 0 if it never occurs |
| NsoDynamic.FoldDyn | NsoElfConverterDotNet/Nx2elf/NsoFile.cs:60-110 | A field whose tag does not occur keeps its value, and entries with only unrecognised tags change nothing |
| NsoDynamic.FoldSkipsUnrecognised | NsoElfConverterDotNet/Nx2elf/NsoFile.cs:60-110 | Removing an unrecognised entry from anywhere does not change the result |
| NsoDynamic.DynEntryAt | NsoElfConverterDotNet/Nx2elf/NsoFile.cs:56-113 | Entry k is read at DynOffset + 16k from the module base and fails iff those 16 bytes are out of range |
| NsoDynamic.DynTableEnds | NsoElfConverterDotNet/Nx2elf/NsoFile.cs:113 | Beyond a bound every entry read fails, so the walk terminates |
| NsoDynamic.EntriesFrom | NsoElfConverterDotNet/Nx2elf/NsoFile.cs:58-113 | The walk's entries all have non-zero tags and stop before the bound past which every read fails |
| NsoDynamic.DynamicEntries | NsoElfConverterDotNet/Nx2elf/NsoFile.cs:54-114 | On success each visited record i reads at DynOffset + 16i with a non-zero tag, and the next record reads with tag 0. On failure some record before any tag 0 cannot be read. It succeeds iff no such unreadable record exists |
| NsoDynamic.ModuleEntriesRead | NsoElfConverterDotNet/Nx2elf/NsoFile.cs:54-114 | A successful walk from index 0 reads each record at DynOffset + 16i and ends on a readable tag-0 record |
| NsoDynamic.ModuleEntriesFail | NsoElfConverterDotNet/Nx2elf/NsoFile.cs:54-114 | A failed walk from index 0 has an unreadable record with only non-zero tags before it |
| NsoDynamic.ReadsNeverBreak | NsoElfConverterDotNet/Nx2elf/NsoFile.cs:54-114 | A walk that reaches its tag-0 record has no unreadable record before a zero tag |
| NsoDynamic.EntriesFromRead | NsoElfConverterDotNet/Nx2elf/NsoFile.cs:54-114 | On success, the entries are the table's consecutive non-zero-tag reads, and the next read has tag 0 |
| NsoDynamic.EntriesFromFail | NsoElfConverterDotNet/Nx2elf/NsoFile.cs:54-114 | On failure, some read fails before any zero tag |
| NsoDynamic.DynamicEntriesBytes | NsoElfConverterDotNet/Nx2elf/NsoFile.cs:54-114 | Visited entry i has Tag and Un equal to the u64s at DynOffset + 16i and +8, with a non-zero Tag; the terminating entry's tag is 0 |
| NsoDynamic.WalkEntries | NsoElfConverterDotNet/Nx2elf/NsoFile.cs:54-114 | The walk loop succeeds iff the entries can be read, and then gives their fold |
| NsoDynamic.WalkDynamic | NsoElfConverterDotNet/Nx2elf/NsoFile.cs:54-114 | The same, for the module's dynamic section |
| NsoDynamic.WalkIsLastOccurrence | NsoElfConverterDotNet/Nx2elf/NsoFile.cs:54-114 | The walk's result holds each recognised tag's last value |
| NsoScans.Lift | NsoElfConverterDotNet/Nx2elf/NsoFile.cs:161-168 | A search error becomes a module error, and a search value passes through |
| NsoScans.SegmentData | NsoElfConverterDotNet/Nx2elf/NsoFile.cs:163-165 | A segment's bytes are the image slice at `(int)MemoryOffset` of length `(int)MemorySize`; it fails iff that slice is out of range |
| NsoScans.PltSize | NsoElfConverterDotNet/Nx2elf/NsoFile.cs:149-151 | The PLT size is 32 + 16·(pltrelsz / 24) |
| NsoScans.NoteOffset | NsoElfConverterDotNet/Nx2elf/NsoFile.cs:163-168 | A segment under 16 bytes fails. An offset lies within the segment, and a non-zero one is an MD5 or SHA1 needle hit |
| NsoScans.NeedleSearchHits | NsoElfConverterDotNet/Nx2elf/NsoFile.cs:164-167 | A 16-byte needle's backward search fails on a segment under 16 bytes, and its answer is a hit inside the segment |
| NsoScans.ResolveStub | NsoElfConverterDotNet/Nx2elf/NsoFile.cs:119-152 | With pltrelsz 0 nothing is searched. The address is non-zero iff pltrelsz ≠ 0 and the lowest masked hit is after 0. It is then the lowest hit, with the PLT size |
| NsoScans.ResolvePlt | NsoElfConverterDotNet/Nx2elf/NsoFile.cs:119-152 | The same for the AArch64 PLT-stub pattern and mask |
| NsoScans.NoteOffsetMeaning | NsoElfConverterDotNet/Nx2elf/NsoFile.cs:157-168 | The search succeeds iff the MD5 needle hits, and, when its highest hit is at 0, the SHA1 needle hits too. A segment under 16 bytes fails. A non-zero offset is the highest MD5 hit, or the highest SHA1 hit when the MD5 one is at 0. Offset 0 means both highest hits are at 0 |
| NsoScans.NoteIn | NsoElfConverterDotNet/Nx2elf/NsoFile.cs:164-173 | It succeeds iff the segment search succeeds and its offset is 0 or leaves room for a note header in the whole image. A non-zero offset gives the note header read there; offset 0 gives none |
| NsoScans.FindNoteWith | NsoElfConverterDotNet/Nx2elf/NsoFile.cs:161-174 | The fold over segments keeps its initial note or takes one a segment gives, and fails only when some segment's search fails |
| NsoScans.FindNote | NsoElfConverterDotNet/Nx2elf/NsoFile.cs:161-174 | A note found is the one some segment gives, and the scan fails only when some segment's search fails |
| NsoScans.FindNoteIsLast | NsoElfConverterDotNet/Nx2elf/NsoFile.cs:161-174 | The scan succeeds iff every segment's search succeeds. Its note is the last segment's that has one, or the initial value if none does |
| NsoScans.RelaAt | NsoElfConverterDotNet/Nx2elf/NsoFile.cs:377 | Relocation i is read at `(int)(jmprel + 24i)`, and the read fails iff those 24 bytes are not inside the image |
| NsoScans.JumpSlotEndFrom | NsoElfConverterDotNet/Nx2elf/NsoFile.cs:375-382 | The loop's result is at least its start value, and it fails only when some remaining relocation cannot be read |
| NsoScans.JumpSlotEnd | NsoElfConverterDotNet/Nx2elf/NsoFile.cs:372-383 | With jmprel 0 the end is 0. A result is at least 0, and a failure comes from some relocation i below pltrelsz/24 that cannot be read |
| NsoScans.JumpSlotEndFromIsMax | NsoElfConverterDotNet/Nx2elf/NsoFile.cs:375-382 | The loop succeeds iff every relocation reads. The result is the maximum of the start value and the jump slots' `(int)(Offset + 8)` |
| NsoScans.JumpSlotEndIsMax | NsoElfConverterDotNet/Nx2elf/NsoFile.cs:372-383 | With jmprel 0 the end is 0. Otherwise it is the maximum over the jump slots among the pltrelsz/24 relocations, at least 0 |
| NsoScans.GotNeedle | NsoElfConverterDotNet/Nx2elf/NsoFile.cs:389 | The needle is the 8 LE bytes of `(ulong)DynOffset` |
| NsoScans.GotAddr | NsoElfConverterDotNet/Nx2elf/NsoFile.cs:386-395 | With no jump slots the GOT address is 0. Otherwise it fails iff the slot end lies outside the image. The image after the slots is searched for the needle: no earlier window hits, and a non-zero result is a hit. A result of 0 means a hit at 0 or no hit in any window |
| NsoScans.InitScanFrom | NsoElfConverterDotNet/Nx2elf/NsoFile.cs:409-416 | A scan result is (j + 1)·4, wrapped to `int`, for a byte position j at or after the start that holds a `ret` word |
| NsoScans.InitScanFromFinds | NsoElfConverterDotNet/Nx2elf/NsoFile.cs:409-416 | The `.init` scan succeeds iff a `ret` word occurs at some byte position. It gives (j + 1)·4 for the first such position j |
| NsoScans.InitRetOffset | NsoElfConverterDotNet/Nx2elf/NsoFile.cs:405-418 | With init 0 the offset is 0. Otherwise it succeeds iff `(int)init` is within the image and a `ret` word occurs somewhere after it. It then gives (j + 1)·4 for the first such byte position j |
| NsoScans.BranchIsTopByte | NsoElfConverterDotNet/Nx2elf/NsoFile.cs:426 | The masked test `(w & 0xff000000) == 0x14000000` is the top byte being 0x14 |
| NsoScans.FiniScanFrom | NsoElfConverterDotNet/Nx2elf/NsoFile.cs:424-431 | A scan result is at most 0x80. A non-zero one is (j + 1)·4 with a branch word at byte position j, after the start |
| NsoScans.FiniScanFromFinds | NsoElfConverterDotNet/Nx2elf/NsoFile.cs:424-431 | The `.fini` scan tries byte positions below 0x20. It fails iff the bytes end before position 0x20 with no branch among them. Otherwise it gives (j + 1)·4 for the first branch position j, or 0 when there is none |
| NsoScans.FiniBranchOffset | NsoElfConverterDotNet/Nx2elf/NsoFile.cs:420-433 | With fini 0 the offset is 0. Otherwise it fails iff `(int)fini` is outside the image, or the bytes end before position 0x20 with no branch among them. A non-zero result is (j + 1)·4 for the first branch position j; 0 means no branch below 0x20. The result is at most 0x80 |
| NsoSections.VaddrToShdrNames | NsoElfConverterDotNet/Nx2elf/NsoFile.cs:219-268 | The string table gains exactly the names of the segments the address falls in, and existing offsets do not move |
| NsoSections.ShdrStep | NsoElfConverterDotNet/Nx2elf/NsoFile.cs:222-265 | A segment that does not hold the address leaves header and table as they are. Otherwise the table gains the matched names, and existing offsets do not move |
| NsoSections.VaddrToShdr | NsoElfConverterDotNet/Nx2elf/NsoFile.cs:219-268 | An address in no segment gives the blank header and the unchanged table. The header type is NULL, PROGBITS or NOBITS |
| NsoSections.Classify | NsoElfConverterDotNet/Nx2elf/NsoFile.cs:219-268 | The address is unmapped iff it matches no section name. Text wins only when text is the only match. Rodata and bss results carry their own names among the matches, and data lies in the data segment |
| NsoSections.SectionHeader | NsoElfConverterDotNet/Nx2elf/NsoFile.cs:219-268 | The header is NULL iff the address is unmapped and NOBITS iff it lies in bss. A mapped header has AddrAlign 8 and zero Offset, Link, Info and EntSize |
| NsoSections.VaddrToShdrClassifies | NsoElfConverterDotNet/Nx2elf/NsoFile.cs:219-268 | Data, then bss, then rodata, then text wins. The header is the PROGBITS header of that segment (its name's offset, its flags, Addr, Size, AddrAlign 8) or the NOBITS bss header at the data end. Type stays NULL iff the address is unmapped |
| NsoSections.LoadPhdrsContiguous | NsoElfConverterDotNet/Nx2elf/NsoFile.cs:527-568 | The three `PT_LOAD` headers get flags R+X, R, R+W, VAddr = PAddr = MemoryOffset and FileSize = MemorySize. Offsets start at the cursor and advance by each FileSize. Text and rodata have MemSize = FileSize and take Align from the descriptor's 4th word. Data has MemSize = size + bss, wrapped to 32 bits, and Align 1 |
| NsoSections.LoadPhdr | NsoElfConverterDotNet/Nx2elf/NsoFile.cs:528-568 | A `PT_LOAD` header has VAddr = PAddr = MemoryOffset and FileSize = MemorySize. Its offset is the cursor modulo 2^64, exactly the cursor when that is below 2^31. Only the data header can have MemSize below FileSize |
| NsoSections.LoadPhdrs | NsoElfConverterDotNet/Nx2elf/NsoFile.cs:527-568 | There are three `PT_LOAD` headers, each at its segment's MemoryOffset with FileSize = MemorySize, and the first starts at the cursor |
| NsoSections.NextCursor | NsoElfConverterDotNet/Nx2elf/NsoFile.cs:567 | The cursor advances by the segment size wrapped to `int`, exactly when no overflow happens |
| NsoSections.FileOffsetFromFirst | NsoElfConverterDotNet/Nx2elf/NsoFile.cs:509-522 | The first program header containing the address gives Offset + (v − VAddr); none gives 0 |
| NsoSections.VaddrToFileOffset | NsoElfConverterDotNet/Nx2elf/NsoFile.cs:509-522 | An address in none of the three headers maps to 0. Otherwise the first header containing it gives Offset + (v − VAddr), wrapped to 64 bits |
| NsoSections.FileOffsetOfLoad | NsoElfConverterDotNet/Nx2elf/NsoFile.cs:509-568 | For the built headers, an address in segment i and in no earlier one maps to that header's offset plus its distance into the segment |
| NsoSections.FileOffsetUnmapped | NsoElfConverterDotNet/Nx2elf/NsoFile.cs:509-568 | An address in no segment maps to 0 |
| NsoSections.InsertStart | NsoElfConverterDotNet/Nx2elf/NsoFile.cs:618-631 | The search start is at least 1 |
| NsoSections.OrderedStartIsLastCover | NsoElfConverterDotNet/Nx2elf/NsoFile.cs:620-631 | An ordered insert starts after the key of the last known section covering the address, or at 1 if none covers it |
| NsoSections.FirstFreeLowest | NsoElfConverterDotNet/Nx2elf/NsoFile.cs:633-642 | The free-slot search finds the lowest empty slot at or after its start, or none iff all are taken |
| NsoSections.InsertShdr | NsoElfConverterDotNet/Nx2elf/NsoFile.cs:616-651 | The insertion loop, with its retry, computes the intended insertion |
| NsoSections.InsertShdrAsWritten | NsoElfConverterDotNet/Nx2elf/NsoFile.cs:616-651 | As written, the insert takes slot `start` whenever it exists. A non-zero index overwrites that slot whatever it holds; index 0 leaves the slots unchanged |
| NsoSections.IntendedInsertionFillsFreeSlot | NsoElfConverterDotNet/Nx2elf/NsoFile.cs:616-651 | A non-zero index is the lowest empty slot from the start, or from 1 after a warning, and only that slot changes. Index 0 means every such slot is taken. The warning fires iff an ordered insert with start ≠ 1 found no slot |
| NsoSections.InsertShdrOverwrites | NsoElfConverterDotNet/Nx2elf/NsoFile.cs:636-641 | The as-written insert into [empty, h, empty] overwrites h at 1; the intended one fills slot 2 |
| Align.AlignDownRoundsDown | NsoElfConverterDotNet/Nx2elf/NsoFile.cs:1067 | For an alignment 2^k, the mask `x & ~(align-1)` is the greatest multiple of 2^k not above x, negative x included |
| Align.AlignUpRoundsUp | NsoElfConverterDotNet/Nx2elf/NsoFile.cs:1068 | Without overflow, `ALIGN_UP` is the least multiple of 2^k not below x |
| Align.AlignDownAligned | NsoElfConverterDotNet/Nx2elf/NsoFile.cs:1067 | An aligned value is left unchanged |
| Align.AlignDown | NsoElfConverterDotNet/Nx2elf/NsoFile.cs:1067 | The mask stays within `long` range |
| Align.AlignUp | NsoElfConverterDotNet/Nx2elf/NsoFile.cs:1068 | The rounded-up value stays within `long` range, wrapping as C# does |
| ElfEh.ReadEhFrameHdr | NsoElfConverterDotNet/Structures/Elf/ElfEh.cs:10-18 | Reading the four one-byte fields (version, eh_frame_ptr_enc, fde_count_enc, table_enc) succeeds iff there are at least 4 bytes |
| ElfEh.EhFrameHdrRoundTrip | NsoElfConverterDotNet/Structures/Elf/ElfEh.cs:12-18 | Reading an encoded header, followed by anything, gives it back |
| ElfEh.EhFrameHdrPrefix | NsoElfConverterDotNet/Structures/Elf/ElfEh.cs:12-18 | Encoding what was read gives the first 4 bytes back |
| ElfEh.DwDecode | NsoElfConverterDotNet/Structures/Elf/ElfEh.cs:89-128 | An unknown base, including omit, is an error, and so is an unknown format. A success advances the cursor by the format width, 2 or 4, within the image |
| ElfEh.DwDecodeDirect | NsoElfConverterDotNet/Structures/Elf/ElfEh.cs:92-122 | Without indirection, the value is base + the LE word at the cursor, wrapping in u32. The base is absptr 0, pcrel the cursor, or datarel the header offset |
| ElfEh.DwDecodeRoundTrip | NsoElfConverterDotNet/Structures/Elf/ElfEh.cs:89-122 | Decoding a pointer encoded for any supported base and format gives the value back |
| ElfEh.DwDecodeIndirect | NsoElfConverterDotNet/Structures/Elf/ElfEh.cs:123-126 | With bit 0x80 set, the value is the LE u32 at `(int)` of the direct value, and the cursor is the direct one |
| ElfEh.FdeLen | NsoElfConverterDotNet/Structures/Elf/ElfEh.cs:130-140 | The FDE length is the u32 at the cursor; 0xffffffff or an out-of-range read is an error |
| ElfEh.MeasureEntries | NsoElfConverterDotNet/Structures/Elf/ElfEh.cs:144-150 | The table loop's maximum is at least its start value |
| ElfEh.MeasureEntriesIsMaxFrom | NsoElfConverterDotNet/Structures/Elf/ElfEh.cs:144-150 | The sequential table loop equals a fold over entries at a fixed stride of width + 4 |
| ElfEh.MaxFromIsMax | NsoElfConverterDotNet/Structures/Elf/ElfEh.cs:144-150 | The fold succeeds iff every entry does. It is at least the start value and every entry's desc + len, and equals one of them |
| ElfEh.MeasureFrameMeaning | NsoElfConverterDotNet/Structures/Elf/ElfEh.cs:77-160 | A header out of range is an error, and version ≠ 1 gives (false, 0, 0). With version 1, success means found, and it happens iff the pointer, the count and every table entry decode. The pointer is then the first decode at offset + 4, and the length is the maximum entry end, or 0 |
| ElfEh.MeasureFrame | NsoElfConverterDotNet/Structures/Elf/ElfEh.cs:77-160 | A header out of range is an error. A result is found iff the version byte is 1, and a result not found is (false, 0, 0) |
| ElfEh.MeasureFrameVersion1 | NsoElfConverterDotNet/Structures/Elf/ElfEh.cs:77-160 | With version 1 in range, success means found, and it happens iff the pointer, the count and every table entry decode |

## Left out

- LZ4 compression and decompression, and SHA-256, are function-typed parameters `compress` and `sha256`. The NSO constructor's decompression of the three segments into the image (`NsoFile.cs:20-48`) is not modelled; the decompressed image is a parameter of the NSO-side functions.
- `NsoElfConverter.cs`, `Nx2Elf.cs`, `Interop/*.cs` and the console `Program.cs` are left out: file I/O, temporary files, native library loading and process spawning.
- `ToElf`'s in-place assembly of the ELF buffer is not modelled as a whole (`NsoFile.cs:210-989`). Layout is modelled as values through its parts: `vaddrToShdr`, the `PT_LOAD` headers, `vaddr_to_foffset`, `insert_shdr` and the string table. The whole-file layout is left out:
  - `EhSize` and `ShOff` (:494, :500);
  - the `PT_DYNAMIC` and `PT_GNU_EH_FRAME` headers (:569-597), whose size loop re-reads one entry;
  - the phdr written over segment data (:556);
  - the `sh_offset` fixup (:559-565).
- `NsoFile.cs:670-984` is untranslated C++ rather than C#, so it is not part of this model.
- The symbol-driven section profiling and backfill (`NsoFile.cs:201-329`, including `nextFree`) and the `ALLOC_SHDR_IF` bookkeeping (:362-403) are left out. `IterateDynamic` re-reads one symbol each time, so there is no stable behaviour to state.
- `StringTable.Build` always throws (`NsoFile.cs:1110-1113`), and `ToElf` calls it unconditionally (`NsoFile.cs:466`). So every `ToElf` call throws there, as written. The code after that call is never reached: the `PT_LOAD` headers (:524-568) and the `vaddr_to_foffset` and `insert_shdr` calls (:574, :594, :661, :664). The model gives those parts the behaviour the code evidently intends. `GetBuffer` is left out with `Build`.
- NsoSections.InsertShdrAsWritten: slots are whole header records. The as-written 68-byte `Elf64Shdr.Write` (`Elf64Shdr.cs:57`, see Findings) would also overwrite the first 4 bytes, the `Name`, of the next slot. That spill is not modelled.
- The warning `insert_shdr` writes to standard error is the returned `Warned` flag.
- `Elf64Common.cs` is reduced to the constants the model uses. `GnuBuildId.cs`, `NsoSegmentType.cs` (used as 0/1/2) and `GlobalSuppressions.cs` hold no behaviour.
- NsoScans.NoteIn: the note header is read at the segment-relative offset in the whole image, as written (`NsoFile.cs:172`). It is not re-based on the segment's memory offset.
- ElfEh.FdeLen: the FDE length is read at the cursor and not at the decoded descriptor, as written (`ElfEh.cs:132`).
- ElfEh.MeasureEntriesIsMaxFrom: the loop runs `fdeCount` times on an unbounded counter. The source's `int` index could in principle wrap after 2^31 iterations, but the reads fail long before that.
- ElfEh.DwDecode: the encoding's base, format and indirect fields (`enc & 0x70`, `& 0x0f`, `& 0x80`) are computed with division and remainder, which is the same on a byte.
- Align.AlignDownRoundsDown: the bitwise mask is modelled for every alignment, but its meaning is proved only for power-of-two alignments below 2^63, the only kind the converter passes (0x10).
- Align.AlignUpRoundsUp: the rounding-up property is stated only when `x + align - 1` does not overflow a `long`. The model itself wraps.
- ElfToNso.SegmentData: the segment bytes are pinned down modulo 2^32 only. `SegmentDataInFile` gives the exact slice when the input is below 2^31 bytes.
- StringTables.AddString: name lengths are counted in characters. The source advances the watermark by the UTF-16 length (`str.Length + 1`, `NsoFile.cs:1091`), and the two agree for the ASCII section-name literals the converter passes (`NsoFile.cs:213`, `:241-258`, `:341-343`, `:450-464`).
- NsoSections.LoadPhdrsContiguous: offsets are stated without wrap-around only while the running file offset stays below 2^31. The function itself applies C#'s `int` wrap.
- NsoSections.FileOffsetOfLoad: stated under the same bound as `LoadPhdrsContiguous`.
- The `NsoFile` constructor reads its header with the as-written reader (`NsoFile.cs:27`), which always throws (see Findings). So every `NsoFile` construction throws there, as written, and none of the NSO-side code after it is reached. The NSO-side functions (`NsoDynamic`, `NsoScans`, `NsoSections`) do not read a header at all: they take the three segment descriptors and the decompressed image as parameters.

## Findings

| source | as written | input that shows it | evidently intended | confidence | as-written member | corrected member |
|---|---|---|---|---|---|---|
| NsoElfConverterDotNet/Structures/Elf/Elf64Shdr.cs:57 | `Write` emits `Info` as a u64. That shifts AddrAlign and EntSize by 4 bytes and writes 68 bytes into a 64-byte slot | a header with AddrAlign 8 reads back with AddrAlign 8·2^32 | `Info` written as u32, matching both readers | not executed | ElfStructures.ShdrAsWrittenLosesAlignment | ElfStructures.ShdrRoundTrip |
| NsoElfConverterDotNet/Structures/NsoHeader.cs:56-59 | The reader indexes `Hashes[i]` of a freshly created empty `List`, so it always throws | the serialisation of the default header | the three hashes read into a list of three | not executed | NsoStructures.NsoHeaderAsWrittenFails | NsoStructures.NsoHeaderRoundTrip |
| NsoElfConverterDotNet/Nx2elf/NsoFile.cs:991-1014 | `memcmp*` accumulate `a[k] & b[k]` (`& mask[k]`), which is 0 for many unequal bytes | `memcmp([1],[2],1)` returns 0 | comparison of `a[k] & mask[k]` with `b[k] & mask[k]` | not executed | ByteSearch.CompareAndNotEquality | ByteSearch.EqualUpToIsEquality |
| NsoElfConverterDotNet/Nx2elf/NsoFile.cs:1016-1048 | `memmem*` loop while `offset < haystackLength - needleLength`, never trying the last window | needle [7] in [7,8]: the only window the comparison accepts is the last, at 1, and the result is 0 | offsets up to and including `haystackLength - needleLength` | not executed | ByteSearch.SearchSkipsLastWindow | ByteSearch.IntendedSearchLowest |
| NsoElfConverterDotNet/Nx2elf/NsoFile.cs:1016-1048 | A hit at offset 0 and a miss both return 0, and callers treat 0 as "not found" | needle [1] in [2,1,1], which the comparison accepts at 0, returns 0, as does needle [1] in [1,1,1], which it accepts nowhere | an explicit "not found" result | not executed | ByteSearch.SearchZeroAmbiguous | ByteSearch.IntendedSearchLowest |
| NsoElfConverterDotNet/Nx2elf/NsoFile.cs:636 | `insert_shdr` tests a freshly built blank header instead of slot i, so it always takes slot `start` and overwrites what is there | slots [empty, h, empty], unordered insert of s | the first empty slot from `start`, with the retry from 1 | not executed | NsoSections.InsertShdrOverwrites | NsoSections.IntendedInsertionFillsFreeSlot |

=== FILE: align.dfy ===
/** The alignment helpers of the NSO-to-ELF reconstruction (`ALIGN_DOWN` and
    `ALIGN_UP` on 64-bit signed integers). `ALIGN_DOWN` clears the bits of
    `align - 1` with a bitwise mask; for a power-of-two alignment that is
    rounding down to a multiple of it, and `ALIGN_UP` rounds up by first
    adding `align - 1` in wrapping 64-bit arithmetic. */
module Align {
  import opened Bytes

  const TWO_63: int := 0x8000_0000_0000_0000

  /** A C# `long`. */
  predicate InLong(x: int) {
    -TWO_63 <= x < TWO_63
  }

  function Pow2(k: nat): (r: nat)
    ensures r >= 1
  {
    if k == 0 then 1 else 2 * Pow2(k - 1)
  }

  lemma {:induction false} Pow2Grows(k: nat, n: nat)
    requires k <= n
    ensures Pow2(k) <= Pow2(n)
    ensures Pow2(n) % Pow2(k) == 0
    decreases n
  {
    if k < n {
      Pow2Grows(k, n - 1);
      var q := Pow2(n - 1) / Pow2(k);
      assert Pow2(n - 1) == Pow2(k) * q;
      assert Pow2(n) == Pow2(k) * (2 * q);
      DivModUnique(Pow2(n), Pow2(k), 2 * q, 0);
    }
  }

  lemma Pow2Of64()
    ensures Pow2(64) == TWO_64 && Pow2(63) == TWO_63
  {
    assert Pow2(2) == 4;
    assert Pow2(4) == 16 by { Pow2AddSplit(2, 2); }
    assert Pow2(8) == 256 by { Pow2AddSplit(4, 4); }
    assert Pow2(16) == 0x1_0000 by { Pow2AddSplit(8, 8); }
    assert Pow2(32) == 0x1_0000 * 0x1_0000 by { Pow2AddSplit(16, 16); }
    assert Pow2(31) == 0x8000_0000 by { assert Pow2(32) == 2 * Pow2(31); }
    assert Pow2(63) == Pow2(31) * Pow2(32) by { Pow2AddSplit(31, 32); }
    assert Pow2(64) == Pow2(32) * Pow2(32) by { Pow2AddSplit(32, 32); }
  }

  lemma {:induction false} Pow2AddSplit(m: nat, n: nat)
    ensures Pow2(m + n) == Pow2(m) * Pow2(n)
    decreases m
  {
    if m > 0 {
      Pow2AddSplit(m - 1, n);
      assert Pow2(m + n) == 2 * Pow2(m - 1 + n);
    }
  }

  /** `ALIGN_DOWN(x, align) = x & ~(align - 1)`: the two's-complement bit
      patterns of `x` and of `~(align - 1) = -align` ANDed and read back as
      a `long`. */
  function AlignDown(x: int, align: int): (r: int)
    requires InLong(x) && InLong(align)
    ensures InLong(r)
  {
    var bits := BitAnd(x % TWO_64, (-align) % TWO_64);
    I64(bits)
  }

  /** `ALIGN_UP(x, align) = ALIGN_DOWN(x + (align - 1), align)`, the sum
      wrapping as unchecked `long` arithmetic does. */
  function AlignUp(x: int, align: int): (r: int)
    requires InLong(x) && InLong(align)
    ensures InLong(r)
  {
    AlignDown(I64((x + (align - 1)) % TWO_64), align)
  }

  /** A mask of the low `n` bits keeps every value of `n` bits. */
  lemma {:induction false} BitAndAllOnes(u: nat, n: nat)
    requires u < Pow2(n)
    ensures BitAnd(u, Pow2(n) - 1) == u
    decreases n
  {
    if u != 0 {
      assert n > 0;
      var b := Pow2(n) - 1;
      assert b % 2 == 1 && b / 2 == Pow2(n - 1) - 1;
      BitAndAllOnes(u / 2, n - 1);
    }
  }

  /** Splitting off the lowest bit of a remainder by an even modulus. */
  lemma LowBitMod(u: nat, p: nat)
    requires p >= 1
    ensures u % (2 * p) == 2 * ((u / 2) % p) + u % 2
  {
    var s := (u / 2) % p;
    var q := (u / 2) / p;
    assert u / 2 == p * q + s;
    assert u == (2 * p) * q + (2 * s + u % 2);
    DivModUnique(u, 2 * p, q, 2 * s + u % 2);
  }

  /** The mask of an `n`-bit word with bits `k..n-1` set. */
  function HighBits(n: nat, k: nat): (m: nat)
    requires k <= n
    ensures m + Pow2(k) == Pow2(n)
  {
    Pow2Grows(k, n);
    Pow2(n) - Pow2(k)
  }

  lemma HighBitsHalf(n: nat, k: nat)
    requires 0 < k < n
    ensures HighBits(n, k) != 0 && HighBits(n, k) % 2 == 0
    ensures HighBits(n, k) / 2 == HighBits(n - 1, k - 1)
  {
    Pow2Grows(k, n - 1);
    var h := HighBits(n - 1, k - 1);
    assert HighBits(n, k) == 2 * h;
  }

  lemma BitAndEven(u: nat, b: nat)
    requires u != 0 && b != 0 && b % 2 == 0
    ensures BitAnd(u, b) == 2 * BitAnd(u / 2, b / 2)
  {
    assert (u % 2) * (b % 2) == 0;
  }

  /** Doubling a value whose low `k - 1` bits are cleared. */
  lemma DoubleCleared(u: nat, p: nat)
    requires p >= 1
    ensures 2 * (u / 2 - (u / 2) % p) == u - u % (2 * p)
  {
    LowBitMod(u, p);
    assert u == 2 * (u / 2) + u % 2;
  }

  /** ANDing an `n`-bit value with the mask that has bits `k..n-1` set
      clears exactly its low `k` bits. */
  lemma {:induction false} BitAndClearsLow(u: nat, n: nat, k: nat)
    requires k <= n && u < Pow2(n)
    ensures BitAnd(u, HighBits(n, k)) == u - u % Pow2(k)
    decreases n
  {
    if k == 0 {
      BitAndAllOnes(u, n);
    } else if n == k {
      DivModUnique(u, Pow2(k), 0, u);
    } else if u != 0 {
      var b := HighBits(n, k);
      HighBitsHalf(n, k);
      BitAndEven(u, b);
      BitAndClearsLow(u / 2, n - 1, k - 1);
      DoubleCleared(u, Pow2(k - 1));
    }
  }

  /** A power of two below `2^63` has an exponent below 63. */
  lemma SmallExponent(k: nat)
    requires Pow2(k) < TWO_63
    ensures k < 63 && InLong(Pow2(k))
  {
    if k >= 63 {
      Pow2Grows(63, k);
      Pow2Of64();
    }
  }

  /** Reducing modulo `2^64` keeps the residue modulo any divisor of `2^64`. */
  lemma ResidueThroughTwo64(x: int, p: nat)
    requires p >= 1 && TWO_64 % p == 0
    ensures (x % TWO_64) % p == x % p
  {
    var u := x % TWO_64;
    var m := TWO_64 / p;
    assert TWO_64 == p * m;
    var c := x / TWO_64;
    assert x == TWO_64 * c + u;
    assert x == p * (m * c) + u;
    assert u == p * (u / p) + u % p;
    assert x == p * (m * c + u / p) + u % p;
    DivModUnique(x, p, m * c + u / p, u % p);
  }

  /** Rounding a `long` down to a multiple of a divisor of `2^63` stays a
      `long`, because `-2^63` is itself such a multiple. */
  lemma RoundDownInLong(x: int, p: nat)
    requires InLong(x) && p >= 1 && TWO_63 % p == 0
    ensures (x - x % p) % p == 0 && InLong(x - x % p)
  {
    var q := x / p;
    assert x == p * q + x % p;
    DivModUnique(x - x % p, p, q, 0);
    var t := TWO_63 / p;
    assert TWO_63 == p * t;
    assert q >= -t by {
      if q < -t {
        MulLe(p, q, -t - 1);
        assert false;
      }
    }
    MulLe(p, -t, q);
    assert p * (-t) == -TWO_63;
  }

  lemma MulLe(p: int, a: int, b: int)
    requires p >= 0 && a <= b
    ensures p * a <= p * b
  {
    assert p * b - p * a == p * (b - a);
  }

  /** The `ulong` bit pattern of `-p`. */
  lemma NegativePattern(p: int)
    requires 0 < p < TWO_64
    ensures (-p) % TWO_64 == TWO_64 - p
  {
    DivModUnique(-p, TWO_64, -1, TWO_64 - p);
  }

  /** Clearing the low bits of the `ulong` pattern of a `long` and reading
      the pattern back as a `long` rounds the `long` down. */
  lemma RoundDownPattern(x: int, p: nat)
    requires InLong(x) && p >= 1 && TWO_64 % p == 0 && TWO_63 % p == 0
    ensures var u := x % TWO_64;
      && 0 <= u - u % p < TWO_64
      && I64(u - u % p) == x - x % p
  {
    var u := x % TWO_64;
    ResidueThroughTwo64(x, p);
    RoundDownInLong(x, p);
    if x < 0 {
      assert u == x + TWO_64;
    }
  }

  /** For an alignment `2^k` that is a positive `long`, `ALIGN_DOWN` rounds
      down (toward negative infinity) to a multiple of the alignment: the
      result is the greatest multiple of `2^k` not above `x`. */
  lemma AlignDownRoundsDown(x: int, k: nat)
    requires InLong(x) && Pow2(k) < TWO_63
    ensures InLong(Pow2(k))
    ensures var r := AlignDown(x, Pow2(k));
      && r % Pow2(k) == 0 && r <= x < r + Pow2(k)
      && r == x - x % Pow2(k)
  {
    SmallExponent(k);
    Pow2Of64();
    Pow2Grows(k, 64);
    Pow2Grows(k, 63);
    var p := Pow2(k);
    NegativePattern(p);
    assert (-p) % TWO_64 == HighBits(64, k);
    BitAndClearsLow(x % TWO_64, 64, k);
    RoundDownPattern(x, p);
    RoundDownInLong(x, p);
  }

  /** For an alignment `2^k` and an `x` where `x + 2^k - 1` does not
      overflow, `ALIGN_UP` rounds up: the result is the least multiple of
      `2^k` not below `x`. */
  lemma AlignUpRoundsUp(x: int, k: nat)
    requires InLong(x) && Pow2(k) < TWO_63 && x + Pow2(k) - 1 < TWO_63
    ensures InLong(Pow2(k))
    ensures var r := AlignUp(x, Pow2(k));
      && r % Pow2(k) == 0 && x <= r < x + Pow2(k)
  {
    SmallExponent(k);
    var y := x + (Pow2(k) - 1);
    LongPatternBack(y);
    assert AlignUp(x, Pow2(k)) == AlignDown(y, Pow2(k));
    AlignDownRoundsDown(y, k);
  }

  /** A `long` survives the trip through its `ulong` bit pattern. */
  lemma LongPatternBack(y: int)
    requires InLong(y)
    ensures I64(y % TWO_64) == y
  {
    if y < 0 {
      DivModUnique(y, TWO_64, -1, y + TWO_64);
    } else {
      DivModUnique(y, TWO_64, 0, y);
    }
  }

  /** Rounding down leaves an already aligned value alone. */
  lemma AlignDownAligned(x: int, k: nat)
    requires InLong(x) && Pow2(k) < TWO_63 && x % Pow2(k) == 0
    ensures InLong(Pow2(k))
    ensures AlignDown(x, Pow2(k)) == x
  {
    AlignDownRoundsDown(x, k);
  }
}

=== FILE: byte_search.dfy ===
/** The byte-pattern searches the NSO-to-ELF reconstruction uses to find the
    PLT stub, the GOT and the GNU build-id note (`memcmp`, `memcmp_m`,
    `memmem`, `memmem_m`, `memmemr` in `NsoFile`).

    As written, a "comparison" ANDs the two bytes (and the mask) instead of
    comparing them, so it reports 0 when the bytes share no set bit; the
    forward searches stop one offset short of the last window and answer 0
    both for a hit at offset 0 and for a miss. The functions below model
    that behaviour exactly; `EqualUpTo` and `IntendedSearch` are the
    evident intent, kept apart and proved correct. */
module ByteSearch {
  import opened Bytes
  import opened Results

  /** `IndexOutOfRangeException` when a comparison reads past one of its
      spans; `ArgumentOutOfRangeException` when a span cannot be re-sliced. */
  datatype SearchError = IndexOutOfRange | SliceOutOfRange

  /** The k-th step of a comparison: `a[k] & b[k]`, further ANDed with
      `mask[k]` in the masked variant (`mask` is `None` for `memcmp`). */
  function Probe(a: seq<byte>, b: seq<byte>, mask: Option<seq<byte>>, k: nat): (r: Result<nat, SearchError>)
    ensures r.Err? <==> k >= |a| || k >= |b| || (mask.Some? && k >= |mask.value|)
    ensures r.Ok? ==> r.value <= a[k] && r.value <= b[k]
    ensures r.Ok? && mask.Some? ==> r.value <= mask.value[k]
  {
    if k < |a| && k < |b| && (mask.None? || k < |mask.value|) then
      var x := BitAnd(a[k], b[k]);
      Ok(if mask.Some? then BitAnd(x, mask.value[k]) else x)
    else Err(IndexOutOfRange)
  }

  /** The comparison loop from position k on: the first non-zero probe, or
      0 once `length` positions have probed zero. */
  function CompareFrom(a: seq<byte>, b: seq<byte>, mask: Option<seq<byte>>, length: int, k: nat)
    : Result<nat, SearchError>
    decreases length - k
  {
    if k >= length then Ok(0)
    else
      var x :- Probe(a, b, mask, k);
      if x != 0 then Ok(x) else CompareFrom(a, b, mask, length, k + 1)
  }

  /** `memcmp_m(a, b, mask, length)` (or `memcmp(a, b, length)` for `None`). */
  function Compare(a: seq<byte>, b: seq<byte>, mask: Option<seq<byte>>, length: int): Result<nat, SearchError> {
    CompareFrom(a, b, mask, length, 0)
  }

  /** The comparison reports 0 exactly when every probe below `length` is 0
      (no shared set bit), not when the bytes are equal. */
  lemma {:induction false} CompareZero(a: seq<byte>, b: seq<byte>, mask: Option<seq<byte>>, length: int, k: nat)
    ensures (CompareFrom(a, b, mask, length, k) == Ok(0)) <==>
            (forall i :: k <= i < length ==> Probe(a, b, mask, i) == Ok(0))
    decreases length - k
  {
    if k < length {
      CompareZero(a, b, mask, length, k + 1);
      if Probe(a, b, mask, k) == Ok(0) {
        forall i | k <= i < length && forall i' :: k + 1 <= i' < length ==> Probe(a, b, mask, i') == Ok(0)
          ensures Probe(a, b, mask, i) == Ok(0)
        {
          if i > k {
            assert k + 1 <= i < length;
          }
        }
      }
    }
  }

  /** Otherwise the result is the outcome of the first probe that is not 0:
      its non-zero value, or the index error of running off a span. */
  lemma {:induction false} CompareFirst(a: seq<byte>, b: seq<byte>, mask: Option<seq<byte>>, length: int,
                                        k: nat, f: nat)
    requires k <= f < length
    requires forall i :: k <= i < f ==> Probe(a, b, mask, i) == Ok(0)
    requires Probe(a, b, mask, f) != Ok(0)
    ensures CompareFrom(a, b, mask, length, k) == Probe(a, b, mask, f)
    decreases f - k
  {
    if k < f {
      assert Probe(a, b, mask, k) == Ok(0);
      CompareFirst(a, b, mask, length, k + 1, f);
    }
  }

  /** Within the spans the comparison never fails. */
  lemma {:induction false} CompareInRange(a: seq<byte>, b: seq<byte>, mask: Option<seq<byte>>, length: int, k: nat)
    requires length <= |a| && length <= |b| && (mask.Some? ==> length <= |mask.value|)
    ensures CompareFrom(a, b, mask, length, k).Ok?
    decreases length - k
  {
    if k < length {
      CompareInRange(a, b, mask, length, k + 1);
    }
  }

  /** The `while (length-- > 0 && x == 0)` loop of `memcmp_m`/`memcmp`. */
  method MemCmp(a: seq<byte>, b: seq<byte>, mask: Option<seq<byte>>, length: int)
    returns (r: Result<nat, SearchError>)
    ensures r == Compare(a, b, mask, length)
  {
    var x: nat := 0;
    var n := length;
    var i := 0;
    while n > 0 && x == 0
      invariant 0 <= i && n == length - i
      invariant x == 0 ==> CompareFrom(a, b, mask, length, i) == Compare(a, b, mask, length)
      invariant x != 0 ==> Ok(x) == Compare(a, b, mask, length)
      decreases n
    {
      n := n - 1;
      if i >= |a| || i >= |b| || (mask.Some? && i >= |mask.value|) {
        return Err(IndexOutOfRange);
      }
      x := BitAnd(a[i], b[i]);
      if mask.Some? {
        x := BitAnd(x, mask.value[i]);
      }
      i := i + 1;
    }
    return Ok(x);
  }

  /** A window at offset o "matches" in the sense of the source: the
      comparison of the span starting there with the needle reports 0. */
  predicate Hit(hay: seq<byte>, needle: seq<byte>, mask: Option<seq<byte>>, nl: int, o: nat) {
    o <= |hay| && Compare(hay[o..], needle, mask, nl) == Ok(0)
  }

  /** The forward scan of `memmem_m`/`memmem` from offset `off`, which is
      also the current start of the re-sliced span `p`. */
  function SearchFrom(hay: seq<byte>, hl: int, needle: seq<byte>, mask: Option<seq<byte>>, nl: int, off: nat)
    : (r: Result<int, SearchError>)
    requires off <= |hay|
    decreases I32(hl - nl) - off
  {
    if off >= I32(hl - nl) then Ok(0)
    else
      var x :- Compare(hay[off..], needle, mask, nl);
      if x == 0 then Ok(off)
      else if off + 1 > |hay| then Err(SliceOutOfRange)
      else SearchFrom(hay, hl, needle, mask, nl, off + 1)
  }

  /** `memmem_m(haystack, haystackLength, needle, mask, needleLength)`, and
      `memmem` for `mask == None`. */
  function Search(hay: seq<byte>, hl: int, needle: seq<byte>, mask: Option<seq<byte>>, nl: int)
    : Result<int, SearchError>
  {
    SearchFrom(hay, hl, needle, mask, nl, 0)
  }

  /** The callers' situation: the lengths passed are those of the spans. */
  predicate InRange(hay: seq<byte>, hl: int, needle: seq<byte>, mask: Option<seq<byte>>, nl: int) {
    && 0 <= nl <= hl < 0x8000_0000
    && hl <= |hay| && nl <= |needle| && (mask.Some? ==> nl <= |mask.value|)
  }

  lemma HitDefined(hay: seq<byte>, hl: int, needle: seq<byte>, mask: Option<seq<byte>>, nl: int, o: nat)
    requires InRange(hay, hl, needle, mask, nl) && o + nl <= hl
    ensures Compare(hay[o..], needle, mask, nl).Ok?
  {
    CompareInRange(hay[o..], needle, mask, nl, 0);
  }

  /** The forward scan from `off` finds the lowest hit in [off, hl - nl),
      and answers 0 when there is none. */
  lemma {:induction false} SearchFromLowest(hay: seq<byte>, hl: int, needle: seq<byte>, mask: Option<seq<byte>>,
                                            nl: int, off: nat)
    requires InRange(hay, hl, needle, mask, nl) && off <= |hay|
    ensures var r := SearchFrom(hay, hl, needle, mask, nl, off);
      && r.Ok?
      && (forall o :: off <= o < r.value ==> !Hit(hay, needle, mask, nl, o))
      && (r.value != 0 ==> off <= r.value < hl - nl && Hit(hay, needle, mask, nl, r.value))
      && (r.value == 0 ==> (off == 0 && 0 < hl - nl && Hit(hay, needle, mask, nl, 0))
                           || forall o :: off <= o < hl - nl ==> !Hit(hay, needle, mask, nl, o))
    decreases hl - nl - off
  {
    I32Small(hl - nl);
    if off < hl - nl {
      HitDefined(hay, hl, needle, mask, nl, off);
      if !Hit(hay, needle, mask, nl, off) {
        SearchFromLowest(hay, hl, needle, mask, nl, off + 1);
        var r := SearchFrom(hay, hl, needle, mask, nl, off + 1);
        assert SearchFrom(hay, hl, needle, mask, nl, off) == r;
        forall o | off <= o < r.value ensures !Hit(hay, needle, mask, nl, o) {
          if o > off {
            assert off + 1 <= o < r.value;
          }
        }
        if r.value == 0 {
          forall o | off <= o < hl - nl ensures !Hit(hay, needle, mask, nl, o) {
            if o > off {
              assert off + 1 <= o < hl - nl;
            }
          }
        }
      }
    }
  }

  /** `memmem_m`/`memmem` on consistent lengths: the result is the lowest
      offset in [0, hl - nl) whose window compares as 0, never the last
      window at hl - nl; 0 means a hit at offset 0 or no hit at all. */
  lemma SearchLowest(hay: seq<byte>, hl: int, needle: seq<byte>, mask: Option<seq<byte>>, nl: int)
    requires InRange(hay, hl, needle, mask, nl)
    ensures var r := Search(hay, hl, needle, mask, nl);
      && r.Ok?
      && (forall o :: 0 <= o < r.value ==> !Hit(hay, needle, mask, nl, o))
      && (r.value != 0 ==> 0 < r.value < hl - nl && Hit(hay, needle, mask, nl, r.value))
      && (r.value == 0 <==> (0 < hl - nl && Hit(hay, needle, mask, nl, 0))
                            || forall o :: 0 <= o < hl - nl ==> !Hit(hay, needle, mask, nl, o))
  {
    SearchFromLowest(hay, hl, needle, mask, nl, 0);
    var r := Search(hay, hl, needle, mask, nl);
    if r.value != 0 {
      assert 0 <= 0 < r.value;
      assert 0 <= r.value < hl - nl && Hit(hay, needle, mask, nl, r.value);
    }
  }

  /** When `memmem_m`/`memmem` answers non-zero: exactly when offset 0 is
      no hit but some later offset before the last window is. */
  lemma SearchNonZero(hay: seq<byte>, hl: int, needle: seq<byte>, mask: Option<seq<byte>>, nl: int)
    requires InRange(hay, hl, needle, mask, nl)
    ensures Search(hay, hl, needle, mask, nl).Ok?
    ensures Search(hay, hl, needle, mask, nl).value != 0 <==>
      && !(0 < hl - nl && Hit(hay, needle, mask, nl, 0))
      && exists o :: 0 < o < hl - nl && Hit(hay, needle, mask, nl, o)
  {
    SearchLowest(hay, hl, needle, mask, nl);
    var r := Search(hay, hl, needle, mask, nl);
    if r.value != 0 {
      assert 0 < r.value < hl - nl && Hit(hay, needle, mask, nl, r.value);
    } else if exists o :: 0 < o < hl - nl && Hit(hay, needle, mask, nl, o) {
      var o :| 0 < o < hl - nl && Hit(hay, needle, mask, nl, o);
      assert 0 <= o < hl - nl;
    }
  }

  /** The `while (currentOffset < maxOffset)` loop of `memmem_m`/`memmem`. */
  method MemMem(hay: seq<byte>, hl: int, needle: seq<byte>, mask: Option<seq<byte>>, nl: int)
    returns (r: Result<int, SearchError>)
    ensures r == Search(hay, hl, needle, mask, nl)
  {
    var off := 0;
    var maxOffset := I32(hl - nl);
    while off < maxOffset
      invariant 0 <= off <= |hay|
      invariant SearchFrom(hay, hl, needle, mask, nl, off) == Search(hay, hl, needle, mask, nl)
      decreases maxOffset - off
    {
      var x := MemCmp(hay[off..], needle, mask, nl);
      if x.Err? {
        return Err(x.error);
      }
      if x.value == 0 {
        return Ok(off);
      }
      if off + 1 > |hay| {
        return Err(SliceOutOfRange);
      }
      off := off + 1;
    }
    return Ok(0);
  }

  /** The backward scan of `memmemr` from offset `off` down to 0. Having
      missed at 0, the re-slice at -1 throws before `return 0` is reached. */
  function SearchBackFrom(hay: seq<byte>, needle: seq<byte>, nl: int, off: nat): (r: Result<int, SearchError>)
    requires off <= |hay|
    decreases off
  {
    var x :- Compare(hay[off..], needle, None, nl);
    if x == 0 then Ok(off)
    else if off == 0 then Err(SliceOutOfRange)
    else SearchBackFrom(hay, needle, nl, off - 1)
  }

  /** Whatever the lengths, an offset the backward scan answers is a hit
      at or below its start. */
  lemma {:induction false} SearchBackFromHits(hay: seq<byte>, needle: seq<byte>, nl: int, off: nat)
    requires off <= |hay|
    ensures var r := SearchBackFrom(hay, needle, nl, off);
      r.Ok? ==> 0 <= r.value <= off && Hit(hay, needle, None, nl, r.value)
    decreases off
  {
    var x := Compare(hay[off..], needle, None, nl);
    if x.Ok? && x.value != 0 && off > 0 {
      SearchBackFromHits(hay, needle, nl, off - 1);
    }
  }

  /** `memmemr(haystack, haystackLength, needle, needleLength)`. */
  function SearchBack(hay: seq<byte>, hl: int, needle: seq<byte>, nl: int): Result<int, SearchError> {
    var start := I32(hl - nl);
    if start < 0 || start > |hay| then Err(SliceOutOfRange)
    else SearchBackFrom(hay, needle, nl, start)
  }

  /** The same for the whole search from `hl - nl`. */
  lemma SearchBackHits(hay: seq<byte>, hl: int, needle: seq<byte>, nl: int)
    ensures var r := SearchBack(hay, hl, needle, nl);
      r.Ok? ==> 0 <= r.value <= I32(hl - nl) && Hit(hay, needle, None, nl, r.value)
  {
    var start := I32(hl - nl);
    if 0 <= start <= |hay| {
      SearchBackFromHits(hay, needle, nl, start);
    }
  }

  lemma {:induction false} SearchBackFromHighest(hay: seq<byte>, hl: int, needle: seq<byte>, nl: int, off: nat)
    requires InRange(hay, hl, needle, None, nl) && off <= hl - nl
    ensures var r := SearchBackFrom(hay, needle, nl, off);
      && (r.Ok? <==> exists o :: 0 <= o <= off && Hit(hay, needle, None, nl, o))
      && (r.Ok? ==> 0 <= r.value <= off && Hit(hay, needle, None, nl, r.value)
                    && forall o :: r.value < o <= off ==> !Hit(hay, needle, None, nl, o))
      && (r.Err? ==> r.error == SliceOutOfRange)
    decreases off
  {
    HitDefined(hay, hl, needle, None, nl, off);
    if !Hit(hay, needle, None, nl, off) {
      if off == 0 {
        assert !exists o :: 0 <= o <= off && Hit(hay, needle, None, nl, o);
      } else {
        SearchBackFromHighest(hay, hl, needle, nl, off - 1);
        var r := SearchBackFrom(hay, needle, nl, off - 1);
        assert SearchBackFrom(hay, needle, nl, off) == r;
        if r.Ok? {
          forall o | r.value < o <= off ensures !Hit(hay, needle, None, nl, o) {
            if o < off {
              assert r.value < o <= off - 1;
            }
          }
        } else {
          forall o | 0 <= o <= off ensures !Hit(hay, needle, None, nl, o) {
            if o < off {
              assert 0 <= o <= off - 1;
            }
          }
        }
      }
    }
  }

  /** `memmemr` on consistent lengths: the highest offset in [0, hl - nl)
      inclusive of hl - nl whose window compares as 0; a complete miss is
      an error (the re-slice at -1), never the value 0. */
  lemma SearchBackHighest(hay: seq<byte>, hl: int, needle: seq<byte>, nl: int)
    requires InRange(hay, hl, needle, None, nl)
    ensures var r := SearchBack(hay, hl, needle, nl);
      && (r.Ok? <==> exists o :: 0 <= o <= hl - nl && Hit(hay, needle, None, nl, o))
      && (r.Ok? ==> 0 <= r.value <= hl - nl && Hit(hay, needle, None, nl, r.value)
                    && forall o :: r.value < o <= hl - nl ==> !Hit(hay, needle, None, nl, o))
      && (r.Err? ==> r.error == SliceOutOfRange)
  {
    I32Small(hl - nl);
    SearchBackFromHighest(hay, hl, needle, nl, hl - nl);
  }

  /** The `while (currentOffset >= minOffset)` loop of `memmemr`. */
  method MemMemR(hay: seq<byte>, hl: int, needle: seq<byte>, nl: int) returns (r: Result<int, SearchError>)
    ensures r == SearchBack(hay, hl, needle, nl)
  {
    var off := I32(hl - nl);
    if off < 0 || off > |hay| {
      return Err(SliceOutOfRange);
    }
    while off >= 0
      invariant 0 <= off <= |hay|
      invariant SearchBackFrom(hay, needle, nl, off) == SearchBack(hay, hl, needle, nl)
      decreases off
    {
      var x := MemCmp(hay[off..], needle, None, nl);
      if x.Err? {
        return Err(x.error);
      }
      if x.value == 0 {
        return Ok(off);
      }
      off := off - 1;
      if off < 0 {
        return Err(SliceOutOfRange);
      }
    }
    assert false;
    return Ok(0);
  }

  // ---------------------------------------------------------------------
  // The evident intent: a comparison that tests equality on the masked
  // bits, and a search that tries every window and reports a miss apart.

  /** The first `length` bytes of `a` and `b` agree on every bit the mask
      selects (every bit for `None`). */
  function EqualUpTo(a: seq<byte>, b: seq<byte>, mask: Option<seq<byte>>, length: nat): (r: bool)
    requires length <= |a| && length <= |b| && (mask.Some? ==> length <= |mask.value|)
  {
    length == 0 ||
    (&& EqualUpTo(a, b, mask, length - 1)
     && (if mask.Some? then BitAnd(a[length - 1], mask.value[length - 1]) == BitAnd(b[length - 1], mask.value[length - 1])
         else a[length - 1] == b[length - 1]))
  }

  /** Unmasked, it is equality of the two prefixes. */
  lemma {:induction false} EqualUpToIsEquality(a: seq<byte>, b: seq<byte>, length: nat)
    requires length <= |a| && length <= |b|
    ensures EqualUpTo(a, b, None, length) <==> a[..length] == b[..length]
  {
    if length > 0 {
      EqualUpToIsEquality(a, b, length - 1);
      if a[..length] == b[..length] {
        assert a[..length - 1] == a[..length][..length - 1];
        assert b[..length - 1] == b[..length][..length - 1];
        assert a[length - 1] == a[..length][length - 1];
      }
      if EqualUpTo(a, b, None, length) {
        assert a[..length] == a[..length - 1] + [a[length - 1]];
        assert b[..length] == b[..length - 1] + [b[length - 1]];
      }
    }
  }

  /** The window of the haystack at offset o equals the needle (on the
      masked bits). */
  predicate Matches(hay: seq<byte>, needle: seq<byte>, mask: Option<seq<byte>>, o: nat)
    requires mask.Some? ==> |needle| <= |mask.value|
  {
    o + |needle| <= |hay| && EqualUpTo(hay[o..], needle, mask, |needle|)
  }

  function IntendedSearchFrom(hay: seq<byte>, needle: seq<byte>, mask: Option<seq<byte>>, off: nat): (r: Option<nat>)
    requires mask.Some? ==> |needle| <= |mask.value|
    decreases |hay| - off
  {
    if off + |needle| > |hay| then None
    else if Matches(hay, needle, mask, off) then Some(off)
    else IntendedSearchFrom(hay, needle, mask, off + 1)
  }

  /** The corrected forward search: every window, the last included, is
      tried, and a miss is `None` rather than 0. */
  function IntendedSearch(hay: seq<byte>, needle: seq<byte>, mask: Option<seq<byte>>): Option<nat>
    requires mask.Some? ==> |needle| <= |mask.value|
  {
    IntendedSearchFrom(hay, needle, mask, 0)
  }

  lemma {:induction false} IntendedSearchFromLowest(hay: seq<byte>, needle: seq<byte>, mask: Option<seq<byte>>, off: nat)
    requires mask.Some? ==> |needle| <= |mask.value|
    ensures var r := IntendedSearchFrom(hay, needle, mask, off);
      && (r.Some? ==> off <= r.value && Matches(hay, needle, mask, r.value)
                      && forall o :: off <= o < r.value ==> !Matches(hay, needle, mask, o))
      && (r.None? <==> forall o :: off <= o ==> !Matches(hay, needle, mask, o))
    decreases |hay| - off
  {
    if off + |needle| <= |hay| && !Matches(hay, needle, mask, off) {
      IntendedSearchFromLowest(hay, needle, mask, off + 1);
      var r := IntendedSearchFrom(hay, needle, mask, off + 1);
      if r.Some? {
        forall o | off <= o < r.value ensures !Matches(hay, needle, mask, o) {
          if o > off {
            assert off + 1 <= o < r.value;
          }
        }
      } else {
        forall o | off <= o ensures !Matches(hay, needle, mask, o) {
          if o > off {
            assert off + 1 <= o;
          }
        }
      }
    }
  }

  /** The corrected search finds the lowest matching window, and reports
      `None` exactly when no window matches. */
  lemma IntendedSearchLowest(hay: seq<byte>, needle: seq<byte>, mask: Option<seq<byte>>)
    requires mask.Some? ==> |needle| <= |mask.value|
    ensures var r := IntendedSearch(hay, needle, mask);
      && (r.Some? ==> Matches(hay, needle, mask, r.value)
                      && forall o :: 0 <= o < r.value ==> !Matches(hay, needle, mask, o))
      && (r.None? <==> forall o: nat :: !Matches(hay, needle, mask, o))
  {
    IntendedSearchFromLowest(hay, needle, mask, 0);
  }

  // ---------------------------------------------------------------------
  // Inputs on which the code as written and the intent part ways.

  /** Two different bytes with no common set bit compare as "equal". */
  lemma CompareAndNotEquality()
    ensures Compare([1], [2], None, 1) == Ok(0)
    ensures !EqualUpTo([1], [2], None, 1)
  {
    assert Probe([1], [2], None, 0) == Ok(0);
  }

  /** The last window is never tried: searching [7, 8] for [7] probes
      offset 0 only (7 & 7 = 7) and answers 0, although the window at 1
      would report 0 (8 & 7 = 0). Under the intended equality test, [7] is
      found at 1 in [5, 7], where the search as written answers 0. */
  lemma SearchSkipsLastWindow()
    ensures Search([7, 8], 2, [7], None, 1) == Ok(0)
    ensures !Hit([7, 8], [7], None, 1, 0) && Hit([7, 8], [7], None, 1, 1)
    ensures Search([5, 7], 2, [7], None, 1) == Ok(0)
    ensures IntendedSearch([5, 7], [7], None) == Some(1)
  {
    assert Probe([7, 8], [7], None, 0) == Ok(7);
    assert [7, 8][1..] == [8];
    assert Probe([8], [7], None, 0) == Ok(0);
    assert Probe([5, 7], [7], None, 0) == Ok(5);
    assert [5, 7][1..] == [7];
    assert !Matches([5, 7], [7], None, 0);
    assert Matches([5, 7], [7], None, 1);
  }

  /** A hit at offset 0 and a complete miss give the same answer: [2, 1, 1]
      "hits" at 0 (2 & 1 = 0) and [1, 1, 1] hits nowhere it looks, yet both
      searches for [1] answer 0. The corrected search tells the two
      situations apart. */
  lemma SearchZeroAmbiguous()
    ensures Hit([2, 1, 1], [1], None, 1, 0) && Search([2, 1, 1], 3, [1], None, 1) == Ok(0)
    ensures !Hit([1, 1, 1], [1], None, 1, 0) && !Hit([1, 1, 1], [1], None, 1, 1)
    ensures Search([1, 1, 1], 3, [1], None, 1) == Ok(0)
    ensures IntendedSearch([1, 2, 2], [1], None) == Some(0)
    ensures IntendedSearch([2, 2, 2], [1], None) == None
  {
    assert Probe([2, 1, 1], [1], None, 0) == Ok(0);
    assert Probe([1, 1, 1], [1], None, 0) == Ok(1);
    assert [1, 1, 1][1..] == [1, 1];
    assert Probe([1, 1], [1], None, 0) == Ok(1);
    assert Matches([1, 2, 2], [1], None, 0);
    IntendedSearchLowest([2, 2, 2], [1], None);
    forall o: nat ensures !Matches([2, 2, 2], [1], None, o) {
      if o + 1 <= 3 {
        assert [2, 2, 2][o..][0] == 2;
      }
    }
  }
}

=== FILE: bytes.dfy ===
/** Bytes, fixed-width unsigned integers and their little-endian encoding,
    plus the C# integer conversions the converter relies on (unchecked
    casts to `int`, wrapping `uint`/`ulong` arithmetic). */
module Bytes {

  type byte = x: int | 0 <= x < 0x100
  type u16 = x: int | 0 <= x < 0x1_0000
  type u32 = x: int | 0 <= x < 0x1_0000_0000
  type u64 = x: int | 0 <= x < 0x1_0000_0000_0000_0000

  const TWO_32: nat := 0x1_0000_0000
  const TWO_64: nat := 0x1_0000_0000_0000_0000

  /** 256 to the power n: one more than the largest n-byte value. */
  function Pow256(n: nat): (r: nat)
    ensures r > 0
  {
    if n == 0 then 1 else 256 * Pow256(n - 1)
  }

  lemma {:induction false} Pow256Add(m: nat, n: nat)
    ensures Pow256(m + n) == Pow256(m) * Pow256(n)
  {
    if m > 0 {
      Pow256Add(m - 1, n);
      assert Pow256(m + n) == 256 * Pow256(m - 1 + n);
    }
  }

  /** The value of s read as an unsigned little-endian integer. */
  function Le(s: seq<byte>): (r: nat)
    ensures r < Pow256(|s|)
  {
    if |s| == 0 then 0 else s[0] + 256 * Le(s[1..])
  }

  /** The n-byte little-endian encoding of v; bytes beyond the n-th are
      dropped, as when a wider value is written into a narrower field. */
  function ToLe(v: nat, n: nat): (r: seq<byte>)
    ensures |r| == n
  {
    if n == 0 then [] else [v % 256] + ToLe(v / 256, n - 1)
  }

  /** Encoding then decoding keeps exactly the low n bytes of v. */
  lemma {:induction false} LeToLe(v: nat, n: nat)
    ensures Le(ToLe(v, n)) == v % Pow256(n)
  {
    if n > 0 {
      var t := ToLe(v, n);
      assert t[1..] == ToLe(v / 256, n - 1);
      LeToLe(v / 256, n - 1);
      DivModStep(v, Pow256(n - 1));
    }
  }

  lemma MulAtLeast(a: int, b: int)
    requires a >= 1 && b > 0
    ensures a * b >= b
  {
    assert a * b == b + (a - 1) * b;
  }

  /** Quotient and remainder are determined by any decomposition v = d*q + r
      with 0 <= r < d. */
  lemma DivModUnique(v: int, d: int, q: int, r: int)
    requires d > 0 && 0 <= r < d && v == d * q + r
    ensures v / d == q && v % d == r
  {
    var q0 := v / d;
    var r0 := v % d;
    assert d * (q - q0) == r0 - r;
    if q > q0 {
      MulAtLeast(q - q0, d);
      assert false;
    } else if q < q0 {
      MulAtLeast(q0 - q, d);
      assert false;
    }
  }

  /** Reducing a summand first does not change the sum's residue. */
  lemma AddMod(x: int, y: int, m: int)
    requires m > 0
    ensures ((x % m) + y) % m == (x + y) % m
  {
    var t := x % m + y;
    assert x == m * (x / m) + x % m;
    assert t == m * (t / m) + t % m;
    assert x + y == m * (x / m + t / m) + t % m;
    DivModUnique(x + y, m, x / m + t / m, t % m);
  }

  lemma DivModStep(v: nat, p: nat)
    requires p > 0
    ensures v % 256 + 256 * ((v / 256) % p) == v % (256 * p)
  {
    var q := v / 256;
    var r := v % 256;
    var q2 := q / p;
    var r2 := q % p;
    assert v == 256 * q + r;
    assert q == p * q2 + r2;
    assert v == (256 * p) * q2 + (256 * r2 + r) by {
      assert 256 * q == 256 * (p * q2) + 256 * r2;
      assert 256 * (p * q2) == (256 * p) * q2;
    }
    assert 256 * r2 + r < 256 * p by {
      assert r2 <= p - 1;
      assert 256 * r2 <= 256 * (p - 1);
    }
    DivModUnique(v, 256 * p, q2, 256 * r2 + r);
  }

  /** Decoding then re-encoding at the same width gives the bytes back. */
  lemma {:induction false} ToLeLe(s: seq<byte>)
    ensures ToLe(Le(s), |s|) == s
  {
    if |s| > 0 {
      ToLeLe(s[1..]);
      assert (s[0] + 256 * Le(s[1..])) / 256 == Le(s[1..]);
    }
  }

  /** A value that fits in n bytes survives the round trip unchanged. */
  lemma LeToLeFits(v: nat, n: nat)
    requires v < Pow256(n)
    ensures Le(ToLe(v, n)) == v
  {
    LeToLe(v, n);
  }

  lemma {:induction false} LeAppend(a: seq<byte>, b: seq<byte>)
    ensures Le(a + b) == Le(a) + Pow256(|a|) * Le(b)
  {
    if |a| == 0 {
      assert a + b == b;
    } else {
      var t := a[1..];
      LeAppend(t, b);
      var x, y, xy := Le(t), Le(b), Le(t + b);
      var p := Pow256(|t|);
      var la, pa := Le(a), Pow256(|a|);
      assert Le(a + b) == a[0] + 256 * xy by {
        assert (a + b)[1..] == t + b;
      }
      assert la == a[0] + 256 * x && pa == 256 * p;
      assert a[0] + 256 * xy == la + pa * y by {
        Combine(a[0], x, p, y, xy);
      }
    }
  }

  lemma Combine(a0: int, x: int, p: int, y: int, xy: int)
    requires xy == x + p * y
    ensures a0 + 256 * xy == (a0 + 256 * x) + (256 * p) * y
  {
  }

  /** v with its low m bytes shifted out. */
  function Shr(v: nat, m: nat): nat {
    Quotient(v, Pow256(m))
  }

  function Quotient(v: nat, d: nat): nat
    requires d > 0
  {
    QuotientNonneg(v, d);
    v / d
  }

  lemma QuotientNonneg(v: nat, d: nat)
    requires d > 0
    ensures v / d >= 0
  {
  }

  /** The low m bytes of an (m+n)-byte encoding encode v, the high n bytes
      encode v / 256^m. */
  lemma {:induction false} ToLeSplit(v: nat, m: nat, n: nat)
    ensures ToLe(v, m + n) == ToLe(v, m) + ToLe(Shr(v, m), n)
  {
    if m > 0 {
      var w := v / 256;
      var lo := ToLe(w, m - 1);
      var hi := ToLe(Shr(w, m - 1), n);
      assert ToLe(w, m - 1 + n) == lo + hi by {
        ToLeSplit(w, m - 1, n);
      }
      assert Shr(w, m - 1) == Shr(v, m) by {
        DivDiv(v, 256, Pow256(m - 1));
      }
      assert ToLe(v, m + n) == [v % 256] + (lo + hi);
      assert ToLe(v, m) == [v % 256] + lo;
      assert [v % 256] + (lo + hi) == ([v % 256] + lo) + hi;
    }
  }

  /** A 64-bit little-endian field is its low word followed by its high word. */
  lemma ToLeWords(v: nat)
    ensures ToLe(v, 8) == ToLe(v, 4) + ToLe(v / TWO_32, 4)
  {
    ToLeSplit(v, 4, 4);
    assert Pow256(4) == TWO_32;
  }

  /** Reading two 32-bit words as one 64-bit value. */
  lemma LeWords(lo: seq<byte>, hi: seq<byte>)
    requires |lo| == 4
    ensures Le(lo + hi) == Le(lo) + TWO_32 * Le(hi)
  {
    LeAppend(lo, hi);
    assert Pow256(4) == TWO_32;
  }

  lemma DivDiv(v: nat, a: nat, b: nat)
    requires a > 0 && b > 0
    ensures v / a / b == v / (a * b)
  {
    var q := v / a / b;
    var r := v / a % b;
    assert v / a == b * q + r;
    assert v == a * (v / a) + v % a;
    assert v == (a * b) * q + (a * r + v % a) by {
      assert a * (v / a) == a * (b * q) + a * r;
      assert a * (b * q) == (a * b) * q;
    }
    assert a * r + v % a < a * b by {
      assert r <= b - 1;
      assert a * r <= a * (b - 1);
      assert a * (b - 1) == a * b - a;
    }
    DivModUnique(v, a * b, q, a * r + v % a);
  }

  function ReadU16(s: seq<byte>, off: int): u16
    requires 0 <= off && off + 2 <= |s|
  {
    assert Pow256(2) == 0x1_0000;
    Le(s[off..off + 2])
  }

  function ReadU32(s: seq<byte>, off: int): u32
    requires 0 <= off && off + 4 <= |s|
  {
    assert Pow256(4) == TWO_32;
    Le(s[off..off + 4])
  }

  function ReadU64(s: seq<byte>, off: int): u64
    requires 0 <= off && off + 8 <= |s|
  {
    assert Pow256(8) == TWO_64;
    Le(s[off..off + 8])
  }

  /** C#'s unchecked conversion of an integer to the 32-bit `int`: keep the
      low 32 bits and read them as two's complement. */
  function I32(x: int): (r: int)
    ensures -0x8000_0000 <= r < 0x8000_0000
    ensures (r - x) % TWO_32 == 0
  {
    var m := x % TWO_32;
    if m < 0x8000_0000 then m else m - TWO_32
  }

  /** Values that fit in 31 bits survive the conversion. */
  lemma I32Small(x: int)
    requires 0 <= x < 0x8000_0000
    ensures I32(x) == x
  {
  }

  /** An unsigned 32-bit value that converts to a non-negative `int` is
      unchanged by the conversion. */
  lemma I32Unsigned(x: int)
    requires 0 <= x < TWO_32 && I32(x) >= 0
    ensures I32(x) == x
  {
  }

  /** The 64-bit two's-complement reading of an unsigned 64-bit pattern,
      as `BinaryPrimitives.ReadInt64LittleEndian` produces it. */
  function I64(v: u64): (r: int)
    ensures -0x8000_0000_0000_0000 <= r < 0x8000_0000_0000_0000
    ensures r % TWO_64 == v
  {
    if v < 0x8000_0000_0000_0000 then v else v - TWO_64
  }

  /** Bitwise AND of two naturals, bit by bit from the least significant. */
  function BitAnd(a: nat, b: nat): (r: nat)
    ensures r <= a && r <= b
  {
    if a == 0 || b == 0 then 0 else (a % 2) * (b % 2) + 2 * BitAnd(a / 2, b / 2)
  }

  /** `src` copied over `target` starting at `off`, as `Span.CopyTo` or a
      `BinaryPrimitives.Write*` into a slice does. */
  function Overwrite(target: seq<byte>, off: nat, src: seq<byte>): (r: seq<byte>)
    requires off + |src| <= |target|
    ensures |r| == |target|
    ensures r[off..off + |src|] == src
    ensures forall k :: 0 <= k < |target| && !(off <= k < off + |src|) ==> r[k] == target[k]
  {
    target[..off] + src + target[off + |src|..]
  }

  /** `Span.Slice(start, length)` succeeds on a span of `len` bytes exactly
      when the requested window lies inside it. */
  predicate SliceOk(len: int, start: int, length: int) {
    0 <= start && 0 <= length && start + length <= len
  }

  function Zeros(n: nat): (r: seq<byte>)
    ensures |r| == n
    ensures forall k :: 0 <= k < n ==> r[k] == 0
  {
    seq(n, _ => 0)
  }
}

=== FILE: eh_frame.dfy ===
/** The `.eh_frame_hdr` measurement (`ElfEHInfo.MeasureFrame`): the 4-byte
    header of section 10.6.2 of the Linux Standard Base Core
    specification, a decoder for the pointer encodings of its section
    10.5.1 restricted to the bases and formats the source accepts, and
    the walk over the search table that finds where `.eh_frame` ends. All
    pointer arithmetic is 32-bit unsigned and wraps. */
module ElfEh {
  import opened Bytes
  import opened Results

  // -------------------------------------------------------- EhFrameHdr

  datatype EhFrameHdr = EhFrameHdr(Version: byte, EhFramePtrEnc: byte, FdeCountEnc: byte, TableEnc: byte)

  const EH_FRAME_HDR_LENGTH: nat := 4

  /** The constructor indexes bytes 0 to 3; a shorter span throws. */
  function ReadEhFrameHdr(data: seq<byte>): (r: Option<EhFrameHdr>)
    ensures r.Some? <==> |data| >= EH_FRAME_HDR_LENGTH
  {
    if |data| < EH_FRAME_HDR_LENGTH then None
    else Some(EhFrameHdr(data[0], data[1], data[2], data[3]))
  }

  function EncodeEhFrameHdr(h: EhFrameHdr): (r: seq<byte>)
    ensures |r| == EH_FRAME_HDR_LENGTH
  {
    [h.Version, h.EhFramePtrEnc, h.FdeCountEnc, h.TableEnc]
  }

  /** The header reads back from its four bytes whatever follows them,
      and depends on nothing past them. */
  lemma EhFrameHdrRoundTrip(h: EhFrameHdr, rest: seq<byte>)
    ensures ReadEhFrameHdr(EncodeEhFrameHdr(h) + rest) == Some(h)
  {
  }

  lemma EhFrameHdrPrefix(data: seq<byte>)
    requires |data| >= EH_FRAME_HDR_LENGTH
    ensures EncodeEhFrameHdr(ReadEhFrameHdr(data).value) == data[..EH_FRAME_HDR_LENGTH]
  {
  }

  // ---------------------------------------------------- pointer decoding

  const DW_EH_PE_absptr: byte := 0x00
  const DW_EH_PE_udata2: byte := 0x02
  const DW_EH_PE_udata4: byte := 0x03
  const DW_EH_PE_sdata4: byte := 0x0B
  const DW_EH_PE_pcrel: byte := 0x10
  const DW_EH_PE_datarel: byte := 0x30
  const DW_EH_PE_indirect: byte := 0x80

  /** `enc & 0x70`: bits 4 to 6 of the byte. */
  function EncBase(enc: byte): nat {
    enc % 0x80 / 0x10 * 0x10
  }

  /** `enc & 0x0f`: the low four bits. */
  function EncFormat(enc: byte): nat {
    enc % 0x10
  }

  /** `(enc & DW_EH_PE_indirect) != 0`: the top bit. */
  predicate Indirect(enc: byte) {
    enc >= DW_EH_PE_indirect
  }

  datatype EhError =
    | HeaderOutOfRange
    | UnexpectedBase(Enc: byte)
    | UnexpectedFormat(Enc: byte)
    | ReadOutOfRange
    | BadFdeLength

  /** The value a pointer is relative to: nothing, the position of its own
      bytes, or the header; `(uint)` of a non-negative `int` keeps its low
      32 bits. Other bases, `DW_EH_PE_omit` among them, throw. */
  function BaseValue(enc: byte, cursor: int, headerOffset: int): Option<u32> {
    var base := EncBase(enc);
    if base == DW_EH_PE_absptr then Some(0)
    else if base == DW_EH_PE_pcrel then Some(cursor % TWO_32)
    else if base == DW_EH_PE_datarel then Some(headerOffset % TWO_32)
    else None
  }

  /** Bytes a pointer occupies: 2 for `udata2`, 4 for `udata4` and
      `sdata4`; other formats throw. */
  function FormatWidth(enc: byte): (r: Option<nat>)
    ensures r.Some? ==> r.value == 2 || r.value == 4
  {
    var format := EncFormat(enc);
    if format == DW_EH_PE_udata2 then Some(2)
    else if format == DW_EH_PE_udata4 || format == DW_EH_PE_sdata4 then Some(4)
    else None
  }

  /** `ReadUInt16/32LittleEndian(image.Slice(pos))`: the slice needs
      `0 <= pos <= |image|` and the read `width` bytes after it. */
  function ReadAt(image: seq<byte>, pos: int, width: nat): (r: Result<nat, EhError>)
    requires width == 2 || width == 4
    ensures r.Ok? <==> 0 <= pos && pos + width <= |image|
    ensures r.Ok? ==> r.value < TWO_32 && r.value == Le(image[pos..pos + width])
  {
    if 0 <= pos && pos + width <= |image| then
      Ok(if width == 2 then ReadU16(image, pos) else ReadU32(image, pos))
    else Err(ReadOutOfRange)
  }

  datatype Decoded = Decoded(Value: u32, Cursor: int)

  /** `dw_decode`: one pointer at `cursor`, and the cursor after its bytes.
      `sdata4` is read signed and cast back to `uint`, which gives the
      same bits as `udata4`. With the indirect bit the value is replaced
      by the word stored at `(int)value`. */
  function DwDecode(image: seq<byte>, headerOffset: int, cursor: int, enc: byte): (r: Result<Decoded, EhError>)
    ensures BaseValue(enc, cursor, headerOffset).None? ==> r == Err(UnexpectedBase(enc))
    ensures BaseValue(enc, cursor, headerOffset).Some? && FormatWidth(enc).None? ==> r == Err(UnexpectedFormat(enc))
    ensures r.Ok? ==> FormatWidth(enc).Some? && 0 <= cursor
                      && r.value.Cursor == cursor + FormatWidth(enc).value <= |image|
  {
    var base := BaseValue(enc, cursor, headerOffset);
    if base.None? then Err(UnexpectedBase(enc))
    else
      var width := FormatWidth(enc);
      if width.None? then Err(UnexpectedFormat(enc))
      else
        var raw :- ReadAt(image, cursor, width.value);
        var value := (base.value + raw) % TWO_32;
        if Indirect(enc) then
          var stored :- ReadAt(image, I32(value), 4);
          Ok(Decoded(stored, cursor + width.value))
        else Ok(Decoded(value, cursor + width.value))
  }

  /** The bytes that encode `value` directly (without the indirect bit) at
      `cursor`: its distance from the base, in the format's width. */
  function EncodePointer(value: u32, enc: byte, cursor: int, headerOffset: int): seq<byte>
    requires BaseValue(enc, cursor, headerOffset).Some? && FormatWidth(enc).Some?
  {
    ToLe((value - BaseValue(enc, cursor, headerOffset).value) % TWO_32, FormatWidth(enc).value)
  }

  /** A direct encoding adds the raw word at the cursor to the base. */
  lemma DwDecodeDirect(image: seq<byte>, headerOffset: int, cursor: int, enc: byte)
    requires !Indirect(enc)
    requires BaseValue(enc, cursor, headerOffset).Some? && FormatWidth(enc).Some?
    requires ReadAt(image, cursor, FormatWidth(enc).value).Ok?
    ensures DwDecode(image, headerOffset, cursor, enc)
         == Ok(Decoded((BaseValue(enc, cursor, headerOffset).value + ReadAt(image, cursor, FormatWidth(enc).value).value) % TWO_32,
                       cursor + FormatWidth(enc).value))
  {
  }

  /** The word written at the cursor reads back. */
  lemma ReadAtWritten(prefix: seq<byte>, bytes: seq<byte>, rest: seq<byte>, w: nat)
    requires w == 2 || w == 4
    requires |bytes| == w
    ensures ReadAt(prefix + bytes + rest, |prefix|, w) == Ok(Le(bytes))
  {
    assert (prefix + bytes + rest)[|prefix|..|prefix| + w] == bytes;
  }

  /** Decoding what `EncodePointer` wrote at the cursor gives the value
      back and moves past exactly those bytes; a 2-byte format holds the
      values whose distance from the base fits in 16 bits. */
  lemma DwDecodeRoundTrip(prefix: seq<byte>, rest: seq<byte>, value: u32, enc: byte, headerOffset: int)
    requires !Indirect(enc)
    requires BaseValue(enc, |prefix|, headerOffset).Some? && FormatWidth(enc).Some?
    requires FormatWidth(enc).value == 2 ==> (value - BaseValue(enc, |prefix|, headerOffset).value) % TWO_32 < 0x1_0000
    ensures var image := prefix + EncodePointer(value, enc, |prefix|, headerOffset) + rest;
      DwDecode(image, headerOffset, |prefix|, enc) == Ok(Decoded(value, |prefix| + FormatWidth(enc).value))
  {
    var base := BaseValue(enc, |prefix|, headerOffset).value;
    var w := FormatWidth(enc).value;
    var raw := (value - base) % TWO_32;
    var bytes := EncodePointer(value, enc, |prefix|, headerOffset);
    var image := prefix + bytes + rest;
    LeOfToLe(raw, w);
    ReadAtWritten(prefix, bytes, rest, w);
    assert ReadAt(image, |prefix|, w) == Ok(raw);
    DwDecodeDirect(image, headerOffset, |prefix|, enc);
    WrapBack(value, base);
  }

  /** A word that fits its width reads back from its encoding. */
  lemma LeOfToLe(raw: nat, w: nat)
    requires (w == 2 && raw < 0x1_0000) || (w == 4 && raw < TWO_32)
    ensures Le(ToLe(raw, w)) == raw
  {
    LeToLe(raw, w);
    assert Pow256(2) == 0x1_0000 && Pow256(4) == TWO_32;
  }

  /** Adding back the base undoes the wrapped distance from it. */
  lemma WrapBack(value: u32, base: u32)
    ensures (base + (value - base) % TWO_32) % TWO_32 == value
  {
    AddMod(value - base, base, TWO_32);
  }

  /** The indirect bit keeps the base, format and cursor of the direct
      encoding and replaces its value by the word stored at it. */
  lemma DwDecodeIndirect(image: seq<byte>, headerOffset: int, cursor: int, enc: byte)
    requires Indirect(enc)
    ensures var direct := DwDecode(image, headerOffset, cursor, enc - DW_EH_PE_indirect);
      var r := DwDecode(image, headerOffset, cursor, enc);
      && (direct.Err? ==> r.Err?)
      && (direct.Ok? ==> r == (var at := I32(direct.value.Value);
                               if 0 <= at && at + 4 <= |image| then Ok(Decoded(ReadU32(image, at), direct.value.Cursor))
                               else Err(ReadOutOfRange)))
  {
    IndirectBitAlone(enc);
  }

  /** Clearing the top bit leaves the base and format fields. */
  lemma IndirectBitAlone(enc: byte)
    requires Indirect(enc)
    ensures var d: byte := enc - DW_EH_PE_indirect;
      EncBase(d) == EncBase(enc) && EncFormat(d) == EncFormat(enc) && !Indirect(d)
  {
  }

  // --------------------------------------------------------- the table

  /** `dw_fde_len`: the word at the cursor (not at the entry's initial
      location, which it is passed and ignores); all-ones throws. */
  function FdeLen(image: seq<byte>, cursor: int): (r: Result<u32, EhError>)
    ensures r.Ok? <==> 0 <= cursor && cursor + 4 <= |image| && ReadU32(image, cursor) != 0xffff_ffff
    ensures r.Ok? ==> r.value == ReadU32(image, cursor)
  {
    var len :- ReadAt(image, cursor, 4);
    if len == 0xffff_ffff then Err(BadFdeLength) else Ok(len)
  }

  function Max(a: u32, b: u32): u32 {
    if a >= b then a else b
  }

  /** The loop over `fdeCount` table entries from `cursor` with the running
      maximum `maxPtr` of `desc + fdeLen`, a `uint` sum. */
  function MeasureEntries(image: seq<byte>, headerOffset: int, enc: byte, cursor: int, count: nat, maxPtr: u32)
    : (r: Result<u32, EhError>)
    ensures r.Ok? ==> maxPtr <= r.value
    decreases count
  {
    if count == 0 then Ok(maxPtr)
    else
      var desc :- DwDecode(image, headerOffset, cursor, enc);
      var len :- FdeLen(image, desc.Cursor);
      MeasureEntries(image, headerOffset, enc, desc.Cursor + 4, count - 1, Max(maxPtr, (desc.Value + len) % TWO_32))
  }

  /** The end (`desc + fdeLen`) of the entry whose bytes start at `pos`. */
  function EntryEnd(image: seq<byte>, headerOffset: int, enc: byte, pos: int): Result<u32, EhError> {
    var desc :- DwDecode(image, headerOffset, pos, enc);
    var len :- FdeLen(image, desc.Cursor);
    Ok((desc.Value + len) % TWO_32)
  }

  /** Every entry has the same encoding, so the same size: the pointer and
      the 4-byte word after it. */
  function Stride(enc: byte): nat {
    match FormatWidth(enc)
    case Some(w) => w + 4
    case None => 0
  }

  /** The end of each entry, by its index. */
  type EntryTable = nat -> Result<u32, EhError>

  function EntryTableOf(image: seq<byte>, headerOffset: int, enc: byte, first: int): EntryTable {
    (k: nat) => EntryEnd(image, headerOffset, enc, first + k * Stride(enc))
  }

  /** The running maximum over entries [k, count) of a table. */
  function MaxFrom(table: EntryTable, count: nat, k: nat, acc: u32): Result<u32, EhError>
    decreases count - k
  {
    if k >= count then Ok(acc)
    else
      var e :- table(k);
      MaxFrom(table, count, k + 1, Max(acc, e))
  }

  /** One turn of the loop reads the entry at the cursor and moves one
      stride on. */
  lemma MeasureEntriesStep(image: seq<byte>, headerOffset: int, enc: byte, pos: int, count: nat, acc: u32)
    requires count > 0
    ensures MeasureEntries(image, headerOffset, enc, pos, count, acc)
         == match EntryEnd(image, headerOffset, enc, pos)
            case Err(e) => Err(e)
            case Ok(v) => MeasureEntries(image, headerOffset, enc, pos + Stride(enc), count - 1, Max(acc, v))
  {
  }

  lemma NextEntry(first: int, k: nat, stride: nat)
    ensures first + k * stride + stride == first + (k + 1) * stride
  {
  }

  /** The loop reads entry k at `first + k * Stride(enc)`: the entries lie
      back to back from the cursor after `fde_count`. */
  lemma {:induction false} MeasureEntriesIsMaxFrom(image: seq<byte>, headerOffset: int, enc: byte, first: int,
                                                   count: nat, k: nat, acc: u32)
    requires k <= count
    ensures MeasureEntries(image, headerOffset, enc, first + k * Stride(enc), count - k, acc)
         == MaxFrom(EntryTableOf(image, headerOffset, enc, first), count, k, acc)
    decreases count - k
  {
    if k < count {
      var pos := first + k * Stride(enc);
      MeasureEntriesStep(image, headerOffset, enc, pos, count - k, acc);
      var e := EntryEnd(image, headerOffset, enc, pos);
      assert EntryTableOf(image, headerOffset, enc, first)(k) == e;
      if e.Ok? {
        NextEntry(first, k, Stride(enc));
        MeasureEntriesIsMaxFrom(image, headerOffset, enc, first, count, k + 1, Max(acc, e.value));
      }
    }
  }

  /** The running maximum fails exactly when an entry in [k, count) cannot
      be read; otherwise it is at least `acc` and every entry's end, and it
      is `acc` or one of those ends. */
  lemma {:induction false} MaxFromIsMax(table: EntryTable, count: nat, k: nat, acc: u32)
    ensures var r := MaxFrom(table, count, k, acc);
      && (r.Ok? <==> forall j :: k <= j < count ==> table(j).Ok?)
      && (r.Ok? ==>
            && acc <= r.value
            && (forall j :: k <= j < count ==> table(j).value <= r.value)
            && (r.value == acc || exists j :: k <= j < count && table(j).value == r.value))
    decreases count - k
  {
    if k < count {
      var e := table(k);
      if e.Ok? {
        var acc' := Max(acc, e.value);
        MaxFromIsMax(table, count, k + 1, acc');
        var r := MaxFrom(table, count, k, acc);
        assert r == MaxFrom(table, count, k + 1, acc');
        if r.Ok? {
          if r.value != acc && r.value == acc' {
            assert table(k).value == r.value;
          }
          forall j | k <= j < count ensures table(j).value <= r.value {
            if j > k {
              assert k + 1 <= j;
            }
          }
        }
      } else {
        assert !table(k).Ok?;
      }
    }
  }

  // ------------------------------------------------------ MeasureFrame

  /** The three results of `MeasureFrame`: the returned flag and the two
      `out` values. */
  datatype Measurement = Measurement(Found: bool, EhFramePtr: u32, EhFrameLength: u32)

  /** `MeasureFrame`: a header of another version answers `false` with
      both outputs 0; otherwise `eh_frame_ptr`, then `fde_count`, then that
      many entries, and the largest entry end (0 for none). Every throw is
      an error. */
  function MeasureFrame(image: seq<byte>, headerOffset: int): (r: Result<Measurement, EhError>)
    ensures !(0 <= headerOffset && headerOffset + EH_FRAME_HDR_LENGTH <= |image|) ==> r == Err(HeaderOutOfRange)
    ensures r.Ok? ==> (r.value.Found <==> image[headerOffset] == 1)
    ensures r.Ok? && !r.value.Found ==> r.value == Measurement(false, 0, 0)
  {
    if !(0 <= headerOffset <= |image|) then Err(HeaderOutOfRange)
    else match ReadEhFrameHdr(image[headerOffset..])
      case None => Err(HeaderOutOfRange)
      case Some(h) =>
        if h.Version != 1 then Ok(Measurement(false, 0, 0))
        else
          var ptr :- DwDecode(image, headerOffset, headerOffset + EH_FRAME_HDR_LENGTH, h.EhFramePtrEnc);
          var count :- DwDecode(image, headerOffset, ptr.Cursor, h.FdeCountEnc);
          var maxPtr :- MeasureEntries(image, headerOffset, h.TableEnc, count.Cursor, count.Value, 0);
          Ok(Measurement(true, ptr.Value, maxPtr))
  }

  /** A version-1 header always answers `true` when nothing throws, and
      nothing throws exactly when both pointers decode and every one of the
      `fde_count` entries can be read. */
  lemma MeasureFrameVersion1(image: seq<byte>, headerOffset: int)
    requires 0 <= headerOffset && headerOffset + EH_FRAME_HDR_LENGTH <= |image|
    requires image[headerOffset] == 1
    ensures var r := MeasureFrame(image, headerOffset);
      var ptr := DwDecode(image, headerOffset, headerOffset + EH_FRAME_HDR_LENGTH, image[headerOffset + 1]);
      && (r.Ok? ==> r.value.Found)
      && (r.Ok? <==>
            && ptr.Ok?
            && var count := DwDecode(image, headerOffset, ptr.value.Cursor, image[headerOffset + 2]);
               && count.Ok?
               && var table := EntryTableOf(image, headerOffset, image[headerOffset + 3], count.value.Cursor);
                  forall j :: 0 <= j < count.value.Value ==> table(j).Ok?)
  {
    var rest := image[headerOffset..];
    assert ReadEhFrameHdr(rest) == Some(EhFrameHdr(1, image[headerOffset + 1], image[headerOffset + 2], image[headerOffset + 3]));
    var ptr := DwDecode(image, headerOffset, headerOffset + EH_FRAME_HDR_LENGTH, image[headerOffset + 1]);
    if ptr.Ok? {
      var count := DwDecode(image, headerOffset, ptr.value.Cursor, image[headerOffset + 2]);
      if count.Ok? {
        var enc := image[headerOffset + 3];
        var first := count.value.Cursor;
        MeasureEntriesIsMaxFrom(image, headerOffset, enc, first, count.value.Value, 0, 0);
        assert first + 0 * Stride(enc) == first;
        MaxFromIsMax(EntryTableOf(image, headerOffset, enc, first), count.value.Value, 0, 0);
      }
    }
  }

  /** The header needs its four bytes in the image; a version other than
      1 gives `false` and zeros; a version-1 header gives `true` unless
      something throws, which happens exactly when a pointer or an entry
      cannot be read; a successful measurement of a version-1
      header reports the first pointer decoded after the header and, as
      the length, the largest end among the `fde_count` entries laid out
      back to back after the count (0 when there are none), reading every
      one of them. */
  lemma MeasureFrameMeaning(image: seq<byte>, headerOffset: int)
    ensures var r := MeasureFrame(image, headerOffset);
      && (!(0 <= headerOffset && headerOffset + EH_FRAME_HDR_LENGTH <= |image|) ==> r == Err(HeaderOutOfRange))
      && (0 <= headerOffset && headerOffset + EH_FRAME_HDR_LENGTH <= |image| ==>
            && (image[headerOffset] != 1 ==> r == Ok(Measurement(false, 0, 0)))
            && (image[headerOffset] == 1 ==>
                  var ptr := DwDecode(image, headerOffset, headerOffset + EH_FRAME_HDR_LENGTH, image[headerOffset + 1]);
                  && (r.Ok? ==> r.value.Found)
                  && (r.Ok? <==>
                        && ptr.Ok?
                        && var count := DwDecode(image, headerOffset, ptr.value.Cursor, image[headerOffset + 2]);
                           && count.Ok?
                           && var table := EntryTableOf(image, headerOffset, image[headerOffset + 3], count.value.Cursor);
                              forall j :: 0 <= j < count.value.Value ==> table(j).Ok?))
            && (r.Ok? && r.value.Found ==>
                  && image[headerOffset] == 1
                  && var ptr := DwDecode(image, headerOffset, headerOffset + EH_FRAME_HDR_LENGTH, image[headerOffset + 1]);
                     && ptr.Ok? && r.value.EhFramePtr == ptr.value.Value
                     && var count := DwDecode(image, headerOffset, ptr.value.Cursor, image[headerOffset + 2]);
                        && count.Ok?
                        && var table := EntryTableOf(image, headerOffset, image[headerOffset + 3], count.value.Cursor);
                           && (forall j :: 0 <= j < count.value.Value ==> table(j).Ok? && table(j).value <= r.value.EhFrameLength)
                           && (r.value.EhFrameLength == 0 ||
                               exists j :: 0 <= j < count.value.Value && table(j).value == r.value.EhFrameLength)))
  {
    if 0 <= headerOffset && headerOffset + EH_FRAME_HDR_LENGTH <= |image| {
      var r := MeasureFrame(image, headerOffset);
      if image[headerOffset] == 1 {
        MeasureFrameVersion1(image, headerOffset);
      }
      if r.Ok? && r.value.Found {
        var ptr := DwDecode(image, headerOffset, headerOffset + EH_FRAME_HDR_LENGTH, image[headerOffset + 1]);
        var count := DwDecode(image, headerOffset, ptr.value.Cursor, image[headerOffset + 2]);
        var enc := image[headerOffset + 3];
        var first := count.value.Cursor;
        MeasureEntriesIsMaxFrom(image, headerOffset, enc, first, count.value.Value, 0, 0);
        assert first + 0 * Stride(enc) == first;
        MaxFromIsMax(EntryTableOf(image, headerOffset, enc, first), count.value.Value, 0, 0);
      }
    }
  }
}

=== FILE: elf2nso_headers.dfy ===
/** The program- and section-header readers the ELF-to-NSO converter uses
    (`NsoElfConverterDotNet.Elf2Nso`): each field is read at an absolute
    offset through a data accessor. They read the same records as the
    span readers of `ElfStructures`. */
module Elf2NsoHeaders {
  import opened Bytes
  import opened Results
  import ES = ElfStructures

  /** The accessor reader for a program header. */
  function ReadPhdr(data: seq<byte>): (r: Option<ES.Phdr>)
    ensures r.None? <==> |data| < ES.PHDR_LENGTH
  {
    if |data| < ES.PHDR_LENGTH then None
    else
      Some(ES.Phdr(ReadU32(data, 0), ReadU32(data, 4), ReadU64(data, 8), ReadU64(data, 16),
                   ReadU64(data, 24), ReadU64(data, 32), ReadU64(data, 40), ReadU64(data, 48)))
  }

  /** It agrees field for field with the span reader. */
  lemma PhdrReadersAgree(data: seq<byte>)
    ensures ReadPhdr(data) == ES.ReadPhdr(data)
  {
  }

  /** It depends only on the first 56 bytes. */
  lemma PhdrPrefixOnly(data: seq<byte>, other: seq<byte>)
    requires |data| >= ES.PHDR_LENGTH && |other| >= ES.PHDR_LENGTH
    requires data[..ES.PHDR_LENGTH] == other[..ES.PHDR_LENGTH]
    ensures ReadPhdr(data) == ReadPhdr(other)
  {
    PhdrReadersAgree(data);
    PhdrReadersAgree(other);
    ES.PhdrPrefix(data, other);
  }

  /** The accessor reader for a section header. */
  function ReadShdr(data: seq<byte>): (r: Option<ES.Shdr>)
    ensures r.None? <==> |data| < ES.SHDR_LENGTH
  {
    if |data| < ES.SHDR_LENGTH then None
    else
      Some(ES.Shdr(ReadU32(data, 0), ReadU32(data, 4), ReadU64(data, 8), ReadU64(data, 16),
                   ReadU64(data, 24), ReadU64(data, 32), ReadU32(data, 40), ReadU32(data, 44),
                   ReadU64(data, 48), ReadU64(data, 56)))
  }

  /** It agrees with both section-header readers of `ElfStructures`. */
  lemma ShdrReadersAgree(data: seq<byte>)
    ensures ReadShdr(data) == ES.ReadShdr(data)
    ensures ReadShdr(data) == ES.ReadShdrAccessor(data)
  {
    ES.ShdrReadersAgree(data);
  }

  /** It depends only on the first 64 bytes. */
  lemma ShdrPrefixOnly(data: seq<byte>, other: seq<byte>)
    requires |data| >= ES.SHDR_LENGTH && |other| >= ES.SHDR_LENGTH
    requires data[..ES.SHDR_LENGTH] == other[..ES.SHDR_LENGTH]
    ensures ReadShdr(data) == ReadShdr(other)
  {
    ShdrReadersAgree(data);
    ShdrReadersAgree(other);
    ES.ShdrPrefix(data, other);
  }
}

=== FILE: elf_constants.dfy ===
/** The ELF constants the converter uses (System V gABI values, AArch64
    relocation numbers from the ARM ELF ABI). */
module ElfConstants {

  const EI_NIDENT: nat := 16
  const EM_AARCH64: nat := 183

  const SHN_UNDEF: nat := 0
  const SHN_LORESERVE: nat := 0xff00

  const SHT_NULL: nat := 0
  const SHT_PROGBITS: nat := 1
  const SHT_HASH: nat := 5
  const SHT_NOTE: nat := 7
  const SHT_NOBITS: nat := 8

  const SHF_WRITE: nat := 0x1
  const SHF_ALLOC: nat := 0x2
  const SHF_EXECINSTR: nat := 0x4

  const PT_LOAD: nat := 1
  const PT_DYNAMIC: nat := 2
  const PT_GNU_EH_FRAME: nat := 0x6474e550

  const PF_X: nat := 0x1
  const PF_W: nat := 0x2
  const PF_R: nat := 0x4

  const DT_NULL: nat := 0
  const DT_PLTRELSZ: nat := 2
  const DT_PLTGOT: nat := 3
  const DT_HASH: nat := 4
  const DT_STRTAB: nat := 5
  const DT_SYMTAB: nat := 6
  const DT_RELA: nat := 7
  const DT_RELASZ: nat := 8
  const DT_STRSZ: nat := 10
  const DT_INIT: nat := 12
  const DT_FINI: nat := 13
  const DT_JMPREL: nat := 23
  const DT_INIT_ARRAY: nat := 25
  const DT_FINI_ARRAY: nat := 26
  const DT_INIT_ARRAYSZ: nat := 27
  const DT_FINI_ARRAYSZ: nat := 28
  const DT_GNU_HASH: nat := 0x6ffffef5

  const NT_GNU_BUILD_ID: nat := 3

  const R_AARCH64_JUMP_SLOT: nat := 1026
}

=== FILE: elf_structures.dfy ===
/** ELF64 records as laid out in the System V gABI (chapter 4: ELF header,
    section header, symbol, relocation; chapter 5: program header, note,
    dynamic entry), with the readers and writers of
    `NsoElfConverterDotNet.Structures.Elf`. All fields are little-endian. */
module ElfStructures {
  import opened Bytes
  import opened Results
  import opened Layout
  import opened ElfConstants

  // ---------------------------------------------------------------- Phdr

  datatype Phdr = Phdr(Type: u32, Flags: u32, Offset: u64, VAddr: u64,
                       PAddr: u64, FileSize: u64, MemSize: u64, Align: u64)

  /** Widths of Type, Flags, Offset, VAddr, PAddr, FileSize, MemSize, Align. */
  const PHDR_FIELDS: seq<nat> := [4, 4, 8, 8, 8, 8, 8, 8]
  const PHDR_LENGTH: nat := 56

  function PhdrValues(p: Phdr): seq<nat> {
    [p.Type, p.Flags, p.Offset, p.VAddr, p.PAddr, p.FileSize, p.MemSize, p.Align]
  }

  lemma PhdrFits(p: Phdr)
    ensures Fits(PhdrValues(p), PHDR_FIELDS)
  {
  }

  /** The span reader: fields in order, each at the running index. */
  function ReadPhdr(data: seq<byte>): (r: Option<Phdr>)
    ensures r.None? <==> |data| < PHDR_LENGTH
    ensures r.Some? ==>
      && r.value.Type == ReadU32(data, 0) && r.value.Flags == ReadU32(data, 4)
      && r.value.Offset == ReadU64(data, 8) && r.value.VAddr == ReadU64(data, 16)
      && r.value.PAddr == ReadU64(data, 24) && r.value.FileSize == ReadU64(data, 32)
      && r.value.MemSize == ReadU64(data, 40) && r.value.Align == ReadU64(data, 48)
  {
    if |data| < PHDR_LENGTH then None
    else
      var v := Unpack(data, PHDR_FIELDS);
      UnpackFits(data, PHDR_FIELDS);
      PhdrAt(data);
      Some(Phdr(v[0], v[1], v[2], v[3], v[4], v[5], v[6], v[7]))
  }

  lemma PhdrOffsets()
    ensures Off(PHDR_FIELDS, 1) == 4 && Off(PHDR_FIELDS, 2) == 8 && Off(PHDR_FIELDS, 3) == 16
    ensures Off(PHDR_FIELDS, 4) == 24 && Off(PHDR_FIELDS, 5) == 32
    ensures Off(PHDR_FIELDS, 6) == 40 && Off(PHDR_FIELDS, 7) == 48
  {}

  lemma PhdrAt(data: seq<byte>)
    requires |data| >= PHDR_LENGTH
    ensures var v := Unpack(data, PHDR_FIELDS);
      && v[0] == Le(data[0..4]) && v[1] == Le(data[4..8]) && v[2] == Le(data[8..16])
      && v[3] == Le(data[16..24]) && v[4] == Le(data[24..32]) && v[5] == Le(data[32..40])
      && v[6] == Le(data[40..48]) && v[7] == Le(data[48..56])
  {
    var w := PHDR_FIELDS;
    PhdrOffsets();
    FieldAt(data, w, 0, 0); FieldAt(data, w, 1, 4); FieldAt(data, w, 2, 8); FieldAt(data, w, 3, 16);
    FieldAt(data, w, 4, 24); FieldAt(data, w, 5, 32); FieldAt(data, w, 6, 40); FieldAt(data, w, 7, 48);
  }

  /** The bytes `Write` stores: the same fields, widths and order. */
  function EncodePhdr(p: Phdr): (r: seq<byte>)
    ensures |r| == PHDR_LENGTH
  {
    Pack(PhdrValues(p), PHDR_FIELDS)
  }

  /** `Write(Span)`: fails on a span shorter than the record, and touches
      only its first 56 bytes. */
  function WritePhdr(p: Phdr, target: seq<byte>): (r: Option<seq<byte>>)
    ensures r.None? <==> |target| < PHDR_LENGTH
    ensures r.Some? ==> |r.value| == |target| && r.value[PHDR_LENGTH..] == target[PHDR_LENGTH..]
    ensures r.Some? ==> r.value[..PHDR_LENGTH] == EncodePhdr(p)
  {
    if |target| < PHDR_LENGTH then None
    else
      var out := Overwrite(target, 0, EncodePhdr(p));
      assert out[PHDR_LENGTH..] == target[PHDR_LENGTH..];
      Some(out)
  }

  /** Reading a written program header gives it back. */
  lemma PhdrRoundTrip(p: Phdr, target: seq<byte>)
    requires |target| >= PHDR_LENGTH
    ensures ReadPhdr(EncodePhdr(p)) == Some(p)
    ensures ReadPhdr(WritePhdr(p, target).value) == Some(p)
  {
    var vals := PhdrValues(p);
    PhdrFits(p);
    UnpackPack(vals, PHDR_FIELDS);
    var out := WritePhdr(p, target).value;
    UnpackPrefix(out, EncodePhdr(p), PHDR_FIELDS);
  }

  /** The reader looks at the first 56 bytes only, and encoding what it
      read gives those bytes back. */
  lemma PhdrPrefix(data: seq<byte>, other: seq<byte>)
    requires |data| >= PHDR_LENGTH && |other| >= PHDR_LENGTH
    requires data[..PHDR_LENGTH] == other[..PHDR_LENGTH]
    ensures ReadPhdr(data) == ReadPhdr(other)
    ensures EncodePhdr(ReadPhdr(data).value) == data[..PHDR_LENGTH]
  {
    UnpackPrefix(data, other, PHDR_FIELDS);
    var v := Unpack(data, PHDR_FIELDS);
    UnpackFits(data, PHDR_FIELDS);
    assert |v| == 8;
    assert PhdrValues(ReadPhdr(data).value) == v;
    assert Sum(PHDR_FIELDS) == PHDR_LENGTH;
    PackUnpack(data, PHDR_FIELDS);
  }

  // ---------------------------------------------------------------- Ehdr

  datatype Ehdr = Ehdr(Ident: seq<byte>, Type: u16, Machine: u16, Version: u32,
                       Entry: u64, PhOff: u64, ShOff: u64, Flags: u32,
                       EhSize: u16, PHEntSize: u16, PHNum: u16,
                       SHEntSize: u16, SHNum: u16, SHStrNdx: u16)

  /** Widths of the fields after the 16 identification bytes. */
  const EHDR_FIELDS: seq<nat> := [2, 2, 4, 8, 8, 8, 4, 2, 2, 2, 2, 2, 2]
  const EHDR_LENGTH: nat := EI_NIDENT + 48

  function EhdrValues(h: Ehdr): seq<nat> {
    [h.Type, h.Machine, h.Version, h.Entry, h.PhOff, h.ShOff, h.Flags,
     h.EhSize, h.PHEntSize, h.PHNum, h.SHEntSize, h.SHNum, h.SHStrNdx]
  }

  lemma EhdrFits(h: Ehdr)
    ensures Fits(EhdrValues(h), EHDR_FIELDS)
  {
  }

  /** The default constructor: sixteen zero identification bytes, every
      other field zero. */
  function DefaultEhdr(): (h: Ehdr)
    ensures |h.Ident| == EI_NIDENT && forall k :: 0 <= k < EI_NIDENT ==> h.Ident[k] == 0
    ensures EhdrValues(h) == [0, 0, 0, 0, 0, 0, 0, 0, 0, 0, 0, 0, 0]
  {
    Ehdr(Zeros(EI_NIDENT), 0, 0, 0, 0, 0, 0, 0, 0, 0, 0, 0, 0, 0)
  }

  /** The reader: the identification bytes, then each field at the running
      index from 16. */
  function ReadEhdr(data: seq<byte>): (r: Option<Ehdr>)
    ensures r.None? <==> |data| < EHDR_LENGTH
    ensures r.Some? ==>
      && r.value.Ident == data[..16]
      && r.value.Type == ReadU16(data, 16) && r.value.Machine == ReadU16(data, 18)
      && r.value.Version == ReadU32(data, 20) && r.value.Entry == ReadU64(data, 24)
      && r.value.PhOff == ReadU64(data, 32) && r.value.ShOff == ReadU64(data, 40)
      && r.value.Flags == ReadU32(data, 48) && r.value.EhSize == ReadU16(data, 52)
      && r.value.PHEntSize == ReadU16(data, 54) && r.value.PHNum == ReadU16(data, 56)
      && r.value.SHEntSize == ReadU16(data, 58) && r.value.SHNum == ReadU16(data, 60)
      && r.value.SHStrNdx == ReadU16(data, 62)
  {
    if |data| < EHDR_LENGTH then None
    else
      var body := data[EI_NIDENT..];
      EhdrOffsets();
      var v := Unpack(body, EHDR_FIELDS);
      UnpackFits(body, EHDR_FIELDS);
      EhdrAt(data);
      Some(Ehdr(data[..EI_NIDENT], v[0], v[1], v[2], v[3], v[4], v[5], v[6],
                v[7], v[8], v[9], v[10], v[11], v[12]))
  }

  lemma EhdrOffsets()
    ensures Sum(EHDR_FIELDS) == 48
    ensures Off(EHDR_FIELDS, 1) == 2 && Off(EHDR_FIELDS, 2) == 4 && Off(EHDR_FIELDS, 3) == 8
    ensures Off(EHDR_FIELDS, 4) == 16 && Off(EHDR_FIELDS, 5) == 24 && Off(EHDR_FIELDS, 6) == 32
    ensures Off(EHDR_FIELDS, 7) == 36 && Off(EHDR_FIELDS, 8) == 38 && Off(EHDR_FIELDS, 9) == 40
    ensures Off(EHDR_FIELDS, 10) == 42 && Off(EHDR_FIELDS, 11) == 44 && Off(EHDR_FIELDS, 12) == 46
  {
    assert Sum(EHDR_FIELDS) == Off(EHDR_FIELDS, 13);
    assert Off(EHDR_FIELDS, 13) == Off(EHDR_FIELDS, 12) + EHDR_FIELDS[12];
  }

  lemma EhdrAt(data: seq<byte>)
    requires |data| >= EHDR_LENGTH
    ensures Sum(EHDR_FIELDS) <= |data[16..]|
    ensures var v := Unpack(data[16..], EHDR_FIELDS);
      && v[0] == Le(data[16..18]) && v[1] == Le(data[18..20]) && v[2] == Le(data[20..24])
      && v[3] == Le(data[24..32]) && v[4] == Le(data[32..40]) && v[5] == Le(data[40..48])
      && v[6] == Le(data[48..52]) && v[7] == Le(data[52..54]) && v[8] == Le(data[54..56])
      && v[9] == Le(data[56..58]) && v[10] == Le(data[58..60]) && v[11] == Le(data[60..62])
      && v[12] == Le(data[62..64])
  {
    var w := EHDR_FIELDS;
    EhdrOffsets();
    FieldAtShifted(data, 16, w, 0, 0); FieldAtShifted(data, 16, w, 1, 2);
    FieldAtShifted(data, 16, w, 2, 4); FieldAtShifted(data, 16, w, 3, 8);
    FieldAtShifted(data, 16, w, 4, 16); FieldAtShifted(data, 16, w, 5, 24);
    FieldAtShifted(data, 16, w, 6, 32); FieldAtShifted(data, 16, w, 7, 36);
    FieldAtShifted(data, 16, w, 8, 38); FieldAtShifted(data, 16, w, 9, 40);
    FieldAtShifted(data, 16, w, 10, 42); FieldAtShifted(data, 16, w, 11, 44);
    FieldAtShifted(data, 16, w, 12, 46);
  }

  /** `Write(Span)`: `Ident` is copied whole to offset 0 (failing if it does
      not fit), then the fields go at the running index from 16, failing on
      a span shorter than 64 bytes. */
  function WriteEhdr(h: Ehdr, target: seq<byte>): (r: Option<seq<byte>>)
    ensures r.None? <==> |target| < EHDR_LENGTH || |h.Ident| > |target|
    ensures r.Some? ==> |r.value| == |target|
    ensures r.Some? ==> forall k :: 0 <= k < 16 ==>
      r.value[k] == if k < |h.Ident| then h.Ident[k] else target[k]
    ensures r.Some? ==> r.value[16..64] == Pack(EhdrValues(h), EHDR_FIELDS)
    ensures r.Some? ==> forall k :: 64 <= k < |target| ==>
      r.value[k] == if k < |h.Ident| then h.Ident[k] else target[k]
  {
    if |h.Ident| > |target| || |target| < EHDR_LENGTH then None
    else
      EhdrOffsets();
      var withIdent := Overwrite(target, 0, h.Ident);
      Some(Overwrite(withIdent, EI_NIDENT, Pack(EhdrValues(h), EHDR_FIELDS)))
  }

  /** Reading a written header gives it back when `Ident` is the standard
      16 bytes. */
  lemma EhdrRoundTrip(h: Ehdr, target: seq<byte>)
    requires |h.Ident| == EI_NIDENT && |target| >= EHDR_LENGTH
    ensures ReadEhdr(WriteEhdr(h, target).value) == Some(h)
  {
    EhdrOffsets();
    var out := WriteEhdr(h, target).value;
    var vals := EhdrValues(h);
    var packed := Pack(vals, EHDR_FIELDS);
    assert out[..16] == h.Ident;
    EhdrFits(h);
    UnpackPack(vals, EHDR_FIELDS);
    assert out[16..][..48] == packed[..48];
    UnpackPrefix(out[16..], packed, EHDR_FIELDS);
  }

  /** A short `Ident` leaves the rest of the identification bytes as they
      were in the target. */
  lemma EhdrShortIdent(h: Ehdr, target: seq<byte>)
    requires |h.Ident| < EI_NIDENT && |target| >= EHDR_LENGTH
    ensures WriteEhdr(h, target).Some?
    ensures WriteEhdr(h, target).value[..|h.Ident|] == h.Ident
    ensures WriteEhdr(h, target).value[|h.Ident|..16] == target[|h.Ident|..16]
  {
    EhdrOffsets();
  }

  // ---------------------------------------------------------------- Shdr

  datatype Shdr = Shdr(Name: u32, Type: u32, Flags: u64, Addr: u64, Offset: u64,
                       Size: u64, Link: u32, Info: u32, AddrAlign: u64, EntSize: u64)

  /** Widths the readers use: Name, Type, Flags, Addr, Offset, Size, Link,
      Info, AddrAlign, EntSize. */
  const SHDR_FIELDS: seq<nat> := [4, 4, 8, 8, 8, 8, 4, 4, 8, 8]
  const SHDR_LENGTH: nat := 64

  /** Widths `Write` uses: `Info` is written as a 64-bit value. */
  const SHDR_WRITTEN_FIELDS: seq<nat> := [4, 4, 8, 8, 8, 8, 4, 8, 8, 8]
  const SHDR_WRITTEN_LENGTH: nat := 68

  function ShdrValues(s: Shdr): seq<nat> {
    [s.Name, s.Type, s.Flags, s.Addr, s.Offset, s.Size, s.Link, s.Info, s.AddrAlign, s.EntSize]
  }

  lemma ShdrFits(s: Shdr)
    ensures Fits(ShdrValues(s), SHDR_FIELDS)
  {
  }

  lemma ShdrOffsets()
    ensures Sum(SHDR_FIELDS) == SHDR_LENGTH
    ensures Off(SHDR_FIELDS, 1) == 4 && Off(SHDR_FIELDS, 2) == 8 && Off(SHDR_FIELDS, 3) == 16
    ensures Off(SHDR_FIELDS, 4) == 24 && Off(SHDR_FIELDS, 5) == 32 && Off(SHDR_FIELDS, 6) == 40
    ensures Off(SHDR_FIELDS, 7) == 44 && Off(SHDR_FIELDS, 8) == 48 && Off(SHDR_FIELDS, 9) == 56
    ensures Sum(SHDR_WRITTEN_FIELDS) == SHDR_WRITTEN_LENGTH
    ensures Off(SHDR_WRITTEN_FIELDS, 1) == 4 && Off(SHDR_WRITTEN_FIELDS, 2) == 8
    ensures Off(SHDR_WRITTEN_FIELDS, 3) == 16 && Off(SHDR_WRITTEN_FIELDS, 4) == 24
    ensures Off(SHDR_WRITTEN_FIELDS, 5) == 32 && Off(SHDR_WRITTEN_FIELDS, 6) == 40
    ensures Off(SHDR_WRITTEN_FIELDS, 7) == 44 && Off(SHDR_WRITTEN_FIELDS, 8) == 52
    ensures Off(SHDR_WRITTEN_FIELDS, 9) == 60
  {
    assert Sum(SHDR_FIELDS) == Off(SHDR_FIELDS, 10);
    assert Sum(SHDR_WRITTEN_FIELDS) == Off(SHDR_WRITTEN_FIELDS, 10);
  }

  lemma ShdrAt(data: seq<byte>)
    requires |data| >= SHDR_LENGTH
    ensures Sum(SHDR_FIELDS) <= |data|
    ensures var v := Unpack(data, SHDR_FIELDS);
      && v[0] == Le(data[0..4]) && v[1] == Le(data[4..8]) && v[2] == Le(data[8..16])
      && v[3] == Le(data[16..24]) && v[4] == Le(data[24..32]) && v[5] == Le(data[32..40])
      && v[6] == Le(data[40..44]) && v[7] == Le(data[44..48]) && v[8] == Le(data[48..56])
      && v[9] == Le(data[56..64])
  {
    var w := SHDR_FIELDS;
    ShdrOffsets();
    FieldAt(data, w, 0, 0); FieldAt(data, w, 1, 4); FieldAt(data, w, 2, 8); FieldAt(data, w, 3, 16);
    FieldAt(data, w, 4, 24); FieldAt(data, w, 5, 32); FieldAt(data, w, 6, 40); FieldAt(data, w, 7, 44);
    FieldAt(data, w, 8, 48); FieldAt(data, w, 9, 56);
  }

  /** The span reader: fields in order at the running index. */
  function ReadShdr(data: seq<byte>): (r: Option<Shdr>)
    ensures r.None? <==> |data| < SHDR_LENGTH
    ensures r.Some? ==>
      && r.value.Name == ReadU32(data, 0) && r.value.Type == ReadU32(data, 4)
      && r.value.Flags == ReadU64(data, 8) && r.value.Addr == ReadU64(data, 16)
      && r.value.Offset == ReadU64(data, 24) && r.value.Size == ReadU64(data, 32)
      && r.value.Link == ReadU32(data, 40) && r.value.Info == ReadU32(data, 44)
      && r.value.AddrAlign == ReadU64(data, 48) && r.value.EntSize == ReadU64(data, 56)
  {
    if |data| < SHDR_LENGTH then None
    else
      ShdrOffsets();
      var v := Unpack(data, SHDR_FIELDS);
      UnpackFits(data, SHDR_FIELDS);
      ShdrAt(data);
      Some(Shdr(v[0], v[1], v[2], v[3], v[4], v[5], v[6], v[7], v[8], v[9]))
  }

  /** The accessor reader: each field read at its absolute offset. */
  function ReadShdrAccessor(data: seq<byte>): (r: Option<Shdr>)
    ensures r.None? <==> |data| < SHDR_LENGTH
  {
    if |data| < SHDR_LENGTH then None
    else
      Some(Shdr(ReadU32(data, 0), ReadU32(data, 4), ReadU64(data, 8), ReadU64(data, 16),
                ReadU64(data, 24), ReadU64(data, 32), ReadU32(data, 40), ReadU32(data, 44),
                ReadU64(data, 48), ReadU64(data, 56)))
  }

  /** The two readers agree on every buffer. */
  lemma ShdrReadersAgree(data: seq<byte>)
    ensures ReadShdrAccessor(data) == ReadShdr(data)
  {
  }

  /** `Write(Span)` as written: `Info` goes out as 64 bits, so 68 bytes are
      stored and a span shorter than that makes it fail. */
  function WriteShdrAsWritten(s: Shdr, target: seq<byte>): (r: Option<seq<byte>>)
    ensures r.None? <==> |target| < SHDR_WRITTEN_LENGTH
    ensures r.Some? ==> |r.value| == |target|
    ensures r.Some? ==> r.value[SHDR_WRITTEN_LENGTH..] == target[SHDR_WRITTEN_LENGTH..]
    ensures r.Some? ==> r.value[..SHDR_WRITTEN_LENGTH] == Pack(ShdrValues(s), SHDR_WRITTEN_FIELDS)
  {
    if |target| < SHDR_WRITTEN_LENGTH then None
    else
      ShdrOffsets();
      var out := Overwrite(target, 0, Pack(ShdrValues(s), SHDR_WRITTEN_FIELDS));
      assert out[SHDR_WRITTEN_LENGTH..] == target[SHDR_WRITTEN_LENGTH..];
      Some(out)
  }

  /** The span reader looks at the first 64 bytes only. */
  lemma ShdrPrefix(data: seq<byte>, other: seq<byte>)
    requires |data| >= SHDR_LENGTH && |other| >= SHDR_LENGTH
    requires data[..SHDR_LENGTH] == other[..SHDR_LENGTH]
    ensures ReadShdr(data) == ReadShdr(other)
  {
    ShdrOffsets();
    UnpackPrefix(data, other, SHDR_FIELDS);
  }

  /** The 68 bytes the as-written `Write` produces, word by word. */
  lemma ShdrWrittenBytes(s: Shdr)
    ensures var p := Pack(ShdrValues(s), SHDR_WRITTEN_FIELDS);
      && |p| == SHDR_WRITTEN_LENGTH
      && p[0..4] == ToLe(s.Name, 4) && p[4..8] == ToLe(s.Type, 4)
      && p[8..16] == ToLe(s.Flags, 8) && p[16..24] == ToLe(s.Addr, 8)
      && p[24..32] == ToLe(s.Offset, 8) && p[32..40] == ToLe(s.Size, 8)
      && p[40..44] == ToLe(s.Link, 4) && p[44..48] == ToLe(s.Info, 4)
      && p[48..56] == ToLe(0, 4) + ToLe(s.AddrAlign, 4)
      && p[56..64] == ToLe(s.AddrAlign / TWO_32, 4) + ToLe(s.EntSize, 4)
  {
    ShdrOffsets();
    var vals := ShdrValues(s);
    var ws := SHDR_WRITTEN_FIELDS;
    PackFieldAt(vals, ws, 0, 0); PackFieldAt(vals, ws, 1, 4); PackFieldAt(vals, ws, 2, 8);
    PackFieldAt(vals, ws, 3, 16); PackFieldAt(vals, ws, 4, 24); PackFieldAt(vals, ws, 5, 32);
    PackFieldAt(vals, ws, 6, 40);
    ShdrWrittenTail(s);
  }

  lemma ShdrWrittenTail(s: Shdr)
    ensures var p := Pack(ShdrValues(s), SHDR_WRITTEN_FIELDS);
      && |p| == SHDR_WRITTEN_LENGTH
      && p[44..48] == ToLe(s.Info, 4)
      && p[48..56] == ToLe(0, 4) + ToLe(s.AddrAlign, 4)
      && p[56..64] == ToLe(s.AddrAlign / TWO_32, 4) + ToLe(s.EntSize, 4)
  {
    ShdrOffsets();
    ShdrWrittenWords(s, 7, 44);
    ShdrWrittenWords(s, 8, 52);
    ShdrWrittenWords(s, 9, 60);
    assert s.Info / TWO_32 == 0;
    Regroup(Pack(ShdrValues(s), SHDR_WRITTEN_FIELDS), ToLe(s.Info, 4), ToLe(0, 4),
            ToLe(s.AddrAlign, 4), ToLe(s.AddrAlign / TWO_32, 4),
            ToLe(s.EntSize, 4), ToLe(s.EntSize / TWO_32, 4));
  }

  /** Three consecutive 8-byte fields starting at 44, seen as 4-byte words
      starting at 44. */
  lemma Regroup(p: seq<byte>, a0: seq<byte>, a1: seq<byte>, b0: seq<byte>, b1: seq<byte>,
                c0: seq<byte>, c1: seq<byte>)
    requires |p| == 68 && |a0| == |a1| == |b0| == |b1| == |c0| == |c1| == 4
    requires p[44..52] == a0 + a1 && p[52..60] == b0 + b1 && p[60..68] == c0 + c1
    ensures p[44..48] == a0 && p[48..56] == a1 + b0 && p[56..64] == b1 + c0
  {
    assert p[44..48] == p[44..52][..4];
    assert p[48..56] == p[44..52][4..] + p[52..60][..4];
    assert p[56..64] == p[52..60][4..] + p[60..68][..4];
  }

  /** A 64-bit field of the as-written layout, as its two words. */
  lemma ShdrWrittenWords(s: Shdr, k: nat, o: nat)
    requires 7 <= k < 10 && o == Off(SHDR_WRITTEN_FIELDS, k)
    ensures o + 8 <= Sum(SHDR_WRITTEN_FIELDS)
    ensures var v := ShdrValues(s)[k];
      Pack(ShdrValues(s), SHDR_WRITTEN_FIELDS)[o..o + 8] == ToLe(v, 4) + ToLe(v / TWO_32, 4)
  {
    PackFieldAt(ShdrValues(s), SHDR_WRITTEN_FIELDS, k, o);
    ToLeWords(ShdrValues(s)[k]);
  }

  /** What the span reader sees after the as-written `Write`: `Name` through
      `Info` come back, but `AddrAlign` is read from the zero high word of
      `Info` and the low word of `AddrAlign`, and `EntSize` from the high
      word of `AddrAlign` and the low word of `EntSize`. */
  lemma ShdrAsWrittenReadBack(s: Shdr, target: seq<byte>)
    requires |target| >= SHDR_WRITTEN_LENGTH
    ensures ReadShdr(WriteShdrAsWritten(s, target).value) ==
      Some(s.(AddrAlign := (s.AddrAlign % TWO_32) * TWO_32,
              EntSize := s.AddrAlign / TWO_32 + (s.EntSize % TWO_32) * TWO_32))
  {
    var p := Pack(ShdrValues(s), SHDR_WRITTEN_FIELDS);
    var out := WriteShdrAsWritten(s, target).value;
    ShdrOffsets();
    assert out[..SHDR_LENGTH] == p[..SHDR_LENGTH];
    ShdrPrefix(out, p);
    ShdrWrittenHeadRead(s);
    ShdrWrittenTailRead(s);
  }

  lemma ShdrWrittenHeadRead(s: Shdr)
    ensures var p := Pack(ShdrValues(s), SHDR_WRITTEN_FIELDS);
      var r := ReadShdr(p);
      && r.Some? && r.value.Name == s.Name && r.value.Type == s.Type
      && r.value.Flags == s.Flags && r.value.Addr == s.Addr && r.value.Offset == s.Offset
      && r.value.Size == s.Size && r.value.Link == s.Link && r.value.Info == s.Info
  {
    ShdrWrittenBytes(s);
    LeToLeFits(s.Name, 4); LeToLeFits(s.Type, 4); LeToLeFits(s.Flags, 8);
    LeToLeFits(s.Addr, 8); LeToLeFits(s.Offset, 8); LeToLeFits(s.Size, 8);
    LeToLeFits(s.Link, 4); LeToLeFits(s.Info, 4);
  }

  lemma ShdrWrittenTailRead(s: Shdr)
    ensures var p := Pack(ShdrValues(s), SHDR_WRITTEN_FIELDS);
      var r := ReadShdr(p);
      && r.Some? && r.value.AddrAlign == (s.AddrAlign % TWO_32) * TWO_32
      && r.value.EntSize == s.AddrAlign / TWO_32 + (s.EntSize % TWO_32) * TWO_32
  {
    ShdrWrittenTail(s);
    assert Pow256(4) == TWO_32;
    LeWords(ToLe(0, 4), ToLe(s.AddrAlign, 4));
    LeToLe(0, 4);
    LeToLe(s.AddrAlign, 4);
    LeWords(ToLe(s.AddrAlign / TWO_32, 4), ToLe(s.EntSize, 4));
    LeToLeFits(s.AddrAlign / TWO_32, 4);
    LeToLe(s.EntSize, 4);
  }

  /** A section header with the usual 8-byte alignment does not survive
      the as-written writer. */
  lemma ShdrAsWrittenLosesAlignment(s: Shdr, target: seq<byte>)
    requires s.AddrAlign == 8 && |target| >= SHDR_WRITTEN_LENGTH
    ensures ReadShdr(WriteShdrAsWritten(s, target).value).value.AddrAlign == 8 * TWO_32
    ensures ReadShdr(WriteShdrAsWritten(s, target).value) != Some(s)
  {
    ShdrAsWrittenReadBack(s, target);
  }

  /** `Write` with `Info` at its declared 32-bit width: 64 bytes, the
      readers' layout. */
  function WriteShdr(s: Shdr, target: seq<byte>): (r: Option<seq<byte>>)
    ensures r.None? <==> |target| < SHDR_LENGTH
    ensures r.Some? ==> |r.value| == |target|
    ensures r.Some? ==> r.value[SHDR_LENGTH..] == target[SHDR_LENGTH..]
    ensures r.Some? ==> r.value[..SHDR_LENGTH] == Pack(ShdrValues(s), SHDR_FIELDS)
  {
    if |target| < SHDR_LENGTH then None
    else
      ShdrOffsets();
      var out := Overwrite(target, 0, Pack(ShdrValues(s), SHDR_FIELDS));
      assert out[SHDR_LENGTH..] == target[SHDR_LENGTH..];
      Some(out)
  }

  /** Reading a section header written at the declared width gives it back. */
  lemma ShdrRoundTrip(s: Shdr, target: seq<byte>)
    requires |target| >= SHDR_LENGTH
    ensures ReadShdr(WriteShdr(s, target).value) == Some(s)
  {
    ShdrOffsets();
    var vals := ShdrValues(s);
    var p := Pack(vals, SHDR_FIELDS);
    ShdrFits(s);
    UnpackPack(vals, SHDR_FIELDS);
    var out := WriteShdr(s, target).value;
    assert out[..64] == p[..64];
    UnpackPrefix(out, p, SHDR_FIELDS);
  }

  // ---------------------------------------------------------------- Nhdr

  /** A note header. The name (NameSize bytes) and the descriptor
      (DescriptorSize bytes) follow it, each padded to a 4-byte boundary;
      the sizes do not count the padding. */
  datatype Nhdr = Nhdr(NameSize: u32, DescriptorSize: u32, Type: u32)

  const NHDR_FIELDS: seq<nat> := [4, 4, 4]
  const NHDR_LENGTH: nat := 12

  function NhdrValues(n: Nhdr): seq<nat> {
    [n.NameSize, n.DescriptorSize, n.Type]
  }

  lemma NhdrOffsets()
    ensures Sum(NHDR_FIELDS) == NHDR_LENGTH
    ensures Off(NHDR_FIELDS, 1) == 4 && Off(NHDR_FIELDS, 2) == 8
  {
    assert Sum(NHDR_FIELDS) == Off(NHDR_FIELDS, 3);
  }

  /** The span reader. */
  function ReadNhdr(data: seq<byte>): (r: Option<Nhdr>)
    ensures r.None? <==> |data| < NHDR_LENGTH
    ensures r.Some? ==>
      && r.value.NameSize == ReadU32(data, 0)
      && r.value.DescriptorSize == ReadU32(data, 4) && r.value.Type == ReadU32(data, 8)
  {
    if |data| < NHDR_LENGTH then None
    else
      NhdrOffsets();
      var v := Unpack(data, NHDR_FIELDS);
      UnpackFits(data, NHDR_FIELDS);
      FieldAt(data, NHDR_FIELDS, 0, 0);
      FieldAt(data, NHDR_FIELDS, 1, 4);
      FieldAt(data, NHDR_FIELDS, 2, 8);
      Some(Nhdr(v[0], v[1], v[2]))
  }

  /** The accessor reader: three words at absolute offsets 0, 4 and 8. */
  function ReadNhdrAccessor(data: seq<byte>): (r: Option<Nhdr>)
    ensures r.None? <==> |data| < NHDR_LENGTH
  {
    if |data| < NHDR_LENGTH then None
    else Some(Nhdr(ReadU32(data, 0), ReadU32(data, 4), ReadU32(data, 8)))
  }

  lemma NhdrReadersAgree(data: seq<byte>)
    ensures ReadNhdrAccessor(data) == ReadNhdr(data)
  {
  }

  /** The note header as the System V gABI lays it out; the converter only
      reads it. */
  function EncodeNhdr(n: Nhdr): (r: seq<byte>)
    ensures |r| == NHDR_LENGTH
  {
    NhdrOffsets();
    Pack(NhdrValues(n), NHDR_FIELDS)
  }

  /** Only the 12 header bytes are read, whatever follows them. */
  lemma NhdrRoundTrip(n: Nhdr, rest: seq<byte>)
    ensures ReadNhdr(EncodeNhdr(n) + rest) == Some(n)
  {
    NhdrOffsets();
    var e := EncodeNhdr(n);
    assert Fits(NhdrValues(n), NHDR_FIELDS);
    UnpackPack(NhdrValues(n), NHDR_FIELDS);
    assert (e + rest)[..12] == e[..12];
    UnpackPrefix(e + rest, e, NHDR_FIELDS);
  }

  // ---------------------------------------------------------------- Sym

  datatype Sym = Sym(Name: u32, Info: byte, Other: byte, Shndx: u16, Value: u64, Size: u64)

  const SYM_FIELDS: seq<nat> := [4, 1, 1, 2, 8, 8]
  const SYM_LENGTH: nat := 4 + 1 + 1 + 2 + 8 + 8

  function SymValues(y: Sym): seq<nat> {
    [y.Name, y.Info, y.Other, y.Shndx, y.Value, y.Size]
  }

  lemma SymFits(y: Sym)
    ensures Fits(SymValues(y), SYM_FIELDS)
  {
  }

  lemma SymOffsets()
    ensures Sum(SYM_FIELDS) == SYM_LENGTH == 24
    ensures Off(SYM_FIELDS, 1) == 4 && Off(SYM_FIELDS, 2) == 5 && Off(SYM_FIELDS, 3) == 6
    ensures Off(SYM_FIELDS, 4) == 8 && Off(SYM_FIELDS, 5) == 16
  {
    assert Sum(SYM_FIELDS) == Off(SYM_FIELDS, 6);
  }

  /** The reader: `Name` at 0, the `Info` and `Other` bytes at 4 and 5,
      `Shndx` at 6, `Value` at 8 and `Size` at 16. */
  function ReadSym(data: seq<byte>): (r: Option<Sym>)
    ensures r.None? <==> |data| < SYM_LENGTH
    ensures r.Some? ==>
      && r.value.Name == ReadU32(data, 0) && r.value.Info == data[4]
      && r.value.Other == data[5] && r.value.Shndx == ReadU16(data, 6)
      && r.value.Value == ReadU64(data, 8) && r.value.Size == ReadU64(data, 16)
  {
    if |data| < SYM_LENGTH then None
    else
      SymOffsets();
      var w := SYM_FIELDS;
      var v := Unpack(data, w);
      UnpackFits(data, w);
      FieldAt(data, w, 0, 0); FieldAt(data, w, 1, 4); FieldAt(data, w, 2, 5);
      FieldAt(data, w, 3, 6); FieldAt(data, w, 4, 8); FieldAt(data, w, 5, 16);
      LeOne(data[4..5]);
      LeOne(data[5..6]);
      Some(Sym(v[0], v[1], v[2], v[3], v[4], v[5]))
  }

  /** A one-byte field is that byte. */
  lemma LeOne(s: seq<byte>)
    requires |s| == 1
    ensures Le(s) == s[0]
  {
    assert s[1..] == [];
  }

  /** A symbol as the System V gABI lays it out. */
  function EncodeSym(y: Sym): (r: seq<byte>)
    ensures |r| == SYM_LENGTH
  {
    SymOffsets();
    Pack(SymValues(y), SYM_FIELDS)
  }

  lemma SymRoundTrip(y: Sym, rest: seq<byte>)
    ensures ReadSym(EncodeSym(y) + rest) == Some(y)
  {
    SymOffsets();
    var e := EncodeSym(y);
    SymFits(y);
    UnpackPack(SymValues(y), SYM_FIELDS);
    assert (e + rest)[..24] == e[..24];
    UnpackPrefix(e + rest, e, SYM_FIELDS);
  }

  // ---------------------------------------------------------------- Rela

  type i64 = x: int | -0x8000_0000_0000_0000 <= x < 0x8000_0000_0000_0000

  /** A relocation with addend. `Info` is kept whole: the reader does not
      split it into symbol index and relocation type. */
  datatype Rela = Rela(Offset: u64, Info: u64, Addend: i64)

  const RELA_FIELDS: seq<nat> := [8, 8, 8]
  const RELA_LENGTH: nat := 3 * 8

  lemma RelaOffsets()
    ensures Sum(RELA_FIELDS) == RELA_LENGTH
    ensures Off(RELA_FIELDS, 1) == 8 && Off(RELA_FIELDS, 2) == 16
  {
    assert Sum(RELA_FIELDS) == Off(RELA_FIELDS, 3);
  }

  /** The reader: two unsigned words, then the addend as a two's-complement
      64-bit integer. */
  function ReadRela(data: seq<byte>): (r: Option<Rela>)
    ensures r.None? <==> |data| < RELA_LENGTH
    ensures r.Some? ==>
      && r.value.Offset == ReadU64(data, 0) && r.value.Info == ReadU64(data, 8)
      && r.value.Addend % TWO_64 == ReadU64(data, 16)
  {
    if |data| < RELA_LENGTH then None
    else
      RelaOffsets();
      var v := Unpack(data, RELA_FIELDS);
      UnpackFits(data, RELA_FIELDS);
      FieldAt(data, RELA_FIELDS, 0, 0);
      FieldAt(data, RELA_FIELDS, 1, 8);
      FieldAt(data, RELA_FIELDS, 2, 16);
      Some(Rela(v[0], v[1], I64(v[2])))
  }

  /** A relocation as the System V gABI lays it out. */
  function EncodeRela(x: Rela): (r: seq<byte>)
    ensures |r| == RELA_LENGTH
  {
    RelaOffsets();
    Pack([x.Offset, x.Info, x.Addend % TWO_64], RELA_FIELDS)
  }

  lemma RelaRoundTrip(x: Rela, rest: seq<byte>)
    ensures ReadRela(EncodeRela(x) + rest) == Some(x)
  {
    RelaOffsets();
    var vals := [x.Offset, x.Info, x.Addend % TWO_64];
    var e := EncodeRela(x);
    assert Fits(vals, RELA_FIELDS);
    UnpackPack(vals, RELA_FIELDS);
    assert (e + rest)[..24] == e[..24];
    UnpackPrefix(e + rest, e, RELA_FIELDS);
    assert I64(x.Addend % TWO_64) == x.Addend;
  }

  // ---------------------------------------------------------------- Dyn

  datatype Dyn = Dyn(Tag: u64, Un: u64)

  const DYN_FIELDS: seq<nat> := [8, 8]
  const DYN_LENGTH: nat := 8 + 8

  lemma DynOffsets()
    ensures Sum(DYN_FIELDS) == DYN_LENGTH && Off(DYN_FIELDS, 1) == 8
  {
    assert Sum(DYN_FIELDS) == Off(DYN_FIELDS, 2);
  }

  function ReadDyn(data: seq<byte>): (r: Option<Dyn>)
    ensures r.None? <==> |data| < DYN_LENGTH
    ensures r.Some? ==> r.value.Tag == ReadU64(data, 0) && r.value.Un == ReadU64(data, 8)
  {
    if |data| < DYN_LENGTH then None
    else
      DynOffsets();
      var v := Unpack(data, DYN_FIELDS);
      UnpackFits(data, DYN_FIELDS);
      FieldAt(data, DYN_FIELDS, 0, 0);
      FieldAt(data, DYN_FIELDS, 1, 8);
      Some(Dyn(v[0], v[1]))
  }

  /** Entry k of an array of dynamic entries starting at `base` is the
      pair of words at base + 16k and base + 16k + 8. */
  lemma DynEntryAt(data: seq<byte>, base: nat, k: nat)
    requires base + DYN_LENGTH * (k + 1) <= |data|
    ensures ReadDyn(data[base + DYN_LENGTH * k..]) ==
      Some(Dyn(ReadU64(data, base + 16 * k), ReadU64(data, base + 16 * k + 8)))
  {
    var o := base + 16 * k;
    assert data[o..][0..8] == data[o..o + 8];
    assert data[o..][8..16] == data[o + 8..o + 16];
  }

  function EncodeDyn(d: Dyn): (r: seq<byte>)
    ensures |r| == DYN_LENGTH
  {
    DynOffsets();
    Pack([d.Tag, d.Un], DYN_FIELDS)
  }

  lemma DynRoundTrip(d: Dyn, rest: seq<byte>)
    ensures ReadDyn(EncodeDyn(d) + rest) == Some(d)
  {
    DynOffsets();
    var e := EncodeDyn(d);
    assert Fits([d.Tag, d.Un], DYN_FIELDS);
    UnpackPack([d.Tag, d.Un], DYN_FIELDS);
    assert (e + rest)[..16] == e[..16];
    UnpackPrefix(e + rest, e, DYN_FIELDS);
  }
}

=== FILE: elf_to_nso.dfy ===
/** `ElfToNsoConverter.ConvertElfToNso`: an AArch64 ELF image becomes an NSO
    file. The converter checks the ELF header, takes the first three
    `PT_LOAD` program headers as the text, rodata and data segments, hashes
    and compresses each one, copies the GNU build id out of the notes, and
    writes the NSO header followed by the three compressed segments.

    LZ4 and SHA-256 are parameters: `compress` stands for
    `LZ4Codec.Encode` into a buffer of `MaximumOutputSize` bytes and
    `sha256` for `SHA256.ComputeHash`. Every exception the C# code can
    raise is an `Err` value. */
module ElfToNso {
  import opened Bytes
  import opened Results
  import opened ElfConstants
  import ES = ElfStructures
  import EH = Elf2NsoHeaders
  import opened NsoStructures

  /** A SHA-256 digest. */
  type Digest = s: seq<byte> | |s| == 0x20 witness Zeros(0x20)

  /** What the LZ4 encoder hands back: its output buffer and the length it
      reports having written. */
  datatype Compressed = Compressed(Buffer: seq<byte>, Length: int)

  /** The exceptions `ConvertElfToNso` can raise. */
  datatype ConvertError =
    | ElfTooShort            // input shorter than an ELF header
    | NotAArch64             // e_machine is not EM_AARCH64
    | PhdrTableOutsideFile   // the program-header table wraps or runs past the end
    | PhdrUnreadable         // a program-header slice is out of range or too short
    | TooFewLoadSegments     // fewer than three PT_LOAD entries
    | SegmentOutsideFile     // a segment's file range is out of range
    | ShdrUnreadable         // a section-header slice is out of range or too short
    | NoteOutsideFile        // a note's header, name or descriptor is out of range
    | NoteNameTooShort       // a note's name has fewer than four bytes
    | CapacityOverflow       // the output size does not fit the list capacity

  // ---------------------------------------------------------- validation

  /** End of the program-header table in wrapping 64-bit arithmetic. */
  function PhEnd(h: ES.Ehdr): u64 {
    (h.PhOff + h.PHNum * ES.PHDR_LENGTH) % TWO_64
  }

  /** The test the converter applies to the program-header table. */
  predicate PhTableInFile(h: ES.Ehdr, len: nat) {
    PhEnd(h) >= h.PhOff && PhEnd(h) <= len
  }

  /** The wrap-around test rejects exactly the tables that do not end
      inside the input. */
  lemma PhTableInFileMeans(h: ES.Ehdr, len: nat)
    requires len < TWO_64
    ensures PhTableInFile(h, len) <==> h.PhOff + h.PHNum * ES.PHDR_LENGTH <= len
  {
    var e := h.PhOff + h.PHNum * ES.PHDR_LENGTH;
    if e >= TWO_64 {
      assert PhEnd(h) == e - TWO_64;
    }
  }

  /** The checks before any segment is touched. */
  function CheckHeader(elf: seq<byte>): (r: Result<ES.Ehdr, ConvertError>)
    ensures |elf| < ES.EHDR_LENGTH ==> r == Err(ElfTooShort)
    ensures |elf| >= ES.EHDR_LENGTH ==>
      var h := ES.ReadEhdr(elf).value;
      && (h.Machine != EM_AARCH64 ==> r == Err(NotAArch64))
      && (h.Machine == EM_AARCH64 && |elf| < TWO_64 ==>
            (r.Ok? <==> h.PhOff + h.PHNum * ES.PHDR_LENGTH <= |elf|))
      && (r.Ok? ==> r.value == h)
    ensures r.Err? ==> r.error in {ElfTooShort, NotAArch64, PhdrTableOutsideFile}
  {
    if |elf| < ES.EHDR_LENGTH then Err(ElfTooShort)
    else
      var h := ES.ReadEhdr(elf).value;
      if h.Machine != EM_AARCH64 then Err(NotAArch64)
      else if !PhTableInFile(h, |elf|) then
        (if |elf| < TWO_64 then PhTableInFileMeans(h, |elf|); Err(PhdrTableOutsideFile)
         else Err(PhdrTableOutsideFile))
      else
        (if |elf| < TWO_64 then PhTableInFileMeans(h, |elf|); Ok(h) else Ok(h))
  }

  // ------------------------------------------------------ program headers

  /** Where entry j is sliced from: `(int)((long)PhOff + j * 56)`. */
  function PhdrStart(h: ES.Ehdr, j: nat): int {
    I32(I64(h.PhOff) + j * ES.PHDR_LENGTH)
  }

  /** Program header j, read from a slice of `PHEntSize` bytes. */
  function PhdrEntry(elf: seq<byte>, h: ES.Ehdr, j: nat): (r: Result<ES.Phdr, ConvertError>)
    ensures r.Ok? || r == Err(PhdrUnreadable)
    ensures r.Ok? <==> SliceOk(|elf|, PhdrStart(h, j), h.PHEntSize) && h.PHEntSize >= ES.PHDR_LENGTH
    ensures r.Ok? ==>
      var s := PhdrStart(h, j);
      0 <= s && s + ES.PHDR_LENGTH <= |elf| && Some(r.value) == ES.ReadPhdr(elf[s..])
  {
    var s := PhdrStart(h, j);
    if SliceOk(|elf|, s, h.PHEntSize) && h.PHEntSize >= ES.PHDR_LENGTH then
      var window := elf[s..s + h.PHEntSize];
      EH.PhdrReadersAgree(window);
      assert window[..ES.PHDR_LENGTH] == elf[s..][..ES.PHDR_LENGTH];
      EH.PhdrPrefixOnly(window, elf[s..]);
      EH.PhdrReadersAgree(elf[s..]);
      Ok(EH.ReadPhdr(window).value)
    else Err(PhdrUnreadable)
  }

  /** Inside a table that passed the check, the casts change nothing: entry
      j starts at `PhOff + 56 j`. */
  lemma PhdrStartInTable(elf: seq<byte>, h: ES.Ehdr, j: nat)
    requires |elf| < 0x8000_0000 && PhTableInFile(h, |elf|) && j < h.PHNum
    ensures PhdrStart(h, j) == h.PhOff + j * ES.PHDR_LENGTH
  {
    PhTableInFileMeans(h, |elf|);
  }

  /** The program-header table as the search loop sees it: entry k, read
      or failed. */
  type PhdrTable = nat -> Result<ES.Phdr, ConvertError>

  function PhdrTableOf(elf: seq<byte>, h: ES.Ehdr): PhdrTable {
    (k: nat) => PhdrEntry(elf, h, k)
  }

  /** Reading an entry fails only by `PhdrUnreadable`. */
  ghost predicate ReadErrorsOnly(table: PhdrTable) {
    forall k: nat :: table(k).Err? ==> table(k).error == PhdrUnreadable
  }

  lemma PhdrTableOfErrors(elf: seq<byte>, h: ES.Ehdr)
    ensures ReadErrorsOnly(PhdrTableOf(elf, h))
  {
  }

  /** Entry k was read and is not `PT_LOAD`. */
  predicate NonLoad(e: Result<ES.Phdr, ConvertError>) {
    e.Ok? && e.value.Type != PT_LOAD
  }

  /** The inner `while` loop over a table of n entries: advance j to just
      past the next `PT_LOAD` entry. It returns that entry and the new j. */
  function FindLoad(table: PhdrTable, n: nat, j: nat): (r: Result<(ES.Phdr, nat), ConvertError>)
    requires ReadErrorsOnly(table)
    decreases n - j
    ensures r.Ok? ==>
      && j < r.value.1 <= n
      && table(r.value.1 - 1) == Ok(r.value.0) && r.value.0.Type == PT_LOAD
      && forall k :: j <= k < r.value.1 - 1 ==> NonLoad(table(k))
    ensures r == Err(TooFewLoadSegments) <==>
      (forall k :: j <= k < n ==> NonLoad(table(k)))
    ensures r.Err? ==> r.error in {TooFewLoadSegments, PhdrUnreadable}
  {
    if j >= n then Err(TooFewLoadSegments)
    else
      match table(j)
      case Err(e) => Err(e)
      case Ok(p) => if p.Type == PT_LOAD then Ok((p, j + 1)) else FindLoad(table, n, j + 1)
  }

  // ------------------------------------------------------------- segments

  /** The raw bytes of a segment: `elf.Slice((int)Offset, (int)FileSize)`. */
  function SegmentData(elf: seq<byte>, p: ES.Phdr): (r: Result<seq<byte>, ConvertError>)
    ensures r.Ok? || r == Err(SegmentOutsideFile)
    ensures r.Ok? ==>
      && |r.value| % TWO_32 == p.FileSize % TWO_32
      && exists o :: 0 <= o && o % TWO_32 == p.Offset % TWO_32 && o + |r.value| <= |elf|
                     && r.value == elf[o..o + |r.value|]
  {
    var at := I32(p.Offset);
    var len := I32(p.FileSize);
    if SliceOk(|elf|, at, len) then
      SameResidue(at, p.Offset);
      SameResidue(len, p.FileSize);
      var r := elf[at..at + len];
      assert r == elf[at..at + |r|];
      Ok(r)
    else Err(SegmentOutsideFile)
  }

  lemma SameResidue(a: int, b: int)
    requires (a - b) % TWO_32 == 0
    ensures a % TWO_32 == b % TWO_32
  {
    var q := (a - b) / TWO_32;
    assert a == b + q * TWO_32;
  }

  /** A segment that lies inside an input of C#-array size is hashed and
      compressed from exactly its `FileSize` bytes at `Offset`. */
  lemma SegmentDataInFile(elf: seq<byte>, p: ES.Phdr)
    requires p.Offset + p.FileSize <= |elf| < 0x8000_0000
    ensures SegmentData(elf, p) == Ok(elf[p.Offset..p.Offset + p.FileSize])
  {
  }

  /** `(uint)(MemSize - FileSize)` with the subtraction wrapping at 2^64. */
  function BssSize(p: ES.Phdr): u32 {
    ((p.MemSize - p.FileSize) % TWO_64) % TWO_32
  }

  lemma BssSizeIsDifference(p: ES.Phdr)
    ensures BssSize(p) == (p.MemSize - p.FileSize) % TWO_32
    ensures p.FileSize <= p.MemSize < p.FileSize + TWO_32 ==> BssSize(p) == p.MemSize - p.FileSize
  {
    var d := p.MemSize - p.FileSize;
    var q := if d < 0 then -1 else 0;
    assert d % TWO_64 == d - q * TWO_64;
    assert (d - q * TWO_64) % TWO_32 == d % TWO_32 by {
      assert d - q * TWO_64 == d + (-q * 0x1_0000_0000) * TWO_32;
    }
  }

  /** One converted segment: the table index of its program header, the
      header itself, its NSO descriptor, digest and compressed form. */
  datatype Segment = Segment(
    Index: nat, Header: ES.Phdr, Descriptor: NsoSegment, Hash: Digest, Packed: Compressed)

  /** `fileOffset += (uint)compressedLength`. */
  function NextOffset(fileOffset: u32, c: Compressed): u32 {
    (fileOffset + c.Length % TWO_32) % TWO_32
  }

  /** What segment i must be, given its program header at table index
      `s.Index` and the running file offset. */
  predicate SegmentFrom(elf: seq<byte>, table: PhdrTable, compress: seq<byte> -> Compressed,
                        sha256: seq<byte> -> Digest, i: nat, fileOffset: u32, s: Segment)
  {
    && table(s.Index) == Ok(s.Header) && s.Header.Type == PT_LOAD
    && SegmentData(elf, s.Header).Ok?
    && s.Hash == sha256(SegmentData(elf, s.Header).value)
    && s.Packed == compress(SegmentData(elf, s.Header).value)
    && s.Descriptor.FileOffset == fileOffset
    && s.Descriptor.MemoryOffset == s.Header.VAddr % TWO_32
    && s.Descriptor.MemorySize == s.Header.FileSize % TWO_32
    && s.Descriptor.AlignOrTotalSz
         == (if i == 2 then (s.Header.MemSize - s.Header.FileSize) % TWO_32 else 1)
  }

  /** The segments' program headers are the `PT_LOAD` entries in table
      order from j on, with nothing but non-`PT_LOAD` entries between them. */
  predicate FirstLoads(table: PhdrTable, j: nat, segs: seq<Segment>)
    decreases |segs|
  {
    |segs| == 0 ||
    (&& j <= segs[0].Index
     && (forall k :: j <= k < segs[0].Index ==> NonLoad(table(k)))
     && FirstLoads(table, segs[0].Index + 1, segs[1..]))
  }

  /** The `for (i < 3)` loop from segment i on, with table cursor j and
      running file offset. */
  function ConvertSegments(elf: seq<byte>, table: PhdrTable, n: nat, compress: seq<byte> -> Compressed,
                           sha256: seq<byte> -> Digest, i: nat, j: nat, fileOffset: u32)
    : (r: Result<seq<Segment>, ConvertError>)
    requires i <= 3 && ReadErrorsOnly(table)
    decreases 3 - i
    ensures r.Ok? ==> |r.value| == 3 - i
    ensures r.Err? ==> r.error in {TooFewLoadSegments, PhdrUnreadable, SegmentOutsideFile}
  {
    if i == 3 then Ok([])
    else
      var found :- FindLoad(table, n, j);
      var p := found.0;
      var data :- SegmentData(elf, p);
      var packed := compress(data);
      var descriptor := NsoSegment(fileOffset, p.VAddr % TWO_32, p.FileSize % TWO_32,
                                   if i == 2 then BssSize(p) else 1);
      var seg := Segment(found.1 - 1, p, descriptor, sha256(data), packed);
      var rest :- ConvertSegments(elf, table, n, compress, sha256, i + 1, found.1, NextOffset(fileOffset, packed));
      Ok([seg] + rest)
  }

  /** Each converted segment is what its program header makes it. */
  lemma {:induction false} SegmentsFromHeaders(
    elf: seq<byte>, table: PhdrTable, n: nat, compress: seq<byte> -> Compressed,
    sha256: seq<byte> -> Digest, i: nat, j: nat, fileOffset: u32)
    requires i <= 3 && ReadErrorsOnly(table)
    requires ConvertSegments(elf, table, n, compress, sha256, i, j, fileOffset).Ok?
    decreases 3 - i
    ensures var segs := ConvertSegments(elf, table, n, compress, sha256, i, j, fileOffset).value;
      forall k :: 0 <= k < |segs| ==>
        SegmentFrom(elf, table, compress, sha256, i + k, segs[k].Descriptor.FileOffset, segs[k])
  {
    if i < 3 {
      var found := FindLoad(table, n, j).value;
      var next := NextOffset(fileOffset, compress(SegmentData(elf, found.0).value));
      SegmentsFromHeaders(elf, table, n, compress, sha256, i + 1, found.1, next);
      var segs := ConvertSegments(elf, table, n, compress, sha256, i, j, fileOffset).value;
      var rest := ConvertSegments(elf, table, n, compress, sha256, i + 1, found.1, next).value;
      HeadSegment(elf, table, n, compress, sha256, i, j, fileOffset);
      ConsSegments(elf, table, compress, sha256, i, segs[0], rest);
    }
  }

  /** One step of the loop: the first segment is built from the next
      `PT_LOAD` header, and the loop carries on after it. */
  lemma HeadSegment(elf: seq<byte>, table: PhdrTable, n: nat, compress: seq<byte> -> Compressed,
                    sha256: seq<byte> -> Digest, i: nat, j: nat, fileOffset: u32)
    requires i < 3 && ReadErrorsOnly(table)
    requires ConvertSegments(elf, table, n, compress, sha256, i, j, fileOffset).Ok?
    ensures
      var segs := ConvertSegments(elf, table, n, compress, sha256, i, j, fileOffset).value;
      var found := FindLoad(table, n, j).value;
      var next := NextOffset(fileOffset, compress(SegmentData(elf, found.0).value));
      && FindLoad(table, n, j).Ok?
      && SegmentData(elf, found.0).Ok?
      && ConvertSegments(elf, table, n, compress, sha256, i + 1, found.1, next).Ok?
      && SegmentFrom(elf, table, compress, sha256, i, fileOffset, segs[0])
      && segs == [segs[0]] + ConvertSegments(elf, table, n, compress, sha256, i + 1, found.1, next).value
  {
    var r := FindLoad(table, n, j);
    assert r.Ok?;
    var found := r.value;
    var data := SegmentData(elf, found.0);
    assert data.Ok?;
    var rest := ConvertSegments(elf, table, n, compress, sha256, i + 1, found.1, NextOffset(fileOffset, compress(data.value)));
    assert rest.Ok?;
    BssSizeIsDifference(found.0);
  }

  lemma ConsSegments(elf: seq<byte>, table: PhdrTable, compress: seq<byte> -> Compressed,
                     sha256: seq<byte> -> Digest, i: nat, seg: Segment, rest: seq<Segment>)
    requires SegmentFrom(elf, table, compress, sha256, i, seg.Descriptor.FileOffset, seg)
    requires forall k :: 0 <= k < |rest| ==>
      SegmentFrom(elf, table, compress, sha256, i + 1 + k, rest[k].Descriptor.FileOffset, rest[k])
    ensures forall k :: 0 <= k < |[seg] + rest| ==>
      SegmentFrom(elf, table, compress, sha256, i + k, ([seg] + rest)[k].Descriptor.FileOffset, ([seg] + rest)[k])
  {
    forall k | 0 <= k < |[seg] + rest|
      ensures SegmentFrom(elf, table, compress, sha256, i + k, ([seg] + rest)[k].Descriptor.FileOffset, ([seg] + rest)[k])
    {
      if k > 0 {
        assert ([seg] + rest)[k] == rest[k - 1];
      }
    }
  }

  /** The first segment sits at the starting file offset and each next one
      where the previous compressed segment ends, modulo 2^32. */
  lemma {:induction false} SegmentOffsetsChain(
    elf: seq<byte>, table: PhdrTable, n: nat, compress: seq<byte> -> Compressed,
    sha256: seq<byte> -> Digest, i: nat, j: nat, fileOffset: u32)
    requires i <= 3 && ReadErrorsOnly(table)
    requires ConvertSegments(elf, table, n, compress, sha256, i, j, fileOffset).Ok?
    decreases 3 - i
    ensures var segs := ConvertSegments(elf, table, n, compress, sha256, i, j, fileOffset).value;
      && (i < 3 ==> segs[0].Descriptor.FileOffset == fileOffset)
      && forall k :: 0 <= k < |segs| - 1 ==>
           segs[k + 1].Descriptor.FileOffset == NextOffset(segs[k].Descriptor.FileOffset, segs[k].Packed)
  {
    if i < 3 {
      var found := FindLoad(table, n, j).value;
      var data := SegmentData(elf, found.0).value;
      var next := NextOffset(fileOffset, compress(data));
      SegmentOffsetsChain(elf, table, n, compress, sha256, i + 1, found.1, next);
      var segs := ConvertSegments(elf, table, n, compress, sha256, i, j, fileOffset).value;
      var rest := ConvertSegments(elf, table, n, compress, sha256, i + 1, found.1, next).value;
      assert segs == [segs[0]] + rest;
      forall k | 0 <= k < |segs| - 1
        ensures segs[k + 1].Descriptor.FileOffset == NextOffset(segs[k].Descriptor.FileOffset, segs[k].Packed)
      {
        if k > 0 {
          assert segs[k] == rest[k - 1] && segs[k + 1] == rest[k];
        }
      }
    }
  }

  /** The segments come from the first `PT_LOAD` entries at or after j. */
  lemma {:induction false} SegmentsAreFirstLoads(
    elf: seq<byte>, table: PhdrTable, n: nat, compress: seq<byte> -> Compressed,
    sha256: seq<byte> -> Digest, i: nat, j: nat, fileOffset: u32)
    requires i <= 3 && ReadErrorsOnly(table)
    requires ConvertSegments(elf, table, n, compress, sha256, i, j, fileOffset).Ok?
    decreases 3 - i
    ensures FirstLoads(table, j, ConvertSegments(elf, table, n, compress, sha256, i, j, fileOffset).value)
  {
    if i < 3 {
      var found := FindLoad(table, n, j).value;
      var data := SegmentData(elf, found.0).value;
      var next := NextOffset(fileOffset, compress(data));
      SegmentsAreFirstLoads(elf, table, n, compress, sha256, i + 1, found.1, next);
      var segs := ConvertSegments(elf, table, n, compress, sha256, i, j, fileOffset).value;
      assert segs[1..] == ConvertSegments(elf, table, n, compress, sha256, i + 1, found.1, next).value;
    }
  }

  /** With three segments, the `PT_LOAD` entries among the first
      `segs[2].Index + 1` table entries are exactly the three chosen ones,
      and every entry up to there was read. */
  lemma FirstThreeLoads(table: PhdrTable, segs: seq<Segment>)
    requires |segs| == 3 && FirstLoads(table, 0, segs)
    requires forall k :: 0 <= k < 3 ==> table(segs[k].Index) == Ok(segs[k].Header) && segs[k].Header.Type == PT_LOAD
    ensures segs[0].Index < segs[1].Index < segs[2].Index
    ensures forall m :: 0 <= m <= segs[2].Index ==>
      table(m).Ok? && (table(m).value.Type == PT_LOAD <==> m in {segs[0].Index, segs[1].Index, segs[2].Index})
  {
    var rest := segs[1..];
    assert rest[0] == segs[1] && rest[1..][0] == segs[2];
    assert FirstLoads(table, segs[0].Index + 1, rest);
    assert FirstLoads(table, segs[1].Index + 1, rest[1..]);
  }

  // ------------------------------------------------------------- build id

  /** `currentSectionHeaderOffset` after i iterations of the section loop. */
  function ShdrCursor(h: ES.Ehdr, i: nat): u64 {
    (h.ShOff + i * h.SHEntSize) % TWO_64
  }

  /** The closed form is what `currentSectionHeaderOffset += SHEntSize`
      computes, starting from ShOff. */
  lemma ShdrCursorStep(h: ES.Ehdr, i: nat)
    ensures ShdrCursor(h, 0) == h.ShOff
    ensures ShdrCursor(h, i + 1) == (ShdrCursor(h, i) + h.SHEntSize) % TWO_64
  {
    AddMod(h.ShOff + i * h.SHEntSize, h.SHEntSize, TWO_64);
  }

  /** Section header i, read from a slice of `SHEntSize` bytes at
      `(int)currentSectionHeaderOffset`. */
  function ShdrEntry(elf: seq<byte>, h: ES.Ehdr, i: nat): (r: Result<ES.Shdr, ConvertError>)
    ensures r.Ok? || r == Err(ShdrUnreadable)
    ensures r.Ok? <==> SliceOk(|elf|, I32(ShdrCursor(h, i)), h.SHEntSize) && h.SHEntSize >= ES.SHDR_LENGTH
    ensures r.Ok? ==>
      var s := I32(ShdrCursor(h, i));
      0 <= s && s + ES.SHDR_LENGTH <= |elf| && Some(r.value) == ES.ReadShdr(elf[s..])
  {
    var s := I32(ShdrCursor(h, i));
    if SliceOk(|elf|, s, h.SHEntSize) && h.SHEntSize >= ES.SHDR_LENGTH then
      var window := elf[s..s + h.SHEntSize];
      EH.ShdrReadersAgree(window);
      assert window[..ES.SHDR_LENGTH] == elf[s..][..ES.SHDR_LENGTH];
      EH.ShdrPrefixOnly(window, elf[s..]);
      EH.ShdrReadersAgree(elf[s..]);
      Ok(EH.ReadShdr(window).value)
    else Err(ShdrUnreadable)
  }

  /** A note as the converter sees it: its type, its name and its
      descriptor, each of the length its header gives. */
  datatype Note = Note(Type: u32, Name: seq<byte>, Descriptor: seq<byte>)

  /** The note a `SHT_NOTE` section points at: a 12-byte header at
      `(int)Offset`, the name right after it and the descriptor right after
      the name, each sliced with `int` arithmetic; then the first four
      bytes of the name are taken. */
  function ReadNote(elf: seq<byte>, s: ES.Shdr): (r: Result<Note, ConvertError>)
    ensures r.Err? ==> r.error in {NoteOutsideFile, NoteNameTooShort}
    ensures r.Ok? ==>
      var at := I32(s.Offset);
      && 0 <= at && at + ES.NHDR_LENGTH <= |elf|
      && r.value.Type == ReadU32(elf, at + 8)
      && |r.value.Name| == ReadU32(elf, at) >= 4
      && |r.value.Descriptor| == ReadU32(elf, at + 4)
  {
    var at := I32(s.Offset);
    if !SliceOk(|elf|, at, ES.NHDR_LENGTH) then Err(NoteOutsideFile)
    else
      var n := NoteHeaderAt(elf, at);
      var nameAt := I32(at + ES.NHDR_LENGTH);
      var nameLen := I32(n.NameSize);
      var descAt := I32(nameAt + nameLen);
      var descLen := I32(n.DescriptorSize);
      if !SliceOk(|elf|, nameAt, nameLen) || !SliceOk(|elf|, descAt, descLen) then Err(NoteOutsideFile)
      else if nameLen < 4 then Err(NoteNameTooShort)
      else
        I32Unsigned(n.NameSize);
        I32Unsigned(n.DescriptorSize);
        Ok(Note(n.Type, elf[nameAt..nameAt + nameLen], elf[descAt..descAt + descLen]))
  }

  /** `new Elf64Nhdr(elf.Slice(at, 12))`. */
  function NoteHeaderAt(elf: seq<byte>, at: nat): (n: ES.Nhdr)
    requires at + ES.NHDR_LENGTH <= |elf|
    ensures n.NameSize == ReadU32(elf, at) && n.DescriptorSize == ReadU32(elf, at + 4)
    ensures n.Type == ReadU32(elf, at + 8)
  {
    WindowU32(elf, at, ES.NHDR_LENGTH, 0);
    WindowU32(elf, at, ES.NHDR_LENGTH, 4);
    WindowU32(elf, at, ES.NHDR_LENGTH, 8);
    ES.ReadNhdr(elf[at..at + ES.NHDR_LENGTH]).value
  }

  /** In an input of C#-array size, a note whose name and descriptor fit
      is laid out as the System V gABI describes: header, name, descriptor. */
  lemma ReadNoteInFile(elf: seq<byte>, s: ES.Shdr)
    requires s.Offset + ES.NHDR_LENGTH <= |elf| < 0x8000_0000
    requires 4 <= ReadU32(elf, s.Offset)
    requires s.Offset + ES.NHDR_LENGTH + ReadU32(elf, s.Offset) + ReadU32(elf, s.Offset + 4) <= |elf|
    ensures
      var name := s.Offset + ES.NHDR_LENGTH;
      var desc := name + ReadU32(elf, s.Offset);
      ReadNote(elf, s) == Ok(Note(ReadU32(elf, s.Offset + 8), elf[name..desc],
                                  elf[desc..desc + ReadU32(elf, s.Offset + 4)]))
  {
    var at := s.Offset;
    var n := NoteHeaderAt(elf, at);
    I32Small(at);
    I32Small(at + ES.NHDR_LENGTH);
    I32Small(n.NameSize);
    I32Small(n.DescriptorSize);
    I32Small(at + ES.NHDR_LENGTH + n.NameSize);
  }

  lemma WindowU32(elf: seq<byte>, at: nat, len: nat, o: nat)
    requires at + len <= |elf| && o + 4 <= len
    ensures ReadU32(elf[at..at + len], o) == ReadU32(elf, at + o)
  {
    var w := elf[at..at + len];
    assert w[o] == elf[at + o] && w[o + 1] == elf[at + o + 1];
    assert w[o + 2] == elf[at + o + 2] && w[o + 3] == elf[at + o + 3];
    assert w[o..o + 4] == elf[at + o..at + o + 4];
  }

  /** The ASCII bytes of "GNU\0". Any byte above 0x7f decodes to '?', which
      is not in that string, so comparing the decoded name with "GNU\0" is
      comparing bytes. */
  const GNU_NAME: seq<byte> := [0x47, 0x4e, 0x55, 0]

  /** The build-id bytes a note contributes: the first
      min(DescriptorSize, 0x20) descriptor bytes of a `NT_GNU_BUILD_ID`
      note named "GNU\0"; none for any other note. */
  function BuildIdOf(n: Note): (r: Option<seq<byte>>)
    ensures r.Some? <==> n.Type == NT_GNU_BUILD_ID && n.Name == GNU_NAME
    ensures r.Some? ==> |r.value| <= 0x20 && |r.value| <= |n.Descriptor| && r.value == n.Descriptor[..|r.value|]
    ensures r.Some? && |n.Descriptor| <= 0x20 ==> r.value == n.Descriptor
    ensures r.Some? && |n.Descriptor| > 0x20 ==> |r.value| == 0x20
  {
    if n.Type == NT_GNU_BUILD_ID && |n.Name| == 4 && n.Name[..4] == GNU_NAME then
      var size := if |n.Descriptor| > 0x20 then 0x20 else |n.Descriptor|;
      Some(n.Descriptor[..size])
    else None
  }

  /** `Span.CopyTo`: `src` over the front of `dst`, the rest kept. */
  function CopyToFront(src: seq<byte>, dst: seq<byte>): (r: seq<byte>)
    requires |src| <= |dst|
    ensures |r| == |dst| && r[..|src|] == src && r[|src|..] == dst[|src|..]
  {
    src + dst[|src|..]
  }

  /** Section i as the build-id loop sees it: not a note, a note, or a
      failure to read either. */
  function SectionNote(elf: seq<byte>, h: ES.Ehdr, i: nat): (r: Result<Option<Note>, ConvertError>)
    ensures r.Err? ==> r.error in {ShdrUnreadable, NoteOutsideFile, NoteNameTooShort}
  {
    var s :- ShdrEntry(elf, h, i);
    if s.Type != SHT_NOTE then Ok(None)
    else
      var n :- ReadNote(elf, s);
      Ok(Some(n))
  }

  /** The section table as the build-id loop sees it. */
  type NoteTable = nat -> Result<Option<Note>, ConvertError>

  function NoteTableOf(elf: seq<byte>, h: ES.Ehdr): NoteTable {
    (i: nat) => SectionNote(elf, h, i)
  }

  /** The build-id bytes section entry e contributes, if any. */
  function Contribution(e: Result<Option<Note>, ConvertError>): Option<seq<byte>> {
    if e.Ok? && e.value.Some? then BuildIdOf(e.value.value) else None
  }

  /** One pass of the section loop. */
  function ApplySection(e: Option<Note>, buildId: seq<byte>): (r: seq<byte>)
    requires |buildId| == 0x20
    ensures |r| == 0x20
  {
    var c := if e.Some? then BuildIdOf(e.value) else None;
    if c.Some? then CopyToFront(c.value, buildId) else buildId
  }

  /** The `for (i < SHNum)` section loop from section i on. */
  function ScanBuildId(notes: NoteTable, n: nat, i: nat, buildId: seq<byte>): (r: Result<seq<byte>, ConvertError>)
    requires |buildId| == 0x20
    decreases n - i
    ensures r.Ok? ==> |r.value| == 0x20
    ensures r.Ok? ==> forall k :: i <= k < n ==> notes(k).Ok?
    ensures r.Err? ==> exists k :: i <= k < n && notes(k) == Err(r.error)
  {
    if i >= n then Ok(buildId)
    else
      var e :- notes(i);
      ScanBuildId(notes, n, i + 1, ApplySection(e, buildId))
  }

  /** The longest build id any section from i on contributes. */
  function CopiedBound(notes: NoteTable, n: nat, i: nat): (r: nat)
    decreases n - i
    ensures r <= 0x20
  {
    if i >= n then 0
    else
      var here := if Contribution(notes(i)).Some? then |Contribution(notes(i)).value| else 0;
      var later := CopiedBound(notes, n, i + 1);
      if here > later then here else later
  }

  /** Bytes that no build-id note reaches keep their value from before the
      loop (zero, for the converter's fresh header). */
  lemma {:induction false} ScanKeepsTail(notes: NoteTable, n: nat, i: nat, buildId: seq<byte>)
    requires |buildId| == 0x20 && ScanBuildId(notes, n, i, buildId).Ok?
    decreases n - i
    ensures forall m :: CopiedBound(notes, n, i) <= m < 0x20 ==>
      ScanBuildId(notes, n, i, buildId).value[m] == buildId[m]
  {
    if i < n {
      var e := notes(i).value;
      var next := ApplySection(e, buildId);
      ScanKeepsTail(notes, n, i + 1, next);
      forall m | CopiedBound(notes, n, i) <= m < 0x20
        ensures next[m] == buildId[m]
      {
        var c := if e.Some? then BuildIdOf(e.value) else None;
        if c.Some? {
          assert Contribution(notes(i)) == c;
          assert next[|c.value|..] == buildId[|c.value|..];
          assert next[m] == next[|c.value|..][m - |c.value|];
        }
      }
    }
  }

  /** Section k contributes nothing. */
  predicate Silent(notes: NoteTable, k: nat) {
    notes(k).Ok? && Contribution(notes(k)).None?
  }

  /** The last build-id note wins: its bytes are at the front of the result. */
  lemma {:induction false} ScanLastNoteWins(notes: NoteTable, n: nat, i: nat, buildId: seq<byte>, k: nat)
    requires |buildId| == 0x20 && ScanBuildId(notes, n, i, buildId).Ok?
    requires i <= k < n && Contribution(notes(k)).Some?
    requires forall m :: k < m < n ==> Silent(notes, m)
    decreases n - i
    ensures var id := Contribution(notes(k)).value;
      ScanBuildId(notes, n, i, buildId).value[..|id|] == id
  {
    var e := notes(i).value;
    var next := ApplySection(e, buildId);
    if i < k {
      ScanLastNoteWins(notes, n, i + 1, next, k);
    } else {
      var id := Contribution(notes(k)).value;
      assert next[..|id|] == id;
      ScanSilent(notes, n, i + 1, next);
    }
  }

  /** Sections that contribute nothing leave the build id as it is. */
  lemma {:induction false} ScanSilent(notes: NoteTable, n: nat, i: nat, buildId: seq<byte>)
    requires |buildId| == 0x20
    requires forall m :: i <= m < n ==> Silent(notes, m)
    decreases n - i
    ensures ScanBuildId(notes, n, i, buildId) == Ok(buildId)
  {
    if i < n {
      assert Silent(notes, i);
      ScanSilent(notes, n, i + 1, buildId);
    }
  }

  // --------------------------------------------------------------- output

  /** `Enumerable.Take(count)`: the first `count` elements, all of them when
      there are fewer, none for a count of zero or less. */
  function Take(buf: seq<byte>, count: int): (r: seq<byte>)
    ensures |r| == (if count <= 0 then 0 else if count < |buf| then count else |buf|)
    ensures r == buf[..|r|]
  {
    if count <= 0 then [] else if count < |buf| then buf[..count] else buf
  }

  predicate InInt(x: int) {
    -0x8000_0000 <= x < 0x8000_0000
  }

  /** The exact sum of the first k values. */
  function IntSum(xs: seq<int>, k: nat): int
    requires k <= |xs|
  {
    if k == 0 then 0 else IntSum(xs, k - 1) + xs[k - 1]
  }

  /** `Enumerable.Sum` over `int`: a running total that throws as soon as
      it leaves the `int` range. */
  function CheckedSum(xs: seq<int>, k: nat): (r: Option<int>)
    requires k <= |xs|
    ensures r.Some? ==> r.value == IntSum(xs, k)
  {
    if k == 0 then Some(0)
    else
      var prev := CheckedSum(xs, k - 1);
      if prev.None? then None
      else
        var a := prev.value + xs[k - 1];
        if InInt(a) then Some(a) else None
  }

  /** No running total of the first k values leaves the `int` range. */
  predicate TotalsInInt(xs: seq<int>, k: nat)
    requires k <= |xs|
  {
    forall m :: 1 <= m <= k ==> InInt(IntSum(xs, m))
  }

  lemma TotalsInIntStep(xs: seq<int>, k: nat)
    requires 0 < k <= |xs|
    ensures TotalsInInt(xs, k) <==> TotalsInInt(xs, k - 1) && InInt(IntSum(xs, k))
  {
    if TotalsInInt(xs, k - 1) && InInt(IntSum(xs, k)) {
      forall m | 1 <= m <= k ensures InInt(IntSum(xs, m)) {
        if m < k {
          assert 1 <= m <= k - 1;
        }
      }
    }
  }

  /** The checked sum succeeds exactly when no running total leaves the
      `int` range. */
  lemma {:induction false} CheckedSumOverflow(xs: seq<int>, k: nat)
    requires k <= |xs|
    ensures CheckedSum(xs, k).Some? <==> TotalsInInt(xs, k)
  {
    if k > 0 {
      CheckedSumOverflow(xs, k - 1);
      TotalsInIntStep(xs, k);
      if CheckedSum(xs, k - 1).Some? {
        assert IntSum(xs, k) == CheckedSum(xs, k - 1).value + xs[k - 1];
      }
    }
  }

  /** `new List<byte>(headerData.Length + SegmentFileSIzes.Cast<int>().Sum())`:
      the sizes are reinterpreted as `int`, summed with overflow checking,
      added to 0x100 without it, and a negative capacity throws. */
  function Capacity(sizes: seq<u32>): (r: Result<int, ConvertError>)
    requires |sizes| == 3
    ensures r.Ok? ==> r.value >= 0
    ensures r.Err? ==> r.error == CapacityOverflow
  {
    match CheckedSum([I32(sizes[0]), I32(sizes[1]), I32(sizes[2])], 3)
    case None => Err(CapacityOverflow)
    case Some(total) =>
      var cap := I32(NSO_HEADER_LENGTH + total);
      if cap < 0 then Err(CapacityOverflow) else Ok(cap)
  }

  /** When the sizes and the whole output fit in an `int`, the capacity is
      just the output length. */
  lemma CapacityFits(sizes: seq<u32>)
    requires |sizes| == 3
    requires NSO_HEADER_LENGTH + sizes[0] + sizes[1] + sizes[2] < 0x8000_0000
    ensures Capacity(sizes) == Ok(NSO_HEADER_LENGTH + sizes[0] + sizes[1] + sizes[2])
  {
    I32Small(sizes[0]);
    I32Small(sizes[1]);
    I32Small(sizes[2]);
    var xs := [I32(sizes[0]), I32(sizes[1]), I32(sizes[2])];
    assert CheckedSum(xs, 1) == Some(sizes[0]);
    assert CheckedSum(xs, 2) == Some(sizes[0] + sizes[1]);
    assert CheckedSum(xs, 3) == Some(sizes[0] + sizes[1] + sizes[2]);
    I32Small(NSO_HEADER_LENGTH + sizes[0] + sizes[1] + sizes[2]);
  }

  /** The NSO header the converter fills in: the default header with the
      three descriptors, the build id, the reported sizes and the digests. */
  function BuildHeader(segs: seq<Segment>, buildId: seq<byte>): (h: NsoHeader)
    requires |segs| == 3 && |buildId| == 0x20
    ensures WellSized(h)
  {
    DefaultNsoHeader().(
      Segments := [segs[0].Descriptor, segs[1].Descriptor, segs[2].Descriptor],
      BuildId := buildId,
      SegmentFileSizes := [segs[0].Packed.Length % TWO_32, segs[1].Packed.Length % TWO_32,
                           segs[2].Packed.Length % TWO_32],
      Hashes := [segs[0].Hash, segs[1].Hash, segs[2].Hash])
  }

  /** Each compressed buffer cut to `(int)SegmentFileSIzes[i]`. */
  function Payload(segs: seq<Segment>, sizes: seq<u32>): seq<byte>
    requires |segs| == 3 && |sizes| == 3
  {
    Take(segs[0].Packed.Buffer, I32(sizes[0])) + Take(segs[1].Packed.Buffer, I32(sizes[1]))
      + Take(segs[2].Packed.Buffer, I32(sizes[2]))
  }

  /** The three segments, from the program-header table. */
  function LoadSegments(elf: seq<byte>, h: ES.Ehdr, compress: seq<byte> -> Compressed,
                        sha256: seq<byte> -> Digest): (r: Result<seq<Segment>, ConvertError>)
    ensures r.Ok? ==> |r.value| == 3
  {
    PhdrTableOfErrors(elf, h);
    ConvertSegments(elf, PhdrTableOf(elf, h), h.PHNum, compress, sha256, 0, 0, NSO_HEADER_LENGTH)
  }

  /** The build id, from the section-header table. */
  function ElfBuildId(elf: seq<byte>, h: ES.Ehdr): (r: Result<seq<byte>, ConvertError>)
    ensures r.Ok? ==> |r.value| == 0x20
  {
    ScanBuildId(NoteTableOf(elf, h), h.SHNum, 0, Zeros(0x20))
  }

  /** The last steps: the header bytes, the capacity check and the
      three cut buffers. */
  function Assemble(segs: seq<Segment>, buildId: seq<byte>): (r: Result<seq<byte>, ConvertError>)
    requires |segs| == 3 && |buildId| == 0x20
    ensures r.Err? ==> r.error == CapacityOverflow
    ensures r.Ok? ==>
      var header := BuildHeader(segs, buildId);
      r.value == NsoHeaderToBytes(header) + Payload(segs, header.SegmentFileSizes)
  {
    var header := BuildHeader(segs, buildId);
    var capacity :- Capacity(header.SegmentFileSizes);
    Ok(NsoHeaderToBytes(header) + Payload(segs, header.SegmentFileSizes))
  }

  /** `ConvertElfToNso`. */
  function ConvertElfToNso(elf: seq<byte>, compress: seq<byte> -> Compressed,
                           sha256: seq<byte> -> Digest): (r: Result<seq<byte>, ConvertError>)
    ensures CheckHeader(elf).Err? ==> r == Err(CheckHeader(elf).error)
    ensures r.Ok? ==>
      && CheckHeader(elf).Ok?
      && LoadSegments(elf, CheckHeader(elf).value, compress, sha256).Ok?
      && ElfBuildId(elf, CheckHeader(elf).value).Ok?
      && r == Assemble(LoadSegments(elf, CheckHeader(elf).value, compress, sha256).value,
                       ElfBuildId(elf, CheckHeader(elf).value).value)
  {
    var h :- CheckHeader(elf);
    var segs :- LoadSegments(elf, h, compress, sha256);
    var buildId :- ElfBuildId(elf, h);
    Assemble(segs, buildId)
  }

  /** The three segments come from the first three `PT_LOAD` entries of
      the program-header table, in table order. */
  lemma LoadedSegmentsAreFirstLoads(elf: seq<byte>, h: ES.Ehdr, compress: seq<byte> -> Compressed,
                                    sha256: seq<byte> -> Digest)
    requires LoadSegments(elf, h, compress, sha256).Ok?
    ensures
      var segs := LoadSegments(elf, h, compress, sha256).value;
      && segs[0].Index < segs[1].Index < segs[2].Index
      && forall m :: 0 <= m <= segs[2].Index ==>
           var e := PhdrTableOf(elf, h)(m);
           e.Ok? && (e.value.Type == PT_LOAD <==> m in {segs[0].Index, segs[1].Index, segs[2].Index})
  {
    var table := PhdrTableOf(elf, h);
    PhdrTableOfErrors(elf, h);
    var segs := ConvertSegments(elf, table, h.PHNum, compress, sha256, 0, 0, NSO_HEADER_LENGTH).value;
    SegmentsFromHeaders(elf, table, h.PHNum, compress, sha256, 0, 0, NSO_HEADER_LENGTH);
    SegmentsAreFirstLoads(elf, table, h.PHNum, compress, sha256, 0, 0, NSO_HEADER_LENGTH);
    assert forall k :: 0 <= k < 3 ==>
      SegmentFrom(elf, table, compress, sha256, k, segs[k].Descriptor.FileOffset, segs[k]);
    FirstThreeLoads(table, segs);
  }

  /** Segment i is described, hashed and compressed from its own program
      header, and sits at 0x100 plus the sizes reported for the segments
      before it, modulo 2^32. */
  lemma LoadedSegmentsContents(elf: seq<byte>, h: ES.Ehdr, compress: seq<byte> -> Compressed,
                               sha256: seq<byte> -> Digest)
    requires LoadSegments(elf, h, compress, sha256).Ok?
    ensures
      var segs := LoadSegments(elf, h, compress, sha256).value;
      forall k :: 0 <= k < 3 ==>
        SegmentFrom(elf, PhdrTableOf(elf, h), compress, sha256, k, segs[k].Descriptor.FileOffset, segs[k])
  {
    PhdrTableOfErrors(elf, h);
    SegmentsFromHeaders(elf, PhdrTableOf(elf, h), h.PHNum, compress, sha256, 0, 0, NSO_HEADER_LENGTH);
  }

  /** The compressed segments are laid out back to back after the 0x100-byte
      header, with 32-bit wrap-around of the running offset. */
  lemma LoadedSegmentOffsets(elf: seq<byte>, h: ES.Ehdr, compress: seq<byte> -> Compressed,
                             sha256: seq<byte> -> Digest)
    requires LoadSegments(elf, h, compress, sha256).Ok?
    ensures
      var segs := LoadSegments(elf, h, compress, sha256).value;
      && segs[0].Descriptor.FileOffset == NSO_HEADER_LENGTH
      && segs[1].Descriptor.FileOffset == NextOffset(NSO_HEADER_LENGTH, segs[0].Packed)
      && segs[2].Descriptor.FileOffset == NextOffset(NextOffset(NSO_HEADER_LENGTH, segs[0].Packed), segs[1].Packed)
  {
    PhdrTableOfErrors(elf, h);
    var segs := LoadSegments(elf, h, compress, sha256).value;
    ChainedOffsets(elf, PhdrTableOf(elf, h), h.PHNum, compress, sha256, segs);
  }

  /** The offset chain from `NSO_HEADER_LENGTH`, for the three segments of
      one conversion. */
  lemma ChainedOffsets(elf: seq<byte>, table: PhdrTable, n: nat, compress: seq<byte> -> Compressed,
                       sha256: seq<byte> -> Digest, segs: seq<Segment>)
    requires ReadErrorsOnly(table)
    requires ConvertSegments(elf, table, n, compress, sha256, 0, 0, NSO_HEADER_LENGTH) == Ok(segs)
    ensures |segs| == 3
    ensures segs[0].Descriptor.FileOffset == NSO_HEADER_LENGTH
    ensures segs[1].Descriptor.FileOffset == NextOffset(NSO_HEADER_LENGTH, segs[0].Packed)
    ensures segs[2].Descriptor.FileOffset == NextOffset(NextOffset(NSO_HEADER_LENGTH, segs[0].Packed), segs[1].Packed)
  {
    SegmentOffsetsChain(elf, table, n, compress, sha256, 0, 0, NSO_HEADER_LENGTH);
  }

  lemma OffsetsAdd(c0: Compressed, c1: Compressed)
    ensures NextOffset(NSO_HEADER_LENGTH, c0) == (NSO_HEADER_LENGTH + c0.Length % TWO_32) % TWO_32
    ensures NextOffset(NextOffset(NSO_HEADER_LENGTH, c0), c1)
              == (NSO_HEADER_LENGTH + c0.Length % TWO_32 + c1.Length % TWO_32) % TWO_32
  {
    AddMod(NSO_HEADER_LENGTH + c0.Length % TWO_32, c1.Length % TWO_32, TWO_32);
  }

  /** Reading the first 0x100 output bytes back as an NSO header gives the
      header the converter built: magic "NSO0", the descriptors, digests,
      reported sizes and build id. */
  lemma AssembledHeaderReadBack(segs: seq<Segment>, buildId: seq<byte>)
    requires |segs| == 3 && |buildId| == 0x20 && Assemble(segs, buildId).Ok?
    ensures ReadNsoHeader(Assemble(segs, buildId).value) == Some(BuildHeader(segs, buildId))
    ensures
      var nh := BuildHeader(segs, buildId);
      && nh.Magic == NSO_MAGIC && nh.Unk3 == 0x3f && nh.BuildId == buildId
      && forall k :: 0 <= k < 3 ==>
           && nh.Segments[k] == segs[k].Descriptor && nh.Hashes[k] == segs[k].Hash
           && nh.SegmentFileSizes[k] == segs[k].Packed.Length % TWO_32
  {
    var nh := BuildHeader(segs, buildId);
    NsoHeaderReadBackPrefix(nh, Payload(segs, nh.SegmentFileSizes));
  }

  /** The compressor reports a length within its buffer and below 2^31. */
  predicate HonestPacking(c: Compressed) {
    0 <= c.Length <= |c.Buffer| && c.Length < 0x8000_0000
  }

  /** With honest lengths, each buffer is cut to exactly its reported
      length. */
  lemma PayloadLayout(segs: seq<Segment>, sizes: seq<u32>)
    requires |segs| == 3 && |sizes| == 3
    requires HonestPacking(segs[0].Packed) && HonestPacking(segs[1].Packed) && HonestPacking(segs[2].Packed)
    requires forall k :: 0 <= k < 3 ==> sizes[k] == segs[k].Packed.Length % TWO_32
    ensures Payload(segs, sizes) == segs[0].Packed.Buffer[..segs[0].Packed.Length]
                                   + segs[1].Packed.Buffer[..segs[1].Packed.Length]
                                   + segs[2].Packed.Buffer[..segs[2].Packed.Length]
  {
    I32Small(segs[0].Packed.Length);
    I32Small(segs[1].Packed.Length);
    I32Small(segs[2].Packed.Length);
  }

  /** With honest lengths, the output is the header followed by each
      segment's reported bytes, so its length is 0x100 plus the three
      reported sizes. */
  lemma AssembledLayout(segs: seq<Segment>, buildId: seq<byte>)
    requires |segs| == 3 && |buildId| == 0x20 && Assemble(segs, buildId).Ok?
    requires HonestPacking(segs[0].Packed) && HonestPacking(segs[1].Packed) && HonestPacking(segs[2].Packed)
    ensures
      var out := Assemble(segs, buildId).value;
      var l0, l1, l2 := segs[0].Packed.Length, segs[1].Packed.Length, segs[2].Packed.Length;
      && |out| == NSO_HEADER_LENGTH + l0 + l1 + l2
      && out[..NSO_HEADER_LENGTH] == NsoHeaderToBytes(BuildHeader(segs, buildId))
      && out[NSO_HEADER_LENGTH..] == segs[0].Packed.Buffer[..l0] + segs[1].Packed.Buffer[..l1]
                                     + segs[2].Packed.Buffer[..l2]
  {
    var header := BuildHeader(segs, buildId);
    PayloadLayout(segs, header.SegmentFileSizes);
    var hb := NsoHeaderToBytes(header);
    var out := Assemble(segs, buildId).value;
    assert out[..NSO_HEADER_LENGTH] == hb;
    assert out[NSO_HEADER_LENGTH..] == Payload(segs, header.SegmentFileSizes);
  }
}

=== FILE: layout.dfy ===
/** Fixed little-endian record layouts. A layout is the list of field widths
    in bytes, in the order the C# readers and writers visit them: every
    reader and writer of the converter keeps a running `index` and advances
    it by each field's width, which is exactly `Unpack` and `Pack` below. */
module Layout {
  import opened Bytes

  /** Byte offset of field k: the widths of the fields before it. */
  function Off(ws: seq<nat>, k: nat): nat
    requires k <= |ws|
  {
    if k == 0 then 0 else Off(ws, k - 1) + ws[k - 1]
  }

  /** Total width of a layout. */
  function Sum(ws: seq<nat>): nat {
    Off(ws, |ws|)
  }

  /** Dropping the first field shifts every offset by its width. */
  lemma {:induction false} OffDrop(ws: seq<nat>, k: nat)
    requires 1 <= k <= |ws|
    ensures Off(ws, k) == ws[0] + Off(ws[1..], k - 1)
  {
    if k > 1 {
      OffDrop(ws, k - 1);
      assert ws[1..][k - 2] == ws[k - 1];
    }
  }

  lemma SumDrop(ws: seq<nat>)
    requires |ws| > 0
    ensures Sum(ws) == ws[0] + Sum(ws[1..])
  {
    OffDrop(ws, |ws|);
  }

  /** Every value fits its field. */
  predicate Fits(vals: seq<nat>, ws: seq<nat>) {
    |vals| == |ws| && forall k :: 0 <= k < |ws| ==> vals[k] < Pow256(ws[k])
  }

  /** Sequential little-endian writer. */
  function Pack(vals: seq<nat>, ws: seq<nat>): (r: seq<byte>)
    requires |vals| == |ws|
    ensures |r| == Sum(ws)
  {
    if |ws| == 0 then []
    else
      SumDrop(ws);
      ToLe(vals[0], ws[0]) + Pack(vals[1..], ws[1..])
  }

  /** Sequential little-endian reader; reads only the first Sum(ws) bytes. */
  function Unpack(data: seq<byte>, ws: seq<nat>): (r: seq<nat>)
    requires Sum(ws) <= |data|
    ensures |r| == |ws|
  {
    if |ws| == 0 then []
    else
      SumDrop(ws);
      [Le(data[..ws[0]])] + Unpack(data[ws[0]..], ws[1..])
  }

  /** Every value read fits its field. */
  lemma {:induction false} UnpackFits(data: seq<byte>, ws: seq<nat>)
    requires Sum(ws) <= |data|
    ensures Fits(Unpack(data, ws), ws)
  {
    forall k | 0 <= k < |ws|
      ensures Unpack(data, ws)[k] < Pow256(ws[k])
    {
      UnpackAt(data, ws, k);
    }
  }

  lemma {:induction false} OffMono(ws: seq<nat>, j: nat, k: nat)
    requires j <= k <= |ws|
    ensures Off(ws, j) <= Off(ws, k)
  {
    if j < k {
      OffMono(ws, j, k - 1);
    }
  }

  lemma OffBound(ws: seq<nat>, k: nat)
    requires k < |ws|
    ensures Off(ws, k) + ws[k] <= Sum(ws)
  {
    OffMono(ws, k + 1, |ws|);
  }

  /** Field k of a packed record holds the encoding of value k. */
  lemma {:induction false} PackAt(vals: seq<nat>, ws: seq<nat>, k: nat)
    requires |vals| == |ws| && k < |ws|
    ensures Off(ws, k) + ws[k] <= Sum(ws)
    ensures Pack(vals, ws)[Off(ws, k)..Off(ws, k) + ws[k]] == ToLe(vals[k], ws[k])
  {
    OffBound(ws, k);
    SumDrop(ws);
    var head := ToLe(vals[0], ws[0]);
    var tail := Pack(vals[1..], ws[1..]);
    assert Pack(vals, ws) == head + tail;
    if k == 0 {
      assert (head + tail)[..ws[0]] == head;
    } else {
      PackAt(vals[1..], ws[1..], k - 1);
      OffDrop(ws, k);
      var o := Off(ws[1..], k - 1);
      assert vals[1..][k - 1] == vals[k] && ws[1..][k - 1] == ws[k];
      SliceAfter(head, tail, o, o + ws[k]);
    }
  }

  /** A slice past the first part of a concatenation is a slice of the second. */
  lemma SliceAfter<T>(a: seq<T>, b: seq<T>, i: nat, j: nat)
    requires i <= j <= |b|
    ensures (a + b)[|a| + i..|a| + j] == b[i..j]
  {
  }

  /** Value k read back is the little-endian value of field k's bytes. */
  lemma {:induction false} UnpackAt(data: seq<byte>, ws: seq<nat>, k: nat)
    requires Sum(ws) <= |data| && k < |ws|
    ensures Off(ws, k) + ws[k] <= Sum(ws)
    ensures Unpack(data, ws)[k] == Le(data[Off(ws, k)..Off(ws, k) + ws[k]])
  {
    OffBound(ws, k);
    SumDrop(ws);
    var rest := data[ws[0]..];
    var r := Unpack(data, ws);
    assert r == [Le(data[..ws[0]])] + Unpack(rest, ws[1..]);
    if k == 0 {
      assert data[0..ws[0]] == data[..ws[0]];
    } else {
      UnpackAt(rest, ws[1..], k - 1);
      OffDrop(ws, k);
      var o := Off(ws[1..], k - 1);
      assert r[k] == Unpack(rest, ws[1..])[k - 1];
      assert Off(ws, k) == ws[0] + o;
      assert rest[o..o + ws[k]] == data[ws[0] + o..ws[0] + o + ws[k]];
    }
  }

  /** `UnpackAt` with the field's offset already known; lets a fixed record
      name its fields by their literal offsets. */
  lemma FieldAt(data: seq<byte>, ws: seq<nat>, k: nat, o: nat)
    requires Sum(ws) <= |data| && k < |ws| && Off(ws, k) == o
    ensures o + ws[k] <= |data|
    ensures Unpack(data, ws)[k] == Le(data[o..o + ws[k]])
  {
    UnpackAt(data, ws, k);
  }

  /** `FieldAt` for a layout that starts `base` bytes into the buffer. */
  lemma FieldAtShifted(data: seq<byte>, base: nat, ws: seq<nat>, k: nat, o: nat)
    requires base + Sum(ws) <= |data| && k < |ws| && Off(ws, k) == o
    ensures base + o + ws[k] <= |data|
    ensures Unpack(data[base..], ws)[k] == Le(data[base + o..base + o + ws[k]])
  {
    FieldAt(data[base..], ws, k, o);
    assert data[base..][o..o + ws[k]] == data[base + o..base + o + ws[k]];
  }

  /** `PackAt` with the field's offset already known. */
  lemma PackFieldAt(vals: seq<nat>, ws: seq<nat>, k: nat, o: nat)
    requires |vals| == |ws| && k < |ws| && Off(ws, k) == o
    ensures o + ws[k] <= Sum(ws)
    ensures Pack(vals, ws)[o..o + ws[k]] == ToLe(vals[k], ws[k])
  {
    PackAt(vals, ws, k);
  }

  /** Reading what was written gives back every value that fits its field. */
  lemma {:induction false} UnpackPack(vals: seq<nat>, ws: seq<nat>)
    requires Fits(vals, ws)
    ensures Unpack(Pack(vals, ws), ws) == vals
  {
    if |ws| > 0 {
      var head := ToLe(vals[0], ws[0]);
      var tail := Pack(vals[1..], ws[1..]);
      var p := head + tail;
      assert p[..ws[0]] == head;
      assert p[ws[0]..] == tail;
      LeToLeFits(vals[0], ws[0]);
      assert Fits(vals[1..], ws[1..]) by {
        forall k | 0 <= k < |ws| - 1
          ensures vals[1..][k] < Pow256(ws[1..][k])
        {
          assert vals[1..][k] == vals[k + 1];
        }
      }
      UnpackPack(vals[1..], ws[1..]);
    }
  }

  /** Writing what was read reproduces the bytes the layout covers. */
  lemma {:induction false} PackUnpack(data: seq<byte>, ws: seq<nat>)
    requires Sum(ws) <= |data|
    ensures Pack(Unpack(data, ws), ws) == data[..Sum(ws)]
  {
    if |ws| > 0 {
      SumDrop(ws);
      var vals := Unpack(data, ws);
      var rest := data[ws[0]..];
      PackUnpack(rest, ws[1..]);
      ToLeLe(data[..ws[0]]);
      assert vals[1..] == Unpack(rest, ws[1..]);
      assert data[..Sum(ws)] == data[..ws[0]] + rest[..Sum(ws[1..])];
    }
  }

  /** The reader depends on nothing past the layout's width. */
  lemma {:induction false} UnpackPrefix(data: seq<byte>, other: seq<byte>, ws: seq<nat>)
    requires Sum(ws) <= |data| && Sum(ws) <= |other|
    requires data[..Sum(ws)] == other[..Sum(ws)]
    ensures Unpack(data, ws) == Unpack(other, ws)
  {
    if |ws| > 0 {
      SumDrop(ws);
      assert data[..ws[0]] == data[..Sum(ws)][..ws[0]];
      assert other[..ws[0]] == other[..Sum(ws)][..ws[0]];
      assert data[ws[0]..][..Sum(ws[1..])] == data[..Sum(ws)][ws[0]..];
      assert other[ws[0]..][..Sum(ws[1..])] == other[..Sum(ws)][ws[0]..];
      UnpackPrefix(data[ws[0]..], other[ws[0]..], ws[1..]);
    }
  }

  // ------------------------------------------------ variable-width parts

  /** Widths of a list of byte strings. */
  function Widths(parts: seq<seq<byte>>): (r: seq<nat>)
    ensures |r| == |parts| && forall k :: 0 <= k < |parts| ==> r[k] == |parts[k]|
  {
    seq(|parts|, k requires 0 <= k < |parts| => |parts[k]|)
  }

  /** The byte strings one after another, as a growing `List<byte>` would
      hold them after one `AddRange` each. */
  function Concat(parts: seq<seq<byte>>): (r: seq<byte>)
    ensures |r| == Sum(Widths(parts))
  {
    if |parts| == 0 then []
    else
      SumDrop(Widths(parts));
      assert Widths(parts)[1..] == Widths(parts[1..]);
      parts[0] + Concat(parts[1..])
  }

  /** Part k sits at the total width of the parts before it. */
  lemma {:induction false} ConcatAt(parts: seq<seq<byte>>, k: nat)
    requires k < |parts|
    ensures Off(Widths(parts), k) + |parts[k]| <= |Concat(parts)|
    ensures Concat(parts)[Off(Widths(parts), k)..Off(Widths(parts), k) + |parts[k]|] == parts[k]
  {
    var ws := Widths(parts);
    OffBound(ws, k);
    SumDrop(ws);
    assert ws[1..] == Widths(parts[1..]);
    var rest := Concat(parts[1..]);
    assert Concat(parts) == parts[0] + rest;
    if k > 0 {
      ConcatAt(parts[1..], k - 1);
      OffDrop(ws, k);
      var o := Off(ws[1..], k - 1);
      SliceAfter(parts[0], rest, o, o + |parts[k]|);
    }
  }

  /** `ConcatAt` with the widths and the part's offset already known. */
  lemma PartAt(parts: seq<seq<byte>>, ws: seq<nat>, k: nat, o: nat)
    requires k < |parts| && Widths(parts) == ws && Off(ws, k) == o
    ensures o + |parts[k]| <= |Concat(parts)|
    ensures Concat(parts)[o..o + |parts[k]|] == parts[k]
  {
    ConcatAt(parts, k);
  }
}

=== FILE: nso_dynamic.dfy ===
/** The first steps of opening an NSO image (`NsoFile` constructor): the
    MOD0 pointer at the start of the decompressed image, the module header
    it points to, and the walk over the dynamic section that collects the
    sixteen `DT_*` values the reconstruction needs. */
module NsoDynamic {
  import opened Bytes
  import opened Results
  import opened ElfConstants
  import ES = ElfStructures

  /** Why opening an image fails; each is an out-of-range slice or read. */
  datatype NsoFileError =
    | ImageTooShort
    | ModOutsideImage
    | ModHeaderTooShort
    | DynamicOutsideModule
    | EhOffsetOutsideModule
    | SegmentOutsideImage
    | SegmentOutsideFile
    | DecompressFailed
    | SearchFailed
    | ScanOutsideImage

  // ---------------------------------------------------------------- MOD0

  /** `ModHeader`: the magic and six signed 32-bit offsets, relative to
      the module header itself. */
  datatype ModHeader = ModHeader(Magic: seq<byte>, DynamicOffset: int, BssStartOffset: int,
                                 BssEndOffset: int, EhStartOffset: int, EhEndOffset: int,
                                 ModuleObjectOffset: int)

  /** `BinaryPrimitives.ReadInt32LittleEndian`. */
  function ReadI32(s: seq<byte>, off: nat): (r: int)
    requires off + 4 <= |s|
    ensures -0x8000_0000 <= r < 0x8000_0000
    ensures (r - ReadU32(s, off)) % TWO_32 == 0
  {
    I32(ReadU32(s, off))
  }

  /** `ModPointer`: the word at image offset 4 locates the module header
      (the one at 0 is ignored); `Image.Slice((int)magic_offset)` gives
      the module base. */
  function ModBase(image: seq<byte>): (r: Result<nat, NsoFileError>)
    ensures r.Ok? <==> |image| >= 8 && ReadU32(image, 4) < 0x8000_0000 && ReadU32(image, 4) <= |image|
    ensures r.Ok? ==> r.value == ReadU32(image, 4)
    ensures r == Err(ImageTooShort) <==> |image| < 8
  {
    if |image| < 8 then Err(ImageTooShort)
    else
      var start := I32(ReadU32(image, 4));
      if start < 0 || start > |image| then Err(ModOutsideImage)
      else
        I32Unsigned(ReadU32(image, 4));
        Ok(start)
  }

  /** The module header constructor: seven 4-byte fields, which need 28
      bytes from the module base. */
  function ReadModHeader(modBase: seq<byte>): (r: Result<ModHeader, NsoFileError>)
    ensures r.Err? <==> |modBase| < 28
    ensures r.Ok? ==> r.value.Magic == modBase[..4] && r.value.DynamicOffset == ReadI32(modBase, 4)
    ensures r.Ok? ==> r.value.EhStartOffset == ReadI32(modBase, 16) && r.value.EhEndOffset == ReadI32(modBase, 20)
  {
    if |modBase| < 28 then Err(ModHeaderTooShort)
    else
      Ok(ModHeader(modBase[..4], ReadI32(modBase, 4), ReadI32(modBase, 8), ReadI32(modBase, 12),
                   ReadI32(modBase, 16), ReadI32(modBase, 20), ReadI32(modBase, 24)))
  }

  /** `mod_get_offset`: the signed word at a module-relative offset. */
  function ModOffset(modBase: seq<byte>, rel: int): (r: Result<int, NsoFileError>)
    ensures r.Ok? <==> 0 <= rel && rel + 4 <= |modBase|
    ensures r.Ok? ==> r.value == ReadI32(modBase, rel)
  {
    if rel < 0 || rel > |modBase| || |modBase| - rel < 4 then Err(EhOffsetOutsideModule)
    else Ok(ReadI32(modBase, rel))
  }

  /** `EhInfoHdrAddr` and `EhInfoHdrSize`: the words at the two eh offsets,
      the size being their unchecked `int` difference. */
  function EhInfoHdr(modBase: seq<byte>, m: ModHeader): (r: Result<(int, int), NsoFileError>)
    ensures r.Ok? <==> ModOffset(modBase, m.EhStartOffset).Ok? && ModOffset(modBase, m.EhEndOffset).Ok?
    ensures r.Ok? ==> r.value.0 == ModOffset(modBase, m.EhStartOffset).value
    ensures r.Ok? ==> -0x8000_0000 <= r.value.1 < 0x8000_0000
    ensures r.Ok? ==> (r.value.1 - (ModOffset(modBase, m.EhEndOffset).value - r.value.0)) % TWO_32 == 0
  {
    var addr :- ModOffset(modBase, m.EhStartOffset);
    var end :- ModOffset(modBase, m.EhEndOffset);
    Ok((addr, I32(end - addr)))
  }

  // ------------------------------------------------------------- DynInfo

  /** `DynInfoData`: the values of the sixteen dynamic tags the
      reconstruction uses; an unseen tag leaves 0. */
  datatype DynInfo = DynInfo(
    Symtab: u64, Rela: u64, RelaSz: u64, JmpRel: u64, PltRelSz: u64, StrTab: u64, StrSz: u64,
    PltGot: u64, Hash: u64, GnuHash: u64, Init: u64, Fini: u64, InitArray: u64,
    InitArraySz: u64, FiniArray: u64, FiniArraySz: u64)

  const EMPTY_DYN_INFO: DynInfo := DynInfo(0, 0, 0, 0, 0, 0, 0, 0, 0, 0, 0, 0, 0, 0, 0, 0)

  /** The tags the walk's `switch` recognises. */
  predicate Recognised(tag: nat) {
    tag in {DT_SYMTAB, DT_RELA, DT_RELASZ, DT_JMPREL, DT_PLTRELSZ, DT_STRTAB, DT_STRSZ, DT_PLTGOT,
            DT_HASH, DT_GNU_HASH, DT_INIT, DT_FINI, DT_INIT_ARRAY, DT_INIT_ARRAYSZ, DT_FINI_ARRAY,
            DT_FINI_ARRAYSZ}
  }

  /** The field of `DynInfoData` a recognised tag fills. */
  function Field(info: DynInfo, tag: nat): u64 {
    if tag == DT_SYMTAB then info.Symtab
    else if tag == DT_RELA then info.Rela
    else if tag == DT_RELASZ then info.RelaSz
    else if tag == DT_JMPREL then info.JmpRel
    else if tag == DT_PLTRELSZ then info.PltRelSz
    else if tag == DT_STRTAB then info.StrTab
    else if tag == DT_STRSZ then info.StrSz
    else if tag == DT_PLTGOT then info.PltGot
    else if tag == DT_HASH then info.Hash
    else if tag == DT_GNU_HASH then info.GnuHash
    else if tag == DT_INIT then info.Init
    else if tag == DT_FINI then info.Fini
    else if tag == DT_INIT_ARRAY then info.InitArray
    else if tag == DT_INIT_ARRAYSZ then info.InitArraySz
    else if tag == DT_FINI_ARRAY then info.FiniArray
    else if tag == DT_FINI_ARRAYSZ then info.FiniArraySz
    else 0
  }

  /** Two infos with the same value for every recognised tag are equal. */
  lemma FieldsDetermine(a: DynInfo, b: DynInfo)
    requires forall t :: Recognised(t) ==> Field(a, t) == Field(b, t)
    ensures a == b
  {
    assert Field(a, DT_SYMTAB) == Field(b, DT_SYMTAB) && Field(a, DT_RELA) == Field(b, DT_RELA);
    assert Field(a, DT_RELASZ) == Field(b, DT_RELASZ) && Field(a, DT_JMPREL) == Field(b, DT_JMPREL);
    assert Field(a, DT_PLTRELSZ) == Field(b, DT_PLTRELSZ) && Field(a, DT_STRTAB) == Field(b, DT_STRTAB);
    assert Field(a, DT_STRSZ) == Field(b, DT_STRSZ) && Field(a, DT_PLTGOT) == Field(b, DT_PLTGOT);
    assert Field(a, DT_HASH) == Field(b, DT_HASH) && Field(a, DT_GNU_HASH) == Field(b, DT_GNU_HASH);
    assert Field(a, DT_INIT) == Field(b, DT_INIT) && Field(a, DT_FINI) == Field(b, DT_FINI);
    assert Field(a, DT_INIT_ARRAY) == Field(b, DT_INIT_ARRAY);
    assert Field(a, DT_INIT_ARRAYSZ) == Field(b, DT_INIT_ARRAYSZ);
    assert Field(a, DT_FINI_ARRAY) == Field(b, DT_FINI_ARRAY);
    assert Field(a, DT_FINI_ARRAYSZ) == Field(b, DT_FINI_ARRAYSZ);
  }

  /** One iteration of the walk's `switch`: a recognised tag stores its
      value, any other tag changes nothing. */
  function ApplyDyn(info: DynInfo, e: ES.Dyn): (r: DynInfo)
    ensures Recognised(e.Tag) ==> Field(r, e.Tag) == e.Un
    ensures forall t :: t != e.Tag ==> Field(r, t) == Field(info, t)
    ensures !Recognised(e.Tag) ==> r == info
  {
    var v := e.Un;
    if e.Tag == DT_SYMTAB then info.(Symtab := v)
    else if e.Tag == DT_RELA then info.(Rela := v)
    else if e.Tag == DT_RELASZ then info.(RelaSz := v)
    else if e.Tag == DT_JMPREL then info.(JmpRel := v)
    else if e.Tag == DT_PLTRELSZ then info.(PltRelSz := v)
    else if e.Tag == DT_STRTAB then info.(StrTab := v)
    else if e.Tag == DT_STRSZ then info.(StrSz := v)
    else if e.Tag == DT_PLTGOT then info.(PltGot := v)
    else if e.Tag == DT_HASH then info.(Hash := v)
    else if e.Tag == DT_GNU_HASH then info.(GnuHash := v)
    else if e.Tag == DT_INIT then info.(Init := v)
    else if e.Tag == DT_FINI then info.(Fini := v)
    else if e.Tag == DT_INIT_ARRAY then info.(InitArray := v)
    else if e.Tag == DT_INIT_ARRAYSZ then info.(InitArraySz := v)
    else if e.Tag == DT_FINI_ARRAY then info.(FiniArray := v)
    else if e.Tag == DT_FINI_ARRAYSZ then info.(FiniArraySz := v)
    else info
  }

  /** The switch applied to entries in order. */
  function FoldDyn(info: DynInfo, es: seq<ES.Dyn>): (r: DynInfo)
    ensures forall t :: (forall k :: 0 <= k < |es| ==> es[k].Tag != t) ==> Field(r, t) == Field(info, t)
    ensures (forall k :: 0 <= k < |es| ==> !Recognised(es[k].Tag)) ==> r == info
    decreases |es|
  {
    if |es| == 0 then info else ApplyDyn(FoldDyn(info, es[..|es| - 1]), es[|es| - 1])
  }

  /** The value of the last entry with the given tag, 0 when none has it. */
  function LastOf(es: seq<ES.Dyn>, tag: nat): u64
    decreases |es|
  {
    if |es| == 0 then 0
    else if es[|es| - 1].Tag == tag then es[|es| - 1].Un
    else LastOf(es[..|es| - 1], tag)
  }

  /** Every recognised field ends with the value of the last entry carrying
      its tag, or 0 when no entry does. */
  lemma {:induction false} FoldIsLastOccurrence(es: seq<ES.Dyn>, tag: nat)
    requires Recognised(tag)
    ensures Field(FoldDyn(EMPTY_DYN_INFO, es), tag) == LastOf(es, tag)
    decreases |es|
  {
    if |es| > 0 {
      FoldIsLastOccurrence(es[..|es| - 1], tag);
    }
  }

  /** Entries whose tags are not recognised can be dropped. */
  lemma {:induction false} FoldSkipsUnrecognised(info: DynInfo, es: seq<ES.Dyn>, e: ES.Dyn, rest: seq<ES.Dyn>)
    requires !Recognised(e.Tag)
    ensures FoldDyn(info, es + [e] + rest) == FoldDyn(info, es + rest)
    decreases |rest|
  {
    if |rest| == 0 {
      assert (es + [e] + rest)[..|es + [e] + rest| - 1] == es;
      assert es + rest == es;
    } else {
      var last := rest[|rest| - 1];
      var front := rest[..|rest| - 1];
      FoldSkipsUnrecognised(info, es, e, front);
      assert (es + [e] + rest)[..|es + [e] + rest| - 1] == es + [e] + front;
      assert (es + rest)[..|es + rest| - 1] == es + front;
    }
  }

  // --------------------------------------------------------------- walk

  /** `new Elf64Dyn(modBase.Slice(DynOffset + k * 16))`: entry k. The
      `int` sum does not wrap: the walk fails at the end of the module
      (fewer than 2^31 bytes) before the index could grow that far. */
  function DynEntryAt(modBase: seq<byte>, dynOffset: int, k: nat): (r: Result<ES.Dyn, NsoFileError>)
    ensures r.Ok? <==> 0 <= dynOffset + 16 * k && dynOffset + 16 * k + 16 <= |modBase|
    ensures r.Ok? ==> r.value.Tag == ReadU64(modBase, dynOffset + 16 * k)
    ensures r.Ok? ==> r.value.Un == ReadU64(modBase, dynOffset + 16 * k + 8)
  {
    var start := dynOffset + ES.DYN_LENGTH * k;
    if start < 0 || start > |modBase| then Err(DynamicOutsideModule)
    else
      match ES.ReadDyn(modBase[start..])
      case None => Err(DynamicOutsideModule)
      case Some(d) =>
        assert modBase[start..][0..8] == modBase[start..start + 8];
        assert modBase[start..][8..16] == modBase[start + 8..start + 16];
        Ok(d)
  }

  /** The records of a dynamic section, by index. */
  type DynTable = nat -> Result<ES.Dyn, NsoFileError>

  /** No record at or past `bound` can be read. */
  ghost predicate EndsBy(table: DynTable, bound: nat) {
    forall k: nat :: bound <= k ==> table(k).Err?
  }

  /** The records of the module's dynamic section. */
  function DynTableOf(modBase: seq<byte>, dynOffset: int): DynTable {
    (k: nat) => DynEntryAt(modBase, dynOffset, k)
  }

  /** An index from which every record lies past the end of the module. */
  function DynBound(modBase: seq<byte>, dynOffset: int): nat {
    if |modBase| < dynOffset then 0 else (|modBase| - dynOffset) / 16 + 1
  }

  lemma DynTableEnds(modBase: seq<byte>, dynOffset: int)
    ensures EndsBy(DynTableOf(modBase, dynOffset), DynBound(modBase, dynOffset))
  {
    var bound := DynBound(modBase, dynOffset);
    forall k: nat | bound <= k ensures DynTableOf(modBase, dynOffset)(k).Err? {
      if dynOffset <= |modBase| {
        var d := |modBase| - dynOffset;
        assert 16 * (d / 16) + 16 > d;
        assert 16 * k >= 16 * (d / 16 + 1);
      }
    }
  }

  /** The records from index k up to, not including, the first with Tag 0;
      an unreadable record before that is an error. */
  function EntriesFrom(table: DynTable, bound: nat, k: nat): (r: Result<seq<ES.Dyn>, NsoFileError>)
    requires EndsBy(table, bound)
    ensures r.Ok? ==> forall i :: 0 <= i < |r.value| ==> r.value[i].Tag != 0
    ensures r.Ok? ==> k + |r.value| < bound
    decreases if k <= bound then bound - k else 0
  {
    var e :- table(k);
    if e.Tag == 0 then Ok([])
    else
      var rest :- EntriesFrom(table, bound, k + 1);
      Ok([e] + rest)
  }

  /** The records of the module read as a walk: entries [0, |es|) each
      have a non-zero tag and entry |es| is readable with tag 0. */
  predicate WalkReads(modBase: seq<byte>, dynOffset: int, es: seq<ES.Dyn>) {
    && (forall i :: 0 <= i < |es| ==> DynEntryAt(modBase, dynOffset, i) == Ok(es[i]) && es[i].Tag != 0)
    && DynEntryAt(modBase, dynOffset, |es|).Ok?
    && DynEntryAt(modBase, dynOffset, |es|).value.Tag == 0
  }

  /** The walk breaks at record n: it cannot be read, and every record
      before it has a non-zero tag. */
  predicate WalkBreaksAt(modBase: seq<byte>, dynOffset: int, n: nat) {
    && DynEntryAt(modBase, dynOffset, n).Err?
    && forall i: nat :: i < n ==> DynEntryAt(modBase, dynOffset, i).Ok? && DynEntryAt(modBase, dynOffset, i).value.Tag != 0
  }

  /** The entries the constructor's walk visits: on success, the records
      from index 0 on up to the first with tag 0; on failure, some record
      before any tag 0 cannot be read. */
  function DynamicEntries(modBase: seq<byte>, dynOffset: int): (r: Result<seq<ES.Dyn>, NsoFileError>)
    ensures r.Ok? ==> WalkReads(modBase, dynOffset, r.value)
    ensures r.Err? ==> exists n: nat :: WalkBreaksAt(modBase, dynOffset, n)
    ensures r.Ok? <==> !exists n: nat :: WalkBreaksAt(modBase, dynOffset, n)
  {
    DynTableEnds(modBase, dynOffset);
    var r := EntriesFrom(DynTableOf(modBase, dynOffset), DynBound(modBase, dynOffset), 0);
    if r.Ok? then
      ModuleEntriesRead(modBase, dynOffset);
      ReadsNeverBreak(modBase, dynOffset, r.value);
      r
    else ModuleEntriesFail(modBase, dynOffset); r
  }

  /** A walk that reaches its terminator breaks nowhere. */
  lemma ReadsNeverBreak(modBase: seq<byte>, dynOffset: int, es: seq<ES.Dyn>)
    requires WalkReads(modBase, dynOffset, es)
    ensures forall n: nat :: !WalkBreaksAt(modBase, dynOffset, n)
  {
    forall n: nat | |es| < n ensures !WalkBreaksAt(modBase, dynOffset, n) {
      assert |es| < n;
    }
  }

  /** A successful walk from index 0, read back through `DynEntryAt`. */
  lemma ModuleEntriesRead(modBase: seq<byte>, dynOffset: int)
    requires EndsBy(DynTableOf(modBase, dynOffset), DynBound(modBase, dynOffset))
    requires EntriesFrom(DynTableOf(modBase, dynOffset), DynBound(modBase, dynOffset), 0).Ok?
    ensures WalkReads(modBase, dynOffset, EntriesFrom(DynTableOf(modBase, dynOffset), DynBound(modBase, dynOffset), 0).value)
  {
    var table := DynTableOf(modBase, dynOffset);
    var bound := DynBound(modBase, dynOffset);
    EntriesFromReadAtStart(table, bound);
    var es := EntriesFrom(table, bound, 0).value;
    forall i | 0 <= i < |es|
      ensures DynEntryAt(modBase, dynOffset, i) == Ok(es[i]) && es[i].Tag != 0
    {
      assert table(i) == DynEntryAt(modBase, dynOffset, i);
    }
    assert table(|es|) == DynEntryAt(modBase, dynOffset, |es|);
  }

  /** `EntriesFromRead` for a walk that starts at index 0. */
  lemma EntriesFromReadAtStart(table: DynTable, bound: nat)
    requires EndsBy(table, bound)
    requires EntriesFrom(table, bound, 0).Ok?
    ensures var es := EntriesFrom(table, bound, 0).value;
      && (forall i :: 0 <= i < |es| ==> table(i) == Ok(es[i]) && es[i].Tag != 0)
      && table(|es|).Ok? && table(|es|).value.Tag == 0
  {
    EntriesFromRead(table, bound, 0);
    var es := EntriesFrom(table, bound, 0).value;
    forall i | 0 <= i < |es| ensures table(i) == Ok(es[i]) && es[i].Tag != 0 {
      assert table(0 + i) == Ok(es[i]);
    }
    assert table(0 + |es|) == table(|es|);
  }

  /** A failed walk from index 0, read back through `DynEntryAt`. */
  lemma ModuleEntriesFail(modBase: seq<byte>, dynOffset: int)
    requires EndsBy(DynTableOf(modBase, dynOffset), DynBound(modBase, dynOffset))
    requires EntriesFrom(DynTableOf(modBase, dynOffset), DynBound(modBase, dynOffset), 0).Err?
    ensures exists n: nat :: WalkBreaksAt(modBase, dynOffset, n)
  {
    var table := DynTableOf(modBase, dynOffset);
    var bound := DynBound(modBase, dynOffset);
    EntriesFromFail(table, bound, 0);
    var n :| 0 <= n && table(n).Err? && forall i :: 0 <= i < n ==> table(i).Ok? && table(i).value.Tag != 0;
    forall i: nat | i < n
      ensures DynEntryAt(modBase, dynOffset, i).Ok? && DynEntryAt(modBase, dynOffset, i).value.Tag != 0
    {
      assert table(i) == DynEntryAt(modBase, dynOffset, i);
    }
    assert WalkBreaksAt(modBase, dynOffset, n);
  }

  /** What the entries are: the successive records, all with a non-zero
      tag, up to a record with tag 0. */
  lemma {:induction false} EntriesFromRead(table: DynTable, bound: nat, k: nat)
    requires EndsBy(table, bound)
    requires EntriesFrom(table, bound, k).Ok?
    ensures var es := EntriesFrom(table, bound, k).value;
      && (forall i :: 0 <= i < |es| ==> table(k + i) == Ok(es[i]) && es[i].Tag != 0)
      && table(k + |es|).Ok? && table(k + |es|).value.Tag == 0
    decreases if k <= bound then bound - k else 0
  {
    var e := table(k).value;
    if e.Tag != 0 {
      EntriesFromRead(table, bound, k + 1);
      var rest := EntriesFrom(table, bound, k + 1).value;
      var es := EntriesFrom(table, bound, k).value;
      assert es == [e] + rest;
      forall i | 0 <= i < |es| ensures table(k + i) == Ok(es[i]) && es[i].Tag != 0 {
        if i > 0 {
          assert es[i] == rest[i - 1];
          assert k + i == (k + 1) + (i - 1);
        }
      }
      assert k + |es| == (k + 1) + |rest|;
    }
  }

  /** The walk fails exactly when a record before the terminator cannot be
      read: some record n cannot be read and all before it have a
      non-zero tag. */
  lemma {:induction false} EntriesFromFail(table: DynTable, bound: nat, k: nat)
    requires EndsBy(table, bound)
    requires EntriesFrom(table, bound, k).Err?
    ensures exists n :: k <= n && table(n).Err?
                        && forall i :: k <= i < n ==> table(i).Ok? && table(i).value.Tag != 0
    decreases if k <= bound then bound - k else 0
  {
    if table(k).Ok? {
      EntriesFromFail(table, bound, k + 1);
      var n :| k + 1 <= n && table(n).Err?
              && forall i :: k + 1 <= i < n ==> table(i).Ok? && table(i).value.Tag != 0;
      assert forall i :: k <= i < n ==> table(i).Ok? && table(i).value.Tag != 0;
    } else {
      assert k <= k && table(k).Err?;
    }
  }

  /** The entries of the module read as bytes: entry i is the pair of
      little-endian words at `dynOffset + 16 * i`, none of them with tag 0,
      and the pair after the last has tag 0. */
  lemma DynamicEntriesBytes(modBase: seq<byte>, dynOffset: int)
    requires DynamicEntries(modBase, dynOffset).Ok?
    ensures var es := DynamicEntries(modBase, dynOffset).value;
      && (forall i :: 0 <= i < |es| ==>
            && 0 <= dynOffset + 16 * i && dynOffset + 16 * i + 16 <= |modBase|
            && es[i].Tag == ReadU64(modBase, dynOffset + 16 * i) != 0
            && es[i].Un == ReadU64(modBase, dynOffset + 16 * i + 8))
      && 0 <= dynOffset + 16 * |es| && dynOffset + 16 * |es| + 16 <= |modBase|
      && ReadU64(modBase, dynOffset + 16 * |es|) == 0
  {
    var es := DynamicEntries(modBase, dynOffset).value;
    forall i | 0 <= i < |es|
      ensures 0 <= dynOffset + 16 * i && dynOffset + 16 * i + 16 <= |modBase|
      ensures es[i].Tag == ReadU64(modBase, dynOffset + 16 * i) != 0
      ensures es[i].Un == ReadU64(modBase, dynOffset + 16 * i + 8)
    {
      EntryBytes(modBase, dynOffset, i, es[i]);
    }
    EntryBytes(modBase, dynOffset, |es|, DynEntryAt(modBase, dynOffset, |es|).value);
  }

  /** A record that reads is the pair of words at its position. */
  lemma EntryBytes(modBase: seq<byte>, dynOffset: int, k: nat, e: ES.Dyn)
    requires DynEntryAt(modBase, dynOffset, k) == Ok(e)
    ensures 0 <= dynOffset + 16 * k && dynOffset + 16 * k + 16 <= |modBase|
    ensures e.Tag == ReadU64(modBase, dynOffset + 16 * k)
    ensures e.Un == ReadU64(modBase, dynOffset + 16 * k + 8)
  {
  }

  /** An outcome with entries already consumed put in front. */
  function Prepend(seen: seq<ES.Dyn>, r: Result<seq<ES.Dyn>, NsoFileError>): Result<seq<ES.Dyn>, NsoFileError> {
    if r.Ok? then Ok(seen + r.value) else r
  }

  /** One step of the walk: a record with a non-zero tag goes in front of
      the records after it. */
  lemma EntriesFromStep(table: DynTable, bound: nat, k: nat, seen: seq<ES.Dyn>)
    requires EndsBy(table, bound)
    requires table(k).Ok? && table(k).value.Tag != 0
    ensures Prepend(seen, EntriesFrom(table, bound, k)) == Prepend(seen + [table(k).value], EntriesFrom(table, bound, k + 1))
  {
    var rest := EntriesFrom(table, bound, k + 1);
    if rest.Ok? {
      assert seen + [table(k).value] + rest.value == seen + ([table(k).value] + rest.value);
    }
  }

  /** Folding one more entry applies the switch to it. */
  lemma FoldSnoc(info: DynInfo, seen: seq<ES.Dyn>, e: ES.Dyn)
    ensures FoldDyn(info, seen + [e]) == ApplyDyn(FoldDyn(info, seen), e)
  {
    assert (seen + [e])[..|seen + [e]| - 1] == seen;
  }

  /** The `while (dynamic.Tag != default)` loop of the constructor, over
      any table of records. */
  method WalkEntries(table: DynTable, ghost bound: nat) returns (r: Result<DynInfo, NsoFileError>)
    requires EndsBy(table, bound)
    ensures r.Ok? <==> EntriesFrom(table, bound, 0).Ok?
    ensures r.Ok? ==> r.value == FoldDyn(EMPTY_DYN_INFO, EntriesFrom(table, bound, 0).value)
  {
    ghost var all := EntriesFrom(table, bound, 0);
    var info := EMPTY_DYN_INFO;
    var k := 0;
    ghost var seen: seq<ES.Dyn> := [];
    var d := table(0);
    if d.Err? {
      return Err(d.error);
    }
    var dynamic := d.value;
    assert all == Prepend(seen, EntriesFrom(table, bound, 0)) by {
      if all.Ok? {
        assert [] + all.value == all.value;
      }
    }
    while dynamic.Tag != 0
      invariant table(k) == Ok(dynamic)
      invariant all == Prepend(seen, EntriesFrom(table, bound, k))
      invariant info == FoldDyn(EMPTY_DYN_INFO, seen)
      decreases if k <= bound then bound - k else 0
    {
      EntriesFromStep(table, bound, k, seen);
      FoldSnoc(EMPTY_DYN_INFO, seen, dynamic);
      info := ApplyDyn(info, dynamic);
      seen := seen + [dynamic];
      k := k + 1;
      d := table(k);
      if d.Err? {
        return Err(d.error);
      }
      dynamic := d.value;
    }
    assert seen + [] == seen;
    return Ok(info);
  }

  /** The walk over the module's dynamic section. */
  method WalkDynamic(modBase: seq<byte>, dynOffset: int) returns (r: Result<DynInfo, NsoFileError>)
    ensures r.Ok? <==> DynamicEntries(modBase, dynOffset).Ok?
    ensures r.Ok? ==> r.value == FoldDyn(EMPTY_DYN_INFO, DynamicEntries(modBase, dynOffset).value)
  {
    DynTableEnds(modBase, dynOffset);
    r := WalkEntries(DynTableOf(modBase, dynOffset), DynBound(modBase, dynOffset));
  }

  /** The walk's outcome stated without the loop: the last value of each
      recognised tag before the terminating entry, 0 for tags never seen. */
  lemma WalkIsLastOccurrence(modBase: seq<byte>, dynOffset: int, info: DynInfo, tag: nat)
    requires DynamicEntries(modBase, dynOffset).Ok?
    requires info == FoldDyn(EMPTY_DYN_INFO, DynamicEntries(modBase, dynOffset).value)
    requires Recognised(tag)
    ensures Field(info, tag) == LastOf(DynamicEntries(modBase, dynOffset).value, tag)
  {
    FoldIsLastOccurrence(DynamicEntries(modBase, dynOffset).value, tag);
  }
}

=== FILE: nso_scans.dfy ===
/** The byte-pattern scans of the NSO-to-ELF reconstruction: the PLT stub
    search in the text segment, the GNU build-id note search, the end of
    the `R_AARCH64_JUMP_SLOT` relocations, the GOT search that follows it,
    and the `.init`/`.fini` instruction scans. Every scan is stated over
    the `ByteSearch` model of the source's `memmem`/`memmemr`, so the
    quirks proved there (a hit is an all-zero AND, a hit at 0 reads as a
    miss, `memmemr` throws on a miss) carry over. */
module NsoScans {
  import opened Bytes
  import opened Results
  import opened ElfConstants
  import ES = ElfStructures
  import BS = ByteSearch
  import opened NsoStructures
  import opened NsoDynamic

  /** A failed search becomes a failure of the whole constructor. */
  function Lift(r: Result<int, BS.SearchError>): (s: Result<int, NsoFileError>)
    ensures s.Ok? <==> r.Ok?
    ensures s.Ok? ==> s.value == r.value
  {
    if r.Ok? then Ok(r.value) else Err(SearchFailed)
  }

  /** `Image.AsSpan().Slice((int)seg.MemoryOffset, (int)seg.MemorySize)`. */
  function SegmentData(image: seq<byte>, seg: NsoSegment): (r: Result<seq<byte>, NsoFileError>)
    ensures r.Ok? <==> SliceOk(|image|, I32(seg.MemoryOffset), I32(seg.MemorySize))
    ensures r.Ok? ==> |r.value| <= |image|
    ensures r.Ok? ==> var s := I32(seg.MemoryOffset);
      0 <= s && r.value == image[s..s + I32(seg.MemorySize)]
  {
    var start := I32(seg.MemoryOffset);
    var length := I32(seg.MemorySize);
    if SliceOk(|image|, start, length) then Ok(image[start..start + length])
    else Err(SegmentOutsideImage)
  }

  // ----------------------------------------------------------------- PLT

  /** The PLT header stub: `stp x16, x30, [sp, #-16]!`, `adrp x16, ...`,
      `ldr x17, [x16, ...]`, `add x16, x16, ...`, `br x17`, then three
      `nop`s. */
  const PLT_PATTERN: seq<byte> := [
    0xf0, 0x7b, 0xbf, 0xa9, 0xd0, 0x04, 0x00, 0xd0, 0x11, 0x8a, 0x42, 0xf9, 0x10, 0x42, 0x14, 0x91,
    0x20, 0x02, 0x1f, 0xd6, 0x1f, 0x20, 0x32, 0x50, 0x1f, 0x20, 0x32, 0x50, 0x1f, 0x20, 0x32, 0x50]

  /** Which bits of the stub take part: the page and offset immediates
      are masked out. */
  const PLT_MASK: seq<byte> := [
    0xff, 0xff, 0xff, 0xff, 0x00, 0x00, 0x00, 0x00, 0x00, 0x00, 0x00, 0xff, 0x00, 0x00, 0x00, 0xff,
    0x00, 0x00, 0x00, 0xff, 0xff, 0xff, 0xff, 0xff, 0xff, 0xff, 0xff, 0xff, 0xff, 0xff, 0xff, 0xff]

  const PLT_ENTRY_SIZE: nat := 16

  /** `PltInfoAddr` (relative to the text segment) and `PltInfoSize`;
      both stay 0 when no PLT is recognised. */
  datatype PltInfo = PltInfo(Addr: u64, Size: u64)

  /** A hit of the masked stub at offset o of the text segment. */
  predicate StubHit(text: seq<byte>, pattern: seq<byte>, mask: seq<byte>, o: nat) {
    BS.Hit(text, pattern, Some(mask), |pattern|, o)
  }

  /** A PLT hit at offset o of the text segment. */
  predicate PltHit(text: seq<byte>, o: nat) {
    StubHit(text, PLT_PATTERN, PLT_MASK, o)
  }

  /** `pltEntrySize * 2 + pltEntrySize * (pltrelsz / Elf64Rela.Length)`,
      computed in `ulong`: the header's two entries plus one per
      `.rela.plt` entry. The sum cannot wrap. */
  function PltSize(pltrelsz: u64): (r: u64)
    ensures r == 2 * PLT_ENTRY_SIZE + PLT_ENTRY_SIZE * (pltrelsz / ES.RELA_LENGTH)
  {
    (2 * PLT_ENTRY_SIZE + PLT_ENTRY_SIZE * (pltrelsz / ES.RELA_LENGTH)) % TWO_64
  }

  /** Offset 0 is no hit but some later offset before the last window
      is: what a non-zero `memmem_m` answer needs. */
  predicate LaterHit(text: seq<byte>, pattern: seq<byte>, mask: seq<byte>) {
    && !(0 < |text| - |pattern| && StubHit(text, pattern, mask, 0))
    && exists o :: 0 < o < |text| - |pattern| && StubHit(text, pattern, mask, o)
  }

  /** The PLT resolution for any 32-byte stub and mask. */
  function ResolveStub(text: seq<byte>, pattern: seq<byte>, mask: seq<byte>, pltrelsz: u64): (r: PltInfo)
    requires |text| < 0x8000_0000 && |pattern| == |mask| == 32
    ensures pltrelsz == 0 ==> r == PltInfo(0, 0)
    ensures r.Addr != 0 <==> pltrelsz != 0 && LaterHit(text, pattern, mask)
    ensures r.Addr != 0 ==>
      && r.Addr < |text| - |pattern| && StubHit(text, pattern, mask, r.Addr)
      && (forall o :: 0 <= o < r.Addr ==> !StubHit(text, pattern, mask, o))
      && r.Size == 2 * PLT_ENTRY_SIZE + PLT_ENTRY_SIZE * (pltrelsz / ES.RELA_LENGTH)
    ensures r.Addr == 0 ==> r.Size == 0
  {
    if pltrelsz == 0 then PltInfo(0, 0)
    else if |text| < |pattern| then
      assert !LaterHit(text, pattern, mask);
      PltInfo(0, 0)
    else
      var n := |pattern|;
      var found := BS.Search(text, |text|, pattern, Some(mask), n);
      assert found.Ok? by {
        BS.SearchNonZero(text, |text|, pattern, Some(mask), n);
      }
      assert found.value != 0 <==> LaterHit(text, pattern, mask) by {
        BS.SearchNonZero(text, |text|, pattern, Some(mask), n);
        if LaterHit(text, pattern, mask) {
          var o :| 0 < o < |text| - |pattern| && StubHit(text, pattern, mask, o);
          assert BS.Hit(text, pattern, Some(mask), n, o);
        }
        if found.value != 0 {
          var o :| 0 < o < |text| - n && BS.Hit(text, pattern, Some(mask), n, o);
          assert StubHit(text, pattern, mask, o);
        }
      }
      if found.value == 0 then PltInfo(0, 0)
      else
        BS.SearchLowest(text, |text|, pattern, Some(mask), n);
        PltInfo(found.value, PltSize(pltrelsz))
  }

  /** The PLT resolution of the constructor, given the text segment's
      bytes (a span, so shorter than 2^31). The search runs only when
      `DT_PLTRELSZ` is non-zero; a non-zero result is the lowest hit,
      never the last window, and a hit at offset 0 is lost. */
  function ResolvePlt(text: seq<byte>, pltrelsz: u64): (r: PltInfo)
    requires |text| < 0x8000_0000
    ensures pltrelsz == 0 ==> r == PltInfo(0, 0)
    ensures r.Addr != 0 <==> pltrelsz != 0 && LaterHit(text, PLT_PATTERN, PLT_MASK)
    ensures r.Addr != 0 ==>
      && r.Addr < |text| - 32 && PltHit(text, r.Addr)
      && (forall o :: 0 <= o < r.Addr ==> !PltHit(text, o))
      && r.Size == 2 * PLT_ENTRY_SIZE + PLT_ENTRY_SIZE * (pltrelsz / ES.RELA_LENGTH)
    ensures r.Addr == 0 ==> r.Size == 0
  {
    ResolveStub(text, PLT_PATTERN, PLT_MASK, pltrelsz)
  }

  // ------------------------------------------------------------ build id

  /** A note header for a 4-byte owner "GNU\0" with a 16-byte (MD5) or a
      20-byte (SHA-1) descriptor of type `NT_GNU_BUILD_ID`, followed by
      the owner. */
  const MD5_BUILD_ID_NEEDLE: seq<byte> := [4, 0, 0, 0, 16, 0, 0, 0, 3, 0, 0, 0, 71, 78, 85, 0]
  const SHA1_BUILD_ID_NEEDLE: seq<byte> := [4, 0, 0, 0, 20, 0, 0, 0, 3, 0, 0, 0, 71, 78, 85, 0]

  predicate NeedleHit(seg: seq<byte>, needle: seq<byte>, o: nat) {
    BS.Hit(seg, needle, None, |needle|, o)
  }

  /** The highest window of a segment that reads as a hit, if any. */
  predicate HighestHit(seg: seq<byte>, needle: seq<byte>, o: int) {
    && 0 <= o <= |seg| - |needle| && NeedleHit(seg, needle, o)
    && forall q :: o < q <= |seg| - |needle| ==> !NeedleHit(seg, needle, q)
  }

  /** The two `memmemr` calls for one segment: the SHA-1 needle is tried
      only when the MD5 search answers 0. */
  function NoteOffset(seg: seq<byte>): (r: Result<int, NsoFileError>)
    ensures |seg| < 16 ==> r.Err?
    ensures r.Ok? ==> 0 <= r.value <= |seg| - 16
    ensures r.Ok? && r.value != 0 ==>
      NeedleHit(seg, MD5_BUILD_ID_NEEDLE, r.value) || NeedleHit(seg, SHA1_BUILD_ID_NEEDLE, r.value)
  {
    NeedleSearchHits(seg, MD5_BUILD_ID_NEEDLE);
    NeedleSearchHits(seg, SHA1_BUILD_ID_NEEDLE);
    var o :- Lift(BS.SearchBack(seg, |seg|, MD5_BUILD_ID_NEEDLE, 16));
    if o == 0 then Lift(BS.SearchBack(seg, |seg|, SHA1_BUILD_ID_NEEDLE, 16)) else Ok(o)
  }

  /** A 16-byte needle searched backwards over a segment: a short segment
      fails, and an answer is a hit inside the segment. */
  lemma NeedleSearchHits(seg: seq<byte>, needle: seq<byte>)
    requires |needle| == 16
    ensures var r := BS.SearchBack(seg, |seg|, needle, 16);
      && (|seg| < 16 ==> r.Err?)
      && (r.Ok? ==> 0 <= r.value <= |seg| - 16 && NeedleHit(seg, needle, r.value))
  {
    BS.SearchBackHits(seg, |seg|, needle, 16);
    var r := BS.SearchBack(seg, |seg|, needle, 16);
    if r.Ok? {
      if |seg| - 16 < 0x8000_0000 {
        I32Small(|seg| - 16);
      }
      assert r.value <= |seg| - 16;
      assert NeedleHit(seg, needle, r.value);
    }
  }

  /** What the search for one segment yields. It succeeds exactly when the
      MD5 needle hits somewhere and, if its highest hit is at 0, the SHA-1
      needle hits somewhere too; a segment shorter than a needle fails.
      The answer is the highest MD5 hit, or after an MD5 hit at 0 the
      highest SHA-1 hit. */
  lemma NoteOffsetMeaning(seg: seq<byte>)
    requires |seg| < 0x8000_0000
    ensures var r := NoteOffset(seg);
      && (r.Ok? <==> (exists o :: HighestHit(seg, MD5_BUILD_ID_NEEDLE, o))
                     && (HighestHit(seg, MD5_BUILD_ID_NEEDLE, 0) ==> exists o :: HighestHit(seg, SHA1_BUILD_ID_NEEDLE, o)))
      && (|seg| < 16 ==> r.Err?)
      && (r.Ok? && r.value != 0 ==>
            HighestHit(seg, MD5_BUILD_ID_NEEDLE, r.value)
            || (HighestHit(seg, MD5_BUILD_ID_NEEDLE, 0) && HighestHit(seg, SHA1_BUILD_ID_NEEDLE, r.value)))
      && (r.Ok? && r.value == 0 ==>
            HighestHit(seg, MD5_BUILD_ID_NEEDLE, 0) && HighestHit(seg, SHA1_BUILD_ID_NEEDLE, 0))
  {
    assert |MD5_BUILD_ID_NEEDLE| == 16 && |SHA1_BUILD_ID_NEEDLE| == 16;
    if |seg| < 16 {
      assert I32(|seg| - 16) < 0;
      assert !exists o :: HighestHit(seg, MD5_BUILD_ID_NEEDLE, o);
    } else {
      BS.SearchBackHighest(seg, |seg|, MD5_BUILD_ID_NEEDLE, 16);
      BS.SearchBackHighest(seg, |seg|, SHA1_BUILD_ID_NEEDLE, 16);
      var m := BS.SearchBack(seg, |seg|, MD5_BUILD_ID_NEEDLE, 16);
      var s := BS.SearchBack(seg, |seg|, SHA1_BUILD_ID_NEEDLE, 16);
      if m.Ok? {
        assert HighestHit(seg, MD5_BUILD_ID_NEEDLE, m.value);
      }
      if s.Ok? {
        assert HighestHit(seg, SHA1_BUILD_ID_NEEDLE, s.value);
      }
    }
  }

  /** One pass of the `foreach`: the note header is read at the found
      offset of the whole image, although the offset was found relative to
      the segment. */
  function NoteIn(image: seq<byte>, seg: seq<byte>): (r: Result<Option<ES.Nhdr>, NsoFileError>)
    ensures r.Ok? <==> NoteOffset(seg).Ok? && var o := NoteOffset(seg).value;
      o == 0 || (0 < o && o + ES.NHDR_LENGTH <= |image|)
    ensures r.Ok? && r.value.Some? ==>
      var o := NoteOffset(seg).value;
      && 0 < o && o + ES.NHDR_LENGTH <= |image|
      && Some(r.value.value) == ES.ReadNhdr(image[o..])
    ensures r.Ok? && r.value.None? ==> NoteOffset(seg).value == 0
  {
    var o :- NoteOffset(seg);
    if o == 0 then Ok(None)
    else if o < 0 || o > |image| then Err(ScanOutsideImage)
    else
      match ES.ReadNhdr(image[o..])
      case None => Err(ScanOutsideImage)
      case Some(h) => Ok(Some(h))
  }

  /** The note of one segment, when its slice and its search succeed. */
  function NoteOf(image: seq<byte>, s: NsoSegment): Result<Option<ES.Nhdr>, NsoFileError> {
    var seg :- SegmentData(image, s);
    NoteIn(image, seg)
  }

  /** What the search of one segment gives. */
  type NoteSearch = NsoSegment -> Result<Option<ES.Nhdr>, NsoFileError>

  /** The `foreach` over the segments: a later segment's note replaces an
      earlier one; any failure ends the constructor. */
  function FindNoteWith(noteOf: NoteSearch, segs: seq<NsoSegment>, note: Option<ES.Nhdr>)
    : (r: Result<Option<ES.Nhdr>, NsoFileError>)
    ensures r.Ok? ==> r.value == note || exists i :: 0 <= i < |segs| && noteOf(segs[i]) == Ok(r.value)
    ensures r.Err? ==> exists i :: 0 <= i < |segs| && noteOf(segs[i]).Err?
    decreases |segs|
  {
    if |segs| == 0 then Ok(note)
    else
      var n :- noteOf(segs[0]);
      FindNoteWith(noteOf, segs[1..], if n.Some? then n else note)
  }

  function FindNote(image: seq<byte>, segs: seq<NsoSegment>): (r: Result<Option<ES.Nhdr>, NsoFileError>)
    ensures r.Ok? && r.value.Some? ==> exists i :: 0 <= i < |segs| && NoteOf(image, segs[i]) == Ok(r.value)
    ensures r.Err? ==> exists i :: 0 <= i < |segs| && NoteOf(image, segs[i]).Err?
  {
    var noteOf: NoteSearch := s => NoteOf(image, s);
    assert forall i :: 0 <= i < |segs| ==> noteOf(segs[i]) == NoteOf(image, segs[i]);
    FindNoteWith(noteOf, segs, None)
  }

  /** Segment i has a note and no later segment has one. */
  predicate LastWithNote(noteOf: NoteSearch, segs: seq<NsoSegment>, i: int, note: Option<ES.Nhdr>) {
    && 0 <= i < |segs| && note.Some? && noteOf(segs[i]) == Ok(note)
    && forall j :: i < j < |segs| ==> noteOf(segs[j]) == Ok(None)
  }

  /** The search succeeds exactly when every segment's search does; the
      note is then that of the last segment that has one, or the starting
      value when none has. */
  lemma {:induction false} FindNoteIsLast(noteOf: NoteSearch, segs: seq<NsoSegment>, note: Option<ES.Nhdr>)
    ensures var r := FindNoteWith(noteOf, segs, note);
      && (r.Ok? <==> forall i :: 0 <= i < |segs| ==> noteOf(segs[i]).Ok?)
      && (r.Ok? ==>
            || ((forall i :: 0 <= i < |segs| ==> noteOf(segs[i]) == Ok(None)) && r.value == note)
            || exists i :: LastWithNote(noteOf, segs, i, r.value))
    decreases |segs|
  {
    if |segs| > 0 {
      var first := noteOf(segs[0]);
      if first.Ok? {
        var n := first.value;
        var note' := if n.Some? then n else note;
        var tail := segs[1..];
        FindNoteIsLast(noteOf, tail, note');
        var r := FindNoteWith(noteOf, segs, note);
        assert r == FindNoteWith(noteOf, tail, note');
        assert forall i :: 0 < i < |segs| ==> segs[i] == tail[i - 1];
        if r.Ok? {
          if exists i :: LastWithNote(noteOf, tail, i, r.value) {
            var i :| LastWithNote(noteOf, tail, i, r.value);
            assert LastWithNote(noteOf, segs, i + 1, r.value);
          } else if n.Some? {
            assert LastWithNote(noteOf, segs, 0, r.value);
          } else {
            assert forall i :: 0 <= i < |segs| ==> noteOf(segs[i]) == Ok(None);
          }
        }
      }
    }
  }

  // ----------------------------------------------------------- jump slots

  /** `new Elf64Rela(Image.AsSpan().Slice((int)(jmprel + i * 24)))`. */
  function RelaAt(image: seq<byte>, jmprel: u64, i: nat): (r: Result<ES.Rela, NsoFileError>)
    ensures r.Ok? <==> var start := I32((jmprel + i * ES.RELA_LENGTH) % TWO_64);
      0 <= start && start + ES.RELA_LENGTH <= |image|
    ensures r.Ok? ==> var start := I32((jmprel + i * ES.RELA_LENGTH) % TWO_64);
      0 <= start && start + ES.RELA_LENGTH <= |image| && ES.ReadRela(image[start..]) == Some(r.value)
  {
    var start := I32((jmprel + i * ES.RELA_LENGTH) % TWO_64);
    if start < 0 || start > |image| then Err(ScanOutsideImage)
    else
      match ES.ReadRela(image[start..])
      case None => Err(ScanOutsideImage)
      case Some(rela) => Ok(rela)
  }

  /** `(int)(rela.Offset + 8)`: the end of the slot the relocation fills. */
  function SlotEnd(rela: ES.Rela): int {
    I32((rela.Offset + 8) % TWO_64)
  }

  predicate IsJumpSlot(rela: ES.Rela) {
    rela.Info == R_AARCH64_JUMP_SLOT
  }

  function Max(a: int, b: int): int {
    if a < b then b else a
  }

  /** The `.rela.plt` entries, by index. */
  type RelaTable = nat -> Result<ES.Rela, NsoFileError>

  /** The loop over `.rela.plt` from entry i, with the running maximum. */
  function JumpSlotEndFrom(relaOf: RelaTable, count: nat, i: nat, end: int): (r: Result<int, NsoFileError>)
    ensures r.Ok? ==> end <= r.value
    ensures r.Err? ==> exists j :: i <= j < count && relaOf(j).Err?
    decreases count - i
  {
    if i >= count then Ok(end)
    else
      var rela :- relaOf(i);
      JumpSlotEndFrom(relaOf, count, i + 1, if IsJumpSlot(rela) then Max(end, SlotEnd(rela)) else end)
  }

  /** `jumpSlotAddrEnd`: 0 without `DT_JMPREL`. */
  function JumpSlotEnd(image: seq<byte>, jmprel: u64, pltrelsz: u64): (r: Result<int, NsoFileError>)
    ensures jmprel == 0 ==> r == Ok(0)
    ensures r.Ok? ==> 0 <= r.value
    ensures r.Err? ==> exists j :: 0 <= j < pltrelsz / ES.RELA_LENGTH && RelaAt(image, jmprel, j).Err?
  {
    if jmprel == 0 then Ok(0)
    else JumpSlotEndFrom((i: nat) => RelaAt(image, jmprel, i), pltrelsz / ES.RELA_LENGTH, 0, 0)
  }

  /** The running maximum from entry i: it fails exactly when an entry in
      [i, count) cannot be read, and otherwise is the largest of `end` and
      the slot ends of the jump-slot relocations in [i, count). */
  lemma {:induction false} JumpSlotEndFromIsMax(relaOf: RelaTable, count: nat, i: nat, end: int)
    ensures var r := JumpSlotEndFrom(relaOf, count, i, end);
      && (r.Ok? <==> forall j :: i <= j < count ==> relaOf(j).Ok?)
      && (r.Ok? ==>
            && end <= r.value
            && (forall j :: i <= j < count && IsJumpSlot(relaOf(j).value) ==> SlotEnd(relaOf(j).value) <= r.value)
            && (r.value == end || exists j :: i <= j < count && IsJumpSlot(relaOf(j).value)
                                               && SlotEnd(relaOf(j).value) == r.value))
    decreases count - i
  {
    if i < count {
      var a := relaOf(i);
      if a.Ok? {
        var end' := if IsJumpSlot(a.value) then Max(end, SlotEnd(a.value)) else end;
        JumpSlotEndFromIsMax(relaOf, count, i + 1, end');
        var r := JumpSlotEndFrom(relaOf, count, i, end);
        assert r == JumpSlotEndFrom(relaOf, count, i + 1, end');
        if r.Ok? {
          if r.value != end && r.value == end' {
            assert IsJumpSlot(a.value) && SlotEnd(a.value) == r.value;
          }
          forall j | i <= j < count && IsJumpSlot(relaOf(j).value) ensures SlotEnd(relaOf(j).value) <= r.value {
            if j > i {
              assert i + 1 <= j;
            }
          }
        }
      } else {
        assert !relaOf(i).Ok?;
      }
    }
  }

  /** `jumpSlotAddrEnd` is 0 without `DT_JMPREL`; otherwise the walk over
      the `pltrelsz / 24` entries fails exactly when one cannot be read,
      and the result is the largest `(int)(Offset + 8)` among the
      `R_AARCH64_JUMP_SLOT` entries, or 0 when that is larger or there are
      none. */
  lemma JumpSlotEndIsMax(image: seq<byte>, jmprel: u64, pltrelsz: u64)
    ensures var r := JumpSlotEnd(image, jmprel, pltrelsz);
      var count := pltrelsz / ES.RELA_LENGTH;
      && (jmprel == 0 ==> r == Ok(0))
      && (jmprel != 0 ==>
            && (r.Ok? <==> forall j :: 0 <= j < count ==> RelaAt(image, jmprel, j).Ok?)
            && (r.Ok? ==>
                  && 0 <= r.value
                  && (forall j :: 0 <= j < count && IsJumpSlot(RelaAt(image, jmprel, j).value) ==>
                        SlotEnd(RelaAt(image, jmprel, j).value) <= r.value)
                  && (r.value == 0 || exists j :: 0 <= j < count && IsJumpSlot(RelaAt(image, jmprel, j).value)
                                                  && SlotEnd(RelaAt(image, jmprel, j).value) == r.value)))
  {
    if jmprel != 0 {
      var relaOf: RelaTable := (i: nat) => RelaAt(image, jmprel, i);
      JumpSlotEndFromIsMax(relaOf, pltrelsz / ES.RELA_LENGTH, 0, 0);
      assert forall j: nat :: relaOf(j) == RelaAt(image, jmprel, j);
    }
  }

  // ----------------------------------------------------------------- GOT

  /** The eight bytes of `BitConverter.GetBytes((ulong)DynOffset)`: a
      negative offset is sign-extended. */
  function GotNeedle(dynOffset: int): (r: seq<byte>)
    ensures |r| == 8 && Le(r) == dynOffset % TWO_64
  {
    LeToLe(dynOffset % TWO_64, 8);
    assert Pow256(8) == TWO_64;
    ToLe(dynOffset % TWO_64, 8)
  }

  /** `gotAddr`: with a jump-slot end, `memmem` for the dynamic offset in
      the image from that end on; the offset found is relative to the end,
      not to the image. */
  function GotAddr(image: seq<byte>, jumpSlotEnd: int, dynOffset: int): (r: Result<int, NsoFileError>)
    requires |image| < 0x8000_0000
    ensures jumpSlotEnd == 0 ==> r == Ok(0)
    ensures jumpSlotEnd != 0 ==> (r.Ok? <==> 0 <= jumpSlotEnd <= |image|)
    ensures jumpSlotEnd != 0 && r.Ok? ==>
      var hay := image[jumpSlotEnd..];
      && (forall o :: 0 <= o < r.value ==> !BS.Hit(hay, GotNeedle(dynOffset), None, 8, o))
      && (r.value != 0 ==> 0 < r.value < |hay| - 8 && BS.Hit(hay, GotNeedle(dynOffset), None, 8, r.value))
    ensures jumpSlotEnd != 0 && r == Ok(0) ==>
      var hay := image[jumpSlotEnd..];
      BS.Hit(hay, GotNeedle(dynOffset), None, 8, 0)
      || forall o :: 0 <= o < |hay| - 8 ==> !BS.Hit(hay, GotNeedle(dynOffset), None, 8, o)
  {
    if jumpSlotEnd == 0 then Ok(0)
    else if jumpSlotEnd < 0 || jumpSlotEnd > |image| then Err(ScanOutsideImage)
    else
      var hay := image[jumpSlotEnd..];
      if |hay| < 8 then
        assert BS.Search(hay, |hay|, GotNeedle(dynOffset), None, 8) == Ok(0) by { assert I32(|hay| - 8) <= 0; }
        Ok(0)
      else
        BS.SearchLowest(hay, |hay|, GotNeedle(dynOffset), None, 8);
        Lift(BS.Search(hay, |hay|, GotNeedle(dynOffset), None, 8))
  }

  // ---------------------------------------------------------- init / fini

  /** `ret`, as the `.init` scan looks for it. */
  const RET_INSTRUCTION: u32 := 0xd65f03c0

  /** The `.init` loop from byte position i: no bound but the end of the
      image, where reading the word throws. Positions advance by one byte,
      while the result counts them as 4-byte instructions. */
  function InitScanFrom(p: seq<byte>, i: nat): (r: Result<int, NsoFileError>)
    ensures r.Ok? ==> exists j :: i <= j && RetAt(p, j) && r.value == I32((j + 1) * 4)
    decreases |p| - i
  {
    if i + 4 > |p| then Err(ScanOutsideImage)
    else if ReadU32(p, i) == RET_INSTRUCTION then assert RetAt(p, i); Ok(I32((i + 1) * 4))
    else InitScanFrom(p, i + 1)
  }

  predicate RetAt(p: seq<byte>, j: nat) {
    j + 4 <= |p| && ReadU32(p, j) == RET_INSTRUCTION
  }

  /** The scan from i succeeds exactly when some later position holds
      `ret`, and then reports the first such position j as `(j + 1) * 4`. */
  lemma {:induction false} InitScanFromFinds(p: seq<byte>, i: nat)
    ensures var r := InitScanFrom(p, i);
      && (r.Ok? <==> exists j :: i <= j && RetAt(p, j))
      && (r.Ok? ==> exists j :: i <= j && RetAt(p, j) && r.value == I32((j + 1) * 4)
                               && forall q :: i <= q < j ==> !RetAt(p, q))
    decreases |p| - i
  {
    if i + 4 > |p| {
      assert forall j :: i <= j ==> !RetAt(p, j);
    } else if !RetAt(p, i) {
      InitScanFromFinds(p, i + 1);
      var r := InitScanFrom(p, i + 1);
      if r.Ok? {
        var j :| i + 1 <= j && RetAt(p, j) && r.value == I32((j + 1) * 4)
                 && forall q :: i + 1 <= q < j ==> !RetAt(p, q);
        assert forall q :: i <= q < j ==> !RetAt(p, q);
      } else {
        assert forall j :: i <= j ==> !RetAt(p, j) by {
          forall j | i <= j ensures !RetAt(p, j) {
            if j > i {
              assert i + 1 <= j;
            }
          }
        }
      }
    } else {
      assert i <= i && RetAt(p, i);
    }
  }

  /** `initRetOffset`: 0 without `DT_INIT`; otherwise the scan of the image
      from `(int)DT_INIT`. */
  function InitRetOffset(image: seq<byte>, init: u64): (r: Result<int, NsoFileError>)
    ensures init == 0 ==> r == Ok(0)
    ensures init != 0 && r.Ok? ==> 0 <= I32(init) <= |image| && r == InitScanFrom(image[I32(init)..], 0)
    ensures init != 0 ==>
      (r.Ok? <==> 0 <= I32(init) <= |image| && exists j: nat :: RetAt(image[I32(init)..], j))
    ensures init != 0 && r.Ok? ==>
      exists j: nat :: RetAt(image[I32(init)..], j) && r.value == I32((j + 1) * 4)
                  && forall q: nat :: q < j ==> !RetAt(image[I32(init)..], q)
  {
    if init == 0 then Ok(0)
    else
      var start := I32(init);
      if start < 0 || start > |image| then Err(ScanOutsideImage)
      else
        InitScanFromFinds(image[start..], 0);
        InitScanFrom(image[start..], 0)
  }

  /** `(word & 0xff000000) == 0x14000000`: the mask keeps exactly the top
      byte of the 32-bit word, which must be 0x14 (the opcode of an
      unconditional `b` with a zero high offset bit). */
  predicate BranchAt(p: seq<byte>, j: nat) {
    j + 4 <= |p| && ReadU32(p, j) / 0x100_0000 == 0x14
  }

  /** How many positions the `.fini` loop tries. */
  const FINI_SCAN_LIMIT: nat := 0x20

  /** The `.fini` loop from position i. */
  function FiniScanFrom(p: seq<byte>, i: nat): (r: Result<int, NsoFileError>)
    ensures r.Ok? ==> 0 <= r.value <= 4 * FINI_SCAN_LIMIT
    ensures r.Ok? && r.value != 0 ==> r.value % 4 == 0 && i < r.value / 4 && BranchAt(p, r.value / 4 - 1)
    decreases FINI_SCAN_LIMIT - i
  {
    if i >= FINI_SCAN_LIMIT then Ok(0)
    else if i + 4 > |p| then Err(ScanOutsideImage)
    else if BranchAt(p, i) then Ok((i + 1) * 4)
    else FiniScanFrom(p, i + 1)
  }

  /** The scan from i reports the first branch among positions
      [i, 0x20) as `(j + 1) * 4`, answers 0 when there is none, and fails
      when it reaches the end of the image first. */
  lemma FiniScanFromFinds(p: seq<byte>, i: nat)
    ensures var r := FiniScanFrom(p, i);
      && (r.Err? <==> i < FINI_SCAN_LIMIT && |p| < FINI_SCAN_LIMIT + 3
                      && forall q :: i <= q && q + 4 <= |p| ==> !BranchAt(p, q))
      && (r.Ok? && r.value == 0 ==> forall q :: i <= q < FINI_SCAN_LIMIT ==> !BranchAt(p, q))
      && (r.Ok? && r.value != 0 ==>
            exists j :: i <= j < FINI_SCAN_LIMIT && BranchAt(p, j) && r.value == (j + 1) * 4
                        && forall q :: i <= q < j ==> !BranchAt(p, q))
  {
    FiniScanFromFails(p, i);
    var r := FiniScanFrom(p, i);
    if r == Ok(0) {
      FiniScanFromNone(p, i);
    } else if r.Ok? {
      FiniScanFromFirst(p, i);
    }
  }

  /** The failing half of `FiniScanFromFinds`. */
  lemma {:induction false} FiniScanFromFails(p: seq<byte>, i: nat)
    ensures FiniScanFrom(p, i).Err? <==> i < FINI_SCAN_LIMIT && |p| < FINI_SCAN_LIMIT + 3
                                         && forall q :: i <= q && q + 4 <= |p| ==> !BranchAt(p, q)
    decreases FINI_SCAN_LIMIT - i
  {
    if i >= FINI_SCAN_LIMIT {
    } else if i + 4 > |p| {
      assert forall q :: i <= q ==> !BranchAt(p, q);
    } else if !BranchAt(p, i) {
      FiniScanFromFails(p, i + 1);
      assert FiniScanFrom(p, i) == FiniScanFrom(p, i + 1);
    } else {
      assert BranchAt(p, i);
    }
  }

  /** `FiniScanFromFinds` when the scan answers 0. */
  lemma {:induction false} FiniScanFromNone(p: seq<byte>, i: nat)
    requires FiniScanFrom(p, i) == Ok(0)
    ensures forall q :: i <= q < FINI_SCAN_LIMIT ==> !BranchAt(p, q)
    decreases FINI_SCAN_LIMIT - i
  {
    if i < FINI_SCAN_LIMIT {
      FiniScanFromNone(p, i + 1);
    }
  }

  /** `FiniScanFromFinds` when the scan answers a position. */
  lemma {:induction false} FiniScanFromFirst(p: seq<byte>, i: nat)
    requires FiniScanFrom(p, i).Ok? && FiniScanFrom(p, i).value != 0
    ensures exists j :: i <= j < FINI_SCAN_LIMIT && BranchAt(p, j) && FiniScanFrom(p, i).value == (j + 1) * 4
                        && forall q :: i <= q < j ==> !BranchAt(p, q)
    decreases FINI_SCAN_LIMIT - i
  {
    if BranchAt(p, i) {
      assert i <= i < FINI_SCAN_LIMIT && BranchAt(p, i);
    } else {
      FiniScanFromFirst(p, i + 1);
      var j :| i + 1 <= j < FINI_SCAN_LIMIT && BranchAt(p, j) && FiniScanFrom(p, i + 1).value == (j + 1) * 4
               && forall q :: i + 1 <= q < j ==> !BranchAt(p, q);
      assert forall q :: i <= q < j ==> !BranchAt(p, q);
    }
  }

  /** `finiBranchOffset`: 0 without `DT_FINI`; otherwise the scan of the
      image from `(int)DT_FINI`. */
  function FiniBranchOffset(image: seq<byte>, fini: u64): (r: Result<int, NsoFileError>)
    ensures fini == 0 ==> r == Ok(0)
    ensures fini != 0 && r.Ok? ==> 0 <= I32(fini) <= |image| && r == FiniScanFrom(image[I32(fini)..], 0)
    ensures r.Ok? ==> 0 <= r.value <= 4 * FINI_SCAN_LIMIT
    ensures fini != 0 ==>
      (r.Err? <==> I32(fini) < 0 || I32(fini) > |image|
                   || (|image| - I32(fini) < FINI_SCAN_LIMIT + 3
                       && forall q :: 0 <= q && q + 4 <= |image| - I32(fini) ==> !BranchAt(image[I32(fini)..], q)))
    ensures fini != 0 && r.Ok? && r.value == 0 ==>
      forall q :: 0 <= q < FINI_SCAN_LIMIT ==> !BranchAt(image[I32(fini)..], q)
    ensures fini != 0 && r.Ok? && r.value != 0 ==>
      exists j :: 0 <= j < FINI_SCAN_LIMIT && BranchAt(image[I32(fini)..], j) && r.value == (j + 1) * 4
                  && forall q :: 0 <= q < j ==> !BranchAt(image[I32(fini)..], q)
  {
    if fini == 0 then Ok(0)
    else
      var start := I32(fini);
      if start < 0 || start > |image| then Err(ScanOutsideImage)
      else
        FiniScanFromFinds(image[start..], 0);
        FiniScanFrom(image[start..], 0)
  }

  /** The masked test of the `.fini` scan looks only at the fourth byte of
      the little-endian word. */
  lemma BranchIsTopByte(p: seq<byte>, j: nat)
    requires j + 4 <= |p|
    ensures BranchAt(p, j) <==> p[j + 3] == 0x14
  {
    var w := ReadU32(p, j);
    var lo := p[j..j + 3];
    LeAppend(lo, [p[j + 3]]);
    assert p[j..j + 4] == lo + [p[j + 3]];
    assert Pow256(3) == 0x100_0000;
    assert Le([p[j + 3]]) == p[j + 3];
    DivModUnique(w, 0x100_0000, p[j + 3], Le(lo));
  }
}

=== FILE: nso_sections.dfy ===
/** The layout helpers of the NSO-to-ELF reconstruction (`NsoFile.ToElf`):
    the section header a virtual address belongs to (`vaddrToShdr`), the
    three `PT_LOAD` program headers, the virtual-address to file-offset
    mapping through them (`vaddr_to_foffset`), and the search for a free
    section-header slot (`insert_shdr`). */
module NsoSections {
  import opened Bytes
  import opened Results
  import opened ElfConstants
  import ES = ElfStructures
  import opened NsoStructures
  import opened StringTables

  /** `NsoSegmentType`. */
  const TEXT: nat := 0
  const RODATA: nat := 1
  const DATA: nat := 2

  // -------------------------------------------------------- vaddrToShdr

  function SegmentName(i: nat): string
    requires i < 3
  {
    if i == TEXT then ".text" else if i == RODATA then ".rodata" else ".data"
  }

  const BSS_NAME: string := ".bss"

  /** Section flags per segment; the flag bits are disjoint, so the
      source's `|` is a sum. */
  function SectionFlags(i: nat): u64
    requires i < 3
  {
    if i == TEXT then SHF_ALLOC + SHF_EXECINSTR else if i == RODATA then SHF_ALLOC else SHF_ALLOC + SHF_WRITE
  }

  /** `segment.MemoryOffset + segment.MemorySize`, a `uint` sum. */
  function SegmentEnd(seg: NsoSegment): u32 {
    (seg.MemoryOffset + seg.MemorySize) % TWO_32
  }

  predicate InSegment(seg: NsoSegment, v: u64) {
    seg.MemoryOffset <= v < SegmentEnd(seg)
  }

  /** The `.bss` range after the data segment, its end again a `uint` sum. */
  predicate InBss(seg: NsoSegment, v: u64) {
    SegmentEnd(seg) <= v < (SegmentEnd(seg) + seg.AlignOrTotalSz) % TWO_32
  }

  const BLANK_SHDR: ES.Shdr := ES.Shdr(0, 0, 0, 0, 0, 0, 0, 0, 0, 0)

  /** One iteration of the loop over the segments: a later match
      overwrites every field an earlier one set. */
  function ShdrStep(segs: seq<NsoSegment>, i: nat, v: u64, acc: (ES.Shdr, StringTable)): (r: (ES.Shdr, StringTable))
    requires |segs| == 3 && i < 3
    ensures StepNames(segs, i, v) == {} ==> r == acc
    ensures r.1.Entries.Keys == acc.1.Entries.Keys + StepNames(segs, i, v)
    ensures forall x :: x in acc.1.Entries ==> x in r.1.Entries && r.1.Entries[x] == acc.1.Entries[x]
  {
    var seg := segs[i];
    if InSegment(seg, v) then
      var t := AddString(acc.1, SegmentName(i));
      (acc.0.(Type := SHT_PROGBITS, Flags := SectionFlags(i), Name := GetOffset(t, SegmentName(i)),
              Addr := seg.MemoryOffset, Size := seg.MemorySize, AddrAlign := 8), t)
    else if i == DATA && InBss(seg, v) then
      var t := AddString(acc.1, BSS_NAME);
      (acc.0.(Name := GetOffset(t, BSS_NAME), Type := SHT_NOBITS, Flags := SHF_ALLOC + SHF_WRITE,
              Addr := SegmentEnd(seg), Size := seg.AlignOrTotalSz, AddrAlign := 8), t)
    else acc
  }

  /** `vaddrToShdr`: the header for a virtual address, and the section
      name table with the names of every segment that matched added. */
  function VaddrToShdr(segs: seq<NsoSegment>, t: StringTable, v: u64): (r: (ES.Shdr, StringTable))
    requires |segs| == 3
    ensures MatchedNames(segs, v) == {} ==> r == (BLANK_SHDR, t)
    ensures r.0.Type == SHT_NULL || r.0.Type == SHT_PROGBITS || r.0.Type == SHT_NOBITS
  {
    ShdrStep(segs, 2, v, ShdrStep(segs, 1, v, ShdrStep(segs, 0, v, (BLANK_SHDR, t))))
  }

  /** Where an address lands, the last match winning: data, then its
      `.bss`, then rodata, then text. */
  datatype SectionKind = InText | InRodata | InData | InDataBss | Unmapped

  function Classify(segs: seq<NsoSegment>, v: u64): (r: SectionKind)
    requires |segs| == 3
    ensures r == Unmapped <==> MatchedNames(segs, v) == {}
    ensures r == InText ==> InSegment(segs[TEXT], v) && MatchedNames(segs, v) == {SegmentName(TEXT)}
    ensures r == InRodata ==> InSegment(segs[RODATA], v) && SegmentName(RODATA) in MatchedNames(segs, v)
    ensures r == InData ==> InSegment(segs[DATA], v)
    ensures r == InDataBss ==> InBss(segs[DATA], v) && BSS_NAME in MatchedNames(segs, v)
  {
    if InSegment(segs[DATA], v) then InData
    else if InBss(segs[DATA], v) then InDataBss
    else if InSegment(segs[RODATA], v) then InRodata
    else if InSegment(segs[TEXT], v) then InText
    else Unmapped
  }

  /** The header each kind of address gets, naming the section by its
      offset in the given table. */
  function SectionHeader(segs: seq<NsoSegment>, kind: SectionKind, t: StringTable): (r: ES.Shdr)
    requires |segs| == 3
    ensures r.Type == SHT_NULL <==> kind == Unmapped
    ensures r.Type == SHT_NOBITS <==> kind == InDataBss
    ensures kind != Unmapped ==> r.AddrAlign == 8 && r.Offset == 0 && r.Link == 0 && r.Info == 0 && r.EntSize == 0
  {
    match kind
    case Unmapped => BLANK_SHDR
    case InDataBss =>
      ES.Shdr(GetOffset(t, BSS_NAME), SHT_NOBITS, SHF_ALLOC + SHF_WRITE, SegmentEnd(segs[DATA]), 0,
              segs[DATA].AlignOrTotalSz, 0, 0, 8, 0)
    case _ =>
      var i := if kind == InText then TEXT else if kind == InRodata then RODATA else DATA;
      ES.Shdr(GetOffset(t, SegmentName(i)), SHT_PROGBITS, SectionFlags(i), segs[i].MemoryOffset, 0,
              segs[i].MemorySize, 0, 0, 8, 0)
  }

  /** The names a lookup adds: one per matching segment, `.bss` for the
      range after data. */
  function MatchedNames(segs: seq<NsoSegment>, v: u64): set<string>
    requires |segs| == 3
  {
    (if InSegment(segs[TEXT], v) then {SegmentName(TEXT)} else {})
    + (if InSegment(segs[RODATA], v) then {SegmentName(RODATA)} else {})
    + (if InSegment(segs[DATA], v) then {SegmentName(DATA)}
       else if InBss(segs[DATA], v) then {BSS_NAME} else {})
  }

  /** The names step i adds. */
  function StepNames(segs: seq<NsoSegment>, i: nat, v: u64): set<string>
    requires |segs| == 3 && i < 3
  {
    if InSegment(segs[i], v) then {SegmentName(i)} else if i == DATA && InBss(segs[i], v) then {BSS_NAME} else {}
  }

  /** `vaddrToShdr`'s table gains exactly the names of the matching
      segments (and `.bss`) and keeps every earlier offset. */
  lemma VaddrToShdrNames(segs: seq<NsoSegment>, t: StringTable, v: u64)
    requires |segs| == 3
    ensures var t' := VaddrToShdr(segs, t, v).1;
      && t'.Entries.Keys == t.Entries.Keys + MatchedNames(segs, v)
      && (forall x :: x in t.Entries ==> GetOffset(t', x) == GetOffset(t, x))
  {
    var a0 := ShdrStep(segs, 0, v, (BLANK_SHDR, t));
    var a1 := ShdrStep(segs, 1, v, a0);
    assert MatchedNames(segs, v) == StepNames(segs, 0, v) + StepNames(segs, 1, v) + StepNames(segs, 2, v);
  }

  /** `vaddrToShdr` gives the header of the last segment (or `.bss`) that
      contains the address, named through the final table, and a blank
      header (type `SHT_NULL`) for an address outside all of them. */
  lemma VaddrToShdrClassifies(segs: seq<NsoSegment>, t: StringTable, v: u64)
    requires |segs| == 3
    ensures var (h, t') := VaddrToShdr(segs, t, v);
      && h == SectionHeader(segs, Classify(segs, v), t')
      && (Classify(segs, v) == Unmapped <==> h.Type == SHT_NULL)
  {
    var a0 := ShdrStep(segs, 0, v, (BLANK_SHDR, t));
    var a1 := ShdrStep(segs, 1, v, a0);
    var a2 := ShdrStep(segs, 2, v, a1);
    if InSegment(segs[DATA], v) || InBss(segs[DATA], v) {
    } else if InSegment(segs[RODATA], v) {
      assert a2 == a1;
    } else if InSegment(segs[TEXT], v) {
      assert a2 == a1 == a0;
    } else {
      assert a2 == a1 == a0 == (BLANK_SHDR, t);
    }
  }

  // ------------------------------------------------------------ PT_LOAD

  /** Program header flags per segment. */
  function SegmentPermissions(i: nat): u32
    requires i < 3
  {
    if i == TEXT then PF_R + PF_X else if i == RODATA then PF_R else PF_R + PF_W
  }

  /** The `PT_LOAD` header for segment i whose bytes start at file offset
      `cur` (an `int`, sign-extended to `ulong`). Only the data segment
      covers its `.bss` in memory, and it alone is aligned to 1. */
  function LoadPhdr(seg: NsoSegment, i: nat, cur: int): (r: ES.Phdr)
    requires i < 3
    ensures r.Type == PT_LOAD && r.VAddr == r.PAddr == seg.MemoryOffset && r.FileSize == seg.MemorySize
    ensures r.Offset == cur % TWO_64 && (0 <= cur < 0x8000_0000 ==> r.Offset == cur)
    ensures r.FileSize <= r.MemSize || i == DATA
  {
    ES.Phdr(PT_LOAD, SegmentPermissions(i), cur % TWO_64, seg.MemoryOffset, seg.MemoryOffset,
            seg.MemorySize,
            if i == DATA then (seg.MemorySize + seg.AlignOrTotalSz) % TWO_32 else seg.MemorySize,
            if i == DATA then 1 else seg.AlignOrTotalSz)
  }

  /** `data_offset_cur += (int)phdr.FileSize`, an `int` sum. */
  function NextCursor(cur: int, seg: NsoSegment): (r: int)
    ensures -0x8000_0000 <= r < 0x8000_0000
    ensures (r - (cur + seg.MemorySize)) % TWO_32 == 0
    ensures 0 <= cur && cur + seg.MemorySize < 0x8000_0000 ==> r == cur + seg.MemorySize
  {
    I32(cur + I32(seg.MemorySize))
  }

  /** The first three program headers, the segments' bytes laid out from
      `start` (the end of the section name table) on. */
  function LoadPhdrs(segs: seq<NsoSegment>, start: int): (r: seq<ES.Phdr>)
    requires |segs| == 3
    ensures |r| == 3
    ensures forall i :: 0 <= i < 3 ==> r[i].Type == PT_LOAD && r[i].VAddr == segs[i].MemoryOffset
                                       && r[i].FileSize == segs[i].MemorySize
    ensures 0 <= start < 0x8000_0000 ==> r[0].Offset == start
  {
    var c1 := NextCursor(start, segs[0]);
    var c2 := NextCursor(c1, segs[1]);
    [LoadPhdr(segs[0], 0, start), LoadPhdr(segs[1], 1, c1), LoadPhdr(segs[2], 2, c2)]
  }

  /** While the file stays below 2^31 bytes the three segments are laid
      out back to back from `start`: each starts where the previous one's
      file bytes end, and each maps its segment's memory range. */
  lemma LoadPhdrsContiguous(segs: seq<NsoSegment>, start: int)
    requires |segs| == 3
    requires 0 <= start && start + segs[0].MemorySize + segs[1].MemorySize + segs[2].MemorySize < 0x8000_0000
    ensures var ps := LoadPhdrs(segs, start);
      && ps[0].Offset == start
      && (forall i :: 0 <= i < 2 ==> ps[i + 1].Offset == ps[i].Offset + ps[i].FileSize)
      && (forall i :: 0 <= i < 3 ==>
            && ps[i].Type == PT_LOAD && ps[i].VAddr == ps[i].PAddr == segs[i].MemoryOffset
            && ps[i].FileSize == segs[i].MemorySize
            && ps[i].Flags == SegmentPermissions(i))
      && ps[2].MemSize == (segs[2].MemorySize + segs[2].AlignOrTotalSz) % TWO_32 && ps[2].Align == 1
      && (forall i :: 0 <= i < 2 ==> ps[i].MemSize == ps[i].FileSize && ps[i].Align == segs[i].AlignOrTotalSz)
  {
    I32Small(segs[0].MemorySize);
    I32Small(segs[1].MemorySize);
    I32Small(start + segs[0].MemorySize);
    I32Small(start + segs[0].MemorySize + segs[1].MemorySize);
  }

  // --------------------------------------------------- vaddr_to_foffset

  /** `vaddr >= phdr.VAddr && vaddr < phdr.VAddr + phdr.FileSize`, the sum
      in `ulong`. */
  predicate Maps(p: ES.Phdr, v: u64) {
    p.VAddr <= v < (p.VAddr + p.FileSize) % TWO_64
  }

  /** The loop of `vaddr_to_foffset` from header i on. */
  function FileOffsetFrom(phdrs: seq<ES.Phdr>, v: u64, i: nat): u64
    requires |phdrs| >= 3
    decreases 3 - i
  {
    if i >= 3 then 0
    else if Maps(phdrs[i], v) then (phdrs[i].Offset + (v - phdrs[i].VAddr)) % TWO_64
    else FileOffsetFrom(phdrs, v, i + 1)
  }

  /** `vaddr_to_foffset`: through the first of the three headers mapping
      the address, 0 when none does. */
  function VaddrToFileOffset(phdrs: seq<ES.Phdr>, v: u64): (r: u64)
    requires |phdrs| >= 3
    ensures (forall j :: 0 <= j < 3 ==> !Maps(phdrs[j], v)) ==> r == 0
    ensures forall j :: 0 <= j < 3 && Maps(phdrs[j], v) && (forall q :: 0 <= q < j ==> !Maps(phdrs[q], v)) ==>
              r == (phdrs[j].Offset + (v - phdrs[j].VAddr)) % TWO_64
  {
    FileOffsetFromFirst(phdrs, v, 0);
    FileOffsetFrom(phdrs, v, 0)
  }

  /** The first of the three headers that maps v, when there is one. */
  lemma {:induction false} FileOffsetFromFirst(phdrs: seq<ES.Phdr>, v: u64, i: nat)
    requires |phdrs| >= 3
    ensures var r := FileOffsetFrom(phdrs, v, i);
      && ((forall j :: i <= j < 3 ==> !Maps(phdrs[j], v)) ==> r == 0)
      && (forall j :: i <= j < 3 && Maps(phdrs[j], v) && (forall q :: i <= q < j ==> !Maps(phdrs[q], v)) ==>
            r == (phdrs[j].Offset + (v - phdrs[j].VAddr)) % TWO_64)
    decreases 3 - i
  {
    if i < 3 && !Maps(phdrs[i], v) {
      FileOffsetFromFirst(phdrs, v, i + 1);
      forall j | i <= j < 3 && Maps(phdrs[j], v) && (forall q :: i <= q < j ==> !Maps(phdrs[q], v))
        ensures FileOffsetFrom(phdrs, v, i) == (phdrs[j].Offset + (v - phdrs[j].VAddr)) % TWO_64
      {
        assert j != i;
        assert forall q :: i + 1 <= q < j ==> !Maps(phdrs[q], v);
      }
    }
  }

  /** A `PT_LOAD` header maps exactly its segment's memory range. */
  lemma MapsLoad(segs: seq<NsoSegment>, start: int, v: u64, j: nat)
    requires |segs| == 3 && j < 3
    ensures Maps(LoadPhdrs(segs, start)[j], v) <==> segs[j].MemoryOffset <= v < segs[j].MemoryOffset + segs[j].MemorySize
  {
    var p := LoadPhdrs(segs, start)[j];
    assert p.VAddr == segs[j].MemoryOffset && p.FileSize == segs[j].MemorySize;
    assert p.VAddr + p.FileSize < TWO_64;
  }

  /** Every `PT_LOAD` header starts below 2^31 while the file does. */
  lemma LoadOffsetsSmall(segs: seq<NsoSegment>, start: int, j: nat)
    requires |segs| == 3 && j < 3
    requires 0 <= start && start + segs[0].MemorySize + segs[1].MemorySize + segs[2].MemorySize < 0x8000_0000
    ensures LoadPhdrs(segs, start)[j].Offset < 0x8000_0000
  {
    LoadPhdrsContiguous(segs, start);
  }

  /** The first header that maps v decides its file offset. */
  lemma FirstMapping(phdrs: seq<ES.Phdr>, v: u64, i: nat)
    requires |phdrs| >= 3 && i < 3
    requires Maps(phdrs[i], v) && forall j :: 0 <= j < i ==> !Maps(phdrs[j], v)
    requires phdrs[i].Offset + (v - phdrs[i].VAddr) < TWO_64
    ensures VaddrToFileOffset(phdrs, v) == phdrs[i].Offset + (v - phdrs[i].VAddr)
  {
    FileOffsetFromFirst(phdrs, v, 0);
    assert VaddrToFileOffset(phdrs, v) == (phdrs[i].Offset + (v - phdrs[i].VAddr)) % TWO_64;
  }

  /** Through the `PT_LOAD` headers a virtual address in segment i, and in
      no earlier segment, maps to the segment's file start plus its
      distance from the segment's memory start. The memory ranges here are
      `ulong` sums, which do not wrap. */
  lemma FileOffsetOfLoad(segs: seq<NsoSegment>, start: int, v: u64, i: nat)
    requires |segs| == 3 && i < 3
    requires 0 <= start && start + segs[0].MemorySize + segs[1].MemorySize + segs[2].MemorySize < 0x8000_0000
    requires segs[i].MemoryOffset <= v < segs[i].MemoryOffset + segs[i].MemorySize
    requires forall j :: 0 <= j < i ==> !(segs[j].MemoryOffset <= v < segs[j].MemoryOffset + segs[j].MemorySize)
    ensures VaddrToFileOffset(LoadPhdrs(segs, start), v) == LoadPhdrs(segs, start)[i].Offset + (v - segs[i].MemoryOffset)
  {
    var ps := LoadPhdrs(segs, start);
    LoadOffsetsSmall(segs, start, i);
    MapsLoad(segs, start, v, 0);
    MapsLoad(segs, start, v, 1);
    MapsLoad(segs, start, v, 2);
    assert ps[i].VAddr == segs[i].MemoryOffset;
    assert ps[i].Offset + (v - ps[i].VAddr) < 0x8000_0000 + TWO_32;
    FirstMapping(ps, v, i);
  }

  /** An address outside every segment maps to file offset 0. */
  lemma FileOffsetUnmapped(segs: seq<NsoSegment>, start: int, v: u64)
    requires |segs| == 3
    requires forall j :: 0 <= j < 3 ==> !(segs[j].MemoryOffset <= v < segs[j].MemoryOffset + segs[j].MemorySize)
    ensures VaddrToFileOffset(LoadPhdrs(segs, start), v) == 0
  {
    MapsLoad(segs, start, v, 0);
    MapsLoad(segs, start, v, 1);
    MapsLoad(segs, start, v, 2);
    FileOffsetFromFirst(LoadPhdrs(segs, start), v, 0);
  }

  // --------------------------------------------------------- insert_shdr

  /** An entry of `knownSections`, in the dictionary's enumeration order. */
  datatype Known = Known(Key: u16, Header: ES.Shdr)

  /** `shdr.Addr >= known.Addr && shdr.Addr < known.Addr + known.Size`,
      the sum in `ulong`. */
  predicate Covers(h: ES.Shdr, addr: u64) {
    h.Addr <= addr < (h.Addr + h.Size) % TWO_64
  }

  /** The ordered start, scanning the known sections from index k with the
      current value `start`: each covering section moves it past its key. */
  function OrderedStartFrom(known: seq<Known>, addr: u64, k: nat, start: nat): (r: nat)
    ensures r == start || r >= 1
    decreases |known| - k
  {
    if k >= |known| then start
    else OrderedStartFrom(known, addr, k + 1, if Covers(known[k].Header, addr) then known[k].Key + 1 else start)
  }

  /** `start` of `insert_shdr`: 1, or for an ordered insert one past the
      key of the last known section covering the new address. */
  function InsertStart(known: seq<Known>, shdr: ES.Shdr, ordered: bool): (r: nat)
    ensures r >= 1
  {
    if ordered then OrderedStartFrom(known, shdr.Addr, 0, 1) else 1
  }

  /** The ordered start is one past the key of the last covering section,
      or the initial value when none covers. */
  lemma {:induction false} OrderedStartIsLastCover(known: seq<Known>, addr: u64, k: nat, start: nat)
    requires k <= |known|
    ensures var r := OrderedStartFrom(known, addr, k, start);
      || ((forall j :: k <= j < |known| ==> !Covers(known[j].Header, addr)) && r == start)
      || exists j :: k <= j < |known| && Covers(known[j].Header, addr) && r == known[j].Key + 1
                     && forall q :: j < q < |known| ==> !Covers(known[q].Header, addr)
    decreases |known| - k
  {
    if k < |known| {
      var s' := if Covers(known[k].Header, addr) then known[k].Key + 1 else start;
      OrderedStartIsLastCover(known, addr, k + 1, s');
      var r := OrderedStartFrom(known, addr, k, start);
      if (forall j :: k + 1 <= j < |known| ==> !Covers(known[j].Header, addr)) && r == s' {
        if Covers(known[k].Header, addr) {
          assert k <= k < |known| && r == known[k].Key + 1;
        }
      } else {
        var j :| k + 1 <= j < |known| && Covers(known[j].Header, addr) && r == known[j].Key + 1
                 && forall q :: j < q < |known| ==> !Covers(known[q].Header, addr);
        assert k <= j;
      }
    }
  }

  /** The section-header table as slots; `None` is a free slot. Slot 0 is
      the reserved null section. */
  type Slots = seq<Option<ES.Shdr>>

  /** The outcome: the slot taken (`SHN_UNDEF`, 0, when none), the table
      afterwards, and whether the ordering warning was printed. */
  datatype Insertion = Insertion(Index: nat, Slots: Slots, Warned: bool)

  /** `insert_shdr` as written: the free test looks at a freshly built
      blank header instead of slot i, so it always takes the first slot it
      tries, whatever that slot holds. */
  function InsertShdrAsWritten(slots: Slots, known: seq<Known>, shdr: ES.Shdr, ordered: bool): (r: Insertion)
    ensures InsertStart(known, shdr, ordered) < |slots| ==> r.Index == InsertStart(known, shdr, ordered)
    ensures r.Index != 0 ==> r.Index < |slots| && r.Slots == slots[r.Index := Some(shdr)]
    ensures r.Index == 0 ==> r.Slots == slots
  {
    var start := InsertStart(known, shdr, ordered);
    if start < |slots| then Insertion(start, slots[start := Some(shdr)], false)
    else if ordered && start != 1 then
      if 1 < |slots| then Insertion(1, slots[1 := Some(shdr)], true) else Insertion(0, slots, true)
    else Insertion(0, slots, false)
  }

  /** The lowest free slot at or after `from`. */
  function FirstFree(slots: Slots, from: nat): (r: Option<nat>)
    ensures r.Some? ==> from <= r.value < |slots|
    decreases |slots| - from
  {
    if from >= |slots| then None
    else if slots[from].None? then Some(from)
    else FirstFree(slots, from + 1)
  }

  lemma {:induction false} FirstFreeLowest(slots: Slots, from: nat)
    ensures var r := FirstFree(slots, from);
      && (r.None? <==> forall i :: from <= i < |slots| ==> slots[i].Some?)
      && (r.Some? ==> from <= r.value < |slots| && slots[r.value].None?
                      && forall i :: from <= i < r.value ==> slots[i].Some?)
    decreases |slots| - from
  {
    if from < |slots| && slots[from].Some? {
      FirstFreeLowest(slots, from + 1);
    }
  }

  /** The evident intent of `insert_shdr`: the lowest free slot from
      `start`, retried from 1 with a warning when an ordered insert finds
      none. */
  function IntendedInsertion(slots: Slots, known: seq<Known>, shdr: ES.Shdr, ordered: bool): Insertion {
    var start := InsertStart(known, shdr, ordered);
    match FirstFree(slots, start)
    case Some(i) => Insertion(i, slots[i := Some(shdr)], false)
    case None =>
      if ordered && start != 1 then
        match FirstFree(slots, 1)
        case Some(i) => Insertion(i, slots[i := Some(shdr)], true)
        case None => Insertion(0, slots, true)
      else Insertion(0, slots, false)
  }

  /** `insert_shdr` with the free test reading slot i: the `retry` loop. */
  method InsertShdr(slots: Slots, known: seq<Known>, shdr: ES.Shdr, ordered: bool) returns (r: Insertion)
    ensures r == IntendedInsertion(slots, known, shdr, ordered)
  {
    var start := InsertStart(known, shdr, ordered);
    var warned := false;
    while true
      invariant start >= 1
      invariant !warned ==> start == InsertStart(known, shdr, ordered)
      invariant warned ==> start == 1 && ordered && InsertStart(known, shdr, ordered) != 1
                           && FirstFree(slots, InsertStart(known, shdr, ordered)).None?
      decreases if warned then 0 else 1
    {
      var i := start;
      while i < |slots|
        invariant start <= i
        invariant FirstFree(slots, start) == FirstFree(slots, i)
      {
        if slots[i].None? {
          return Insertion(i, slots[i := Some(shdr)], warned);
        }
        i := i + 1;
      }
      assert FirstFree(slots, start).None?;
      if ordered && start != 1 && !warned {
        start := 1;
        warned := true;
      } else {
        return Insertion(0, slots, warned);
      }
    }
  }

  /** The intended insertion never overwrites a header and never takes the
      null slot 0: it fills the lowest free slot from `start`, or after
      the warning the lowest free slot from 1, and answers 0 with the
      table unchanged when there is none. */
  lemma IntendedInsertionFillsFreeSlot(slots: Slots, known: seq<Known>, shdr: ES.Shdr, ordered: bool)
    ensures var r := IntendedInsertion(slots, known, shdr, ordered);
      var start := InsertStart(known, shdr, ordered);
      && (r.Index != 0 ==>
            && 1 <= r.Index < |slots| && slots[r.Index].None? && r.Slots == slots[r.Index := Some(shdr)]
            && forall i :: (if r.Warned then 1 else start) <= i < r.Index ==> slots[i].Some?)
      && (r.Index == 0 ==> r.Slots == slots && forall i :: 1 <= i < |slots| && (start <= i || r.Warned) ==> slots[i].Some?)
      && (r.Warned <==> ordered && start != 1 && forall i :: start <= i < |slots| ==> slots[i].Some?)
  {
    var start := InsertStart(known, shdr, ordered);
    assert start >= 1 by {
      if ordered {
        OrderedStartIsLastCover(known, shdr.Addr, 0, 1);
      }
    }
    FirstFreeLowest(slots, start);
    FirstFreeLowest(slots, 1);
  }

  /** With slot 1 already holding a header and slot 2 free, an unordered
      insert as written overwrites slot 1, while the intended one takes
      slot 2 and keeps the earlier header. */
  lemma InsertShdrOverwrites(h: ES.Shdr, s: ES.Shdr)
    ensures InsertShdrAsWritten([None, Some(h), None], [], s, false) == Insertion(1, [None, Some(s), None], false)
    ensures IntendedInsertion([None, Some(h), None], [], s, false) == Insertion(2, [None, Some(h), Some(s)], false)
  {
    assert FirstFree([None, Some(h), None], 1) == Some(2);
  }
}

=== FILE: nso_structures.dfy ===
/** The NSO container's fixed records: the 64-bit packing of an
    (offset, size) extent, the 16-byte segment descriptor and the 0x100-byte
    header. Everything is little-endian. */
module NsoStructures {
  import opened Bytes
  import opened Results
  import opened Layout

  // ---------------------------------------------------------- DataExtent

  datatype DataExtent = DataExtent(Offset: u32, Size: u32)

  /** `(ulong)e`: both words are written into an 8-byte buffer, which is
      then read back as one 64-bit value. */
  function ExtentToU64(e: DataExtent): (r: u64)
    ensures r == e.Offset + e.Size * TWO_32
  {
    var buffer := ToLe(e.Offset, 4) + ToLe(e.Size, 4);
    LeWords(ToLe(e.Offset, 4), ToLe(e.Size, 4));
    assert Pow256(4) == TWO_32;
    LeToLeFits(e.Offset, 4);
    LeToLeFits(e.Size, 4);
    assert buffer[0..8] == buffer;
    ReadU64(buffer, 0)
  }

  /** `(DataExtent)l`: the value is written into an 8-byte buffer, whose
      two halves are read back as the offset and the size. */
  function ExtentFromU64(l: u64): (e: DataExtent)
    ensures e.Offset == l % TWO_32 && e.Size == l / TWO_32
  {
    var buffer := ToLe(l, 8);
    ToLeWords(l);
    assert Pow256(4) == TWO_32;
    LeToLe(l, 4);
    LeToLeFits(l / TWO_32, 4);
    assert buffer[0..4] == ToLe(l, 4);
    assert buffer[4..8] == ToLe(l / TWO_32, 4);
    DataExtent(ReadU32(buffer, 0), ReadU32(buffer, 4))
  }

  lemma ExtentRoundTrip(e: DataExtent)
    ensures ExtentFromU64(ExtentToU64(e)) == e
  {
    var l := e.Offset + e.Size * TWO_32;
    DivModUnique(l, TWO_32, e.Size, e.Offset);
  }

  lemma U64RoundTrip(l: u64)
    ensures ExtentToU64(ExtentFromU64(l)) == l
  {
  }

  // ---------------------------------------------------------- NsoSegment

  datatype NsoSegment = NsoSegment(FileOffset: u32, MemoryOffset: u32, MemorySize: u32,
                                   AlignOrTotalSz: u32)

  const SEGMENT_LENGTH: nat := 16

  /** `ToByteArray`: the four words at 0, 4, 8 and 12. */
  function SegmentToBytes(s: NsoSegment): (r: seq<byte>)
    ensures |r| == SEGMENT_LENGTH
  {
    ToLe(s.FileOffset, 4) + ToLe(s.MemoryOffset, 4) + ToLe(s.MemorySize, 4)
      + ToLe(s.AlignOrTotalSz, 4)
  }

  /** The span reader: each word from a 4-byte slice at 0, 4, 8 and 12. */
  function ReadSegment(data: seq<byte>): (r: Option<NsoSegment>)
    ensures r.None? <==> |data| < SEGMENT_LENGTH
  {
    if |data| < SEGMENT_LENGTH then None
    else Some(NsoSegment(ReadU32(data, 0), ReadU32(data, 4), ReadU32(data, 8), ReadU32(data, 12)))
  }

  /** One `ReadNextUInt32`: the word at the cursor and the advanced cursor. */
  function ReadNextU32(data: seq<byte>, pos: nat): (r: Option<(u32, nat)>)
    ensures r.None? <==> pos + 4 > |data|
    ensures r.Some? ==> r.value.0 == ReadU32(data, pos) && r.value.1 == pos + 4
  {
    if pos + 4 > |data| then None else Some((ReadU32(data, pos), pos + 4))
  }

  /** The accessor reader: the cursor is reset to 0, then four words are
      read one after another. */
  function ReadSegmentAccessor(data: seq<byte>): (r: Option<NsoSegment>)
  {
    var a := ReadNextU32(data, 0);
    if a.None? then None
    else
      var b := ReadNextU32(data, a.value.1);
      if b.None? then None
      else
        var c := ReadNextU32(data, b.value.1);
        if c.None? then None
        else
          var d := ReadNextU32(data, c.value.1);
          if d.None? then None
          else Some(NsoSegment(a.value.0, b.value.0, c.value.0, d.value.0))
  }

  /** The cursor reader and the span reader agree on every buffer. */
  lemma SegmentReadersAgree(data: seq<byte>)
    ensures ReadSegmentAccessor(data) == ReadSegment(data)
  {
  }

  /** Reading a serialised descriptor, whatever follows it, gives it back. */
  lemma SegmentRoundTrip(s: NsoSegment, rest: seq<byte>)
    ensures ReadSegment(SegmentToBytes(s) + rest) == Some(s)
  {
    var b := SegmentToBytes(s) + rest;
    assert b[0..4] == ToLe(s.FileOffset, 4);
    assert b[4..8] == ToLe(s.MemoryOffset, 4);
    assert b[8..12] == ToLe(s.MemorySize, 4);
    assert b[12..16] == ToLe(s.AlignOrTotalSz, 4);
    assert Pow256(4) == TWO_32;
    LeToLeFits(s.FileOffset, 4);
    LeToLeFits(s.MemoryOffset, 4);
    LeToLeFits(s.MemorySize, 4);
    LeToLeFits(s.AlignOrTotalSz, 4);
  }

  /** Serialising a descriptor that was read gives its 16 bytes back. */
  lemma SegmentBytesBack(w: seq<byte>)
    requires |w| == SEGMENT_LENGTH
    ensures SegmentToBytes(ReadSegment(w).value) == w
  {
    ToLeLe(w[0..4]);
    ToLeLe(w[4..8]);
    ToLeLe(w[8..12]);
    ToLeLe(w[12..16]);
    assert w == w[0..4] + w[4..8] + w[8..12] + w[12..16];
  }

  /** The words of a serialised segment sit at 0, 4, 8 and 12. */
  lemma SegmentLayout(s: NsoSegment)
    ensures var b := SegmentToBytes(s);
      && ReadU32(b, 0) == s.FileOffset && ReadU32(b, 4) == s.MemoryOffset
      && ReadU32(b, 8) == s.MemorySize && ReadU32(b, 12) == s.AlignOrTotalSz
  {
    SegmentRoundTrip(s, []);
    assert SegmentToBytes(s) + [] == SegmentToBytes(s);
  }

  // ----------------------------------------------------------- NsoHeader

  datatype NsoHeader = NsoHeader(
    Magic: seq<byte>, Unk1: u32, Unk2: u32, Unk3: u32,
    Segments: seq<NsoSegment>, BuildId: seq<byte>, SegmentFileSizes: seq<u32>,
    Padding: seq<byte>, DynStr: DataExtent, DynSym: DataExtent, Hashes: seq<seq<byte>>)

  const NSO_HEADER_LENGTH: nat := 0x10 + 0x30 + 0x20 + 12 + 0x24 + 16 + 3 * 0x20

  /** Every array field has the length the format declares. */
  predicate WellSized(h: NsoHeader) {
    && |h.Magic| == 4 && |h.Segments| == 3 && |h.BuildId| == 0x20
    && |h.SegmentFileSizes| == 3 && |h.Padding| == 0x24
    && |h.Hashes| == 3 && forall i :: 0 <= i < 3 ==> |h.Hashes[i]| == 0x20
  }

  /** The ASCII bytes of "NSO0". */
  const NSO_MAGIC: seq<byte> := [0x4e, 0x53, 0x4f, 0x30]

  /** The default constructor. */
  function DefaultNsoHeader(): (h: NsoHeader)
    ensures WellSized(h)
    ensures h.Magic == NSO_MAGIC && h.Unk3 == 0x3f && h.Unk1 == 0 && h.Unk2 == 0
    ensures forall i :: 0 <= i < 0x20 ==> h.BuildId[i] == 0
    ensures forall i :: 0 <= i < 0x24 ==> h.Padding[i] == 0
    ensures forall i, j :: 0 <= i < 3 && 0 <= j < 0x20 ==> h.Hashes[i][j] == 0
    ensures forall i :: 0 <= i < 3 ==> h.Segments[i] == NsoSegment(0, 0, 0, 0)
    ensures forall i :: 0 <= i < 3 ==> h.SegmentFileSizes[i] == 0
  {
    var zero := NsoSegment(0, 0, 0, 0);
    NsoHeader(NSO_MAGIC, 0, 0, 0x3f, [zero, zero, zero], Zeros(0x20), [0, 0, 0],
              Zeros(0x24), DataExtent(0, 0), DataExtent(0, 0),
              [Zeros(0x20), Zeros(0x20), Zeros(0x20)])
  }

  function SegmentParts(segs: seq<NsoSegment>): (r: seq<seq<byte>>)
    ensures |r| == |segs| && forall i :: 0 <= i < |segs| ==> r[i] == SegmentToBytes(segs[i])
  {
    seq(|segs|, i requires 0 <= i < |segs| => SegmentToBytes(segs[i]))
  }

  function WordParts(ws: seq<u32>): (r: seq<seq<byte>>)
    ensures |r| == |ws| && forall i :: 0 <= i < |ws| ==> r[i] == ToLe(ws[i], 4)
  {
    seq(|ws|, i requires 0 <= i < |ws| => ToLe(ws[i], 4))
  }

  /** The pieces `ToByteArray` appends, in order. */
  function HeaderParts(h: NsoHeader): seq<seq<byte>> {
    [h.Magic, ToLe(h.Unk1, 4), ToLe(h.Unk2, 4), ToLe(h.Unk3, 4)]
      + SegmentParts(h.Segments) + [h.BuildId] + WordParts(h.SegmentFileSizes)
      + [h.Padding, ToLe(ExtentToU64(h.DynStr), 8), ToLe(ExtentToU64(h.DynSym), 8)]
      + h.Hashes
  }

  /** `ToByteArray`: every field appended to a growing list. */
  function NsoHeaderToBytes(h: NsoHeader): (r: seq<byte>)
    ensures WellSized(h) ==> |r| == NSO_HEADER_LENGTH
  {
    var r := Concat(HeaderParts(h));
    if WellSized(h) then HeaderPartWidths(h); r else r
  }

  /** Widths of the seventeen pieces of a well-sized header. */
  const HEADER_WIDTHS: seq<nat> := [4, 4, 4, 4, 16, 16, 16, 32, 4, 4, 4, 36, 8, 8, 32, 32, 32]

  lemma HeaderPartWidths(h: NsoHeader)
    requires WellSized(h)
    ensures |HeaderParts(h)| == 17
    ensures Widths(HeaderParts(h)) == HEADER_WIDTHS
    ensures Sum(HEADER_WIDTHS) == NSO_HEADER_LENGTH
  {
    var ps := HeaderParts(h);
    assert |ps| == 17;
    forall k | 0 <= k < 17
      ensures Widths(ps)[k] == HEADER_WIDTHS[k]
    {
    }
    HeaderOffsets();
  }

  lemma HeaderOffsets()
    ensures Sum(HEADER_WIDTHS) == NSO_HEADER_LENGTH
    ensures Off(HEADER_WIDTHS, 1) == 4 && Off(HEADER_WIDTHS, 2) == 8 && Off(HEADER_WIDTHS, 3) == 12
    ensures Off(HEADER_WIDTHS, 4) == 0x10 && Off(HEADER_WIDTHS, 5) == 0x20
    ensures Off(HEADER_WIDTHS, 6) == 0x30 && Off(HEADER_WIDTHS, 7) == 0x40
    ensures Off(HEADER_WIDTHS, 8) == 0x60 && Off(HEADER_WIDTHS, 9) == 0x64
    ensures Off(HEADER_WIDTHS, 10) == 0x68 && Off(HEADER_WIDTHS, 11) == 0x6c
    ensures Off(HEADER_WIDTHS, 12) == 0x90 && Off(HEADER_WIDTHS, 13) == 0x98
    ensures Off(HEADER_WIDTHS, 14) == 0xa0 && Off(HEADER_WIDTHS, 15) == 0xc0
    ensures Off(HEADER_WIDTHS, 16) == 0xe0
  {
    var w := HEADER_WIDTHS;
    assert Off(w, 1) == 4;
    assert Off(w, 2) == 8;
    assert Off(w, 3) == 12;
    assert Off(w, 4) == 16;
    assert Off(w, 5) == 32;
    assert Off(w, 6) == 48;
    assert Off(w, 7) == 64;
    assert Off(w, 8) == 96;
    assert Off(w, 9) == 100;
    assert Off(w, 10) == 104;
    assert Off(w, 11) == 108;
    assert Off(w, 12) == 144;
    assert Off(w, 13) == 152;
    assert Off(w, 14) == 160;
    assert Off(w, 15) == 192;
    assert Off(w, 16) == 224;
    assert Off(w, 17) == 256;
    assert Sum(w) == Off(w, 17);
  }

  /** Where `ToByteArray` puts each field of a well-sized header. */
  lemma HeaderLayout(h: NsoHeader)
    requires WellSized(h)
    ensures var b := NsoHeaderToBytes(h);
      && |b| == NSO_HEADER_LENGTH
      && b[0..4] == h.Magic
      && b[4..8] == ToLe(h.Unk1, 4) && b[8..12] == ToLe(h.Unk2, 4) && b[12..16] == ToLe(h.Unk3, 4)
      && b[0x10..0x20] == SegmentToBytes(h.Segments[0])
      && b[0x20..0x30] == SegmentToBytes(h.Segments[1])
      && b[0x30..0x40] == SegmentToBytes(h.Segments[2])
      && b[0x40..0x60] == h.BuildId
      && b[0x60..0x64] == ToLe(h.SegmentFileSizes[0], 4)
      && b[0x64..0x68] == ToLe(h.SegmentFileSizes[1], 4)
      && b[0x68..0x6c] == ToLe(h.SegmentFileSizes[2], 4)
      && b[0x6c..0x90] == h.Padding
      && b[0x90..0x98] == ToLe(ExtentToU64(h.DynStr), 8)
      && b[0x98..0xa0] == ToLe(ExtentToU64(h.DynSym), 8)
      && b[0xa0..0xc0] == h.Hashes[0] && b[0xc0..0xe0] == h.Hashes[1]
      && b[0xe0..0x100] == h.Hashes[2]
  {
    var ps := HeaderParts(h);
    var w := HEADER_WIDTHS;
    HeaderPartWidths(h);
    HeaderOffsets();
    PartAt(ps, w, 0, 0); PartAt(ps, w, 1, 4); PartAt(ps, w, 2, 8); PartAt(ps, w, 3, 12);
    PartAt(ps, w, 4, 0x10); PartAt(ps, w, 5, 0x20); PartAt(ps, w, 6, 0x30);
    PartAt(ps, w, 7, 0x40); PartAt(ps, w, 8, 0x60); PartAt(ps, w, 9, 0x64);
    PartAt(ps, w, 10, 0x68); PartAt(ps, w, 11, 0x6c); PartAt(ps, w, 12, 0x90);
    PartAt(ps, w, 13, 0x98); PartAt(ps, w, 14, 0xa0); PartAt(ps, w, 15, 0xc0);
    PartAt(ps, w, 16, 0xe0);
  }

  /** Why the constructor that reads a header gives up. */
  datatype HeaderError = ReadPastEnd | IndexIntoEmptyList

  /** The header reader as written. The cursor reads Magic through dynsym
      and then, for `Hashes[0] = accessor.ReadNextArray(0x20)`, reads the
      first hash before the indexer of the list (created with capacity 3
      but no elements) throws. So it always fails: by reading past the end
      when the data stops before the end of the first hash, and by
      indexing the empty list otherwise. */
  function ReadNsoHeaderAsWritten(data: seq<byte>): (r: Result<NsoHeader, HeaderError>)
    ensures r.Err?
    ensures r.error == ReadPastEnd <==> |data| < Off(HEADER_WIDTHS, 15)
    ensures ReadNsoHeader(data).Some? ==> r == Err(IndexIntoEmptyList)
  {
    // Magic, Unk1..3, three descriptors, BuildId, three sizes, Padding,
    // dynstr and dynsym, in cursor order.
    var hashesStart := 4 + 3 * 4 + 3 * SEGMENT_LENGTH + 0x20 + 3 * 4 + 0x24 + 8 + 8;
    HeaderOffsets();
    if |data| < hashesStart + 0x20 then Err(ReadPastEnd)
    else Err(IndexIntoEmptyList)
  }

  /** The reader with the hashes appended instead: the same fields, widths
      and order as `ToByteArray`. */
  function ReadNsoHeader(data: seq<byte>): (r: Option<NsoHeader>)
    ensures r.None? <==> |data| < NSO_HEADER_LENGTH
    ensures r.Some? ==> WellSized(r.value)
  {
    if |data| < NSO_HEADER_LENGTH then None
    else
      Some(NsoHeader(
        data[0..4], ReadU32(data, 4), ReadU32(data, 8), ReadU32(data, 12),
        [ReadSegment(data[0x10..0x20]).value, ReadSegment(data[0x20..0x30]).value,
         ReadSegment(data[0x30..0x40]).value],
        data[0x40..0x60],
        [ReadU32(data, 0x60), ReadU32(data, 0x64), ReadU32(data, 0x68)],
        data[0x6c..0x90],
        ExtentFromU64(ReadU64(data, 0x90)), ExtentFromU64(ReadU64(data, 0x98)),
        [data[0xa0..0xc0], data[0xc0..0xe0], data[0xe0..0x100]]))
  }

  /** Reading a serialised well-sized header gives it back. */
  lemma NsoHeaderRoundTrip(h: NsoHeader)
    requires WellSized(h)
    ensures ReadNsoHeader(NsoHeaderToBytes(h)) == Some(h)
  {
    HeaderWordsRead(h);
    HeaderBlocksRead(h);
  }

  /** The word-sized fields of a serialised header read back. */
  lemma HeaderWordsRead(h: NsoHeader)
    requires WellSized(h)
    ensures var r := ReadNsoHeader(NsoHeaderToBytes(h)).value;
      && r.Unk1 == h.Unk1 && r.Unk2 == h.Unk2 && r.Unk3 == h.Unk3
      && r.SegmentFileSizes == h.SegmentFileSizes
      && r.DynStr == h.DynStr && r.DynSym == h.DynSym
  {
    HeaderLayout(h);
    var r := ReadNsoHeader(NsoHeaderToBytes(h)).value;
    assert Pow256(4) == TWO_32;
    assert Pow256(8) == TWO_64;
    assert r.Unk1 == h.Unk1 by { LeToLeFits(h.Unk1, 4); }
    assert r.Unk2 == h.Unk2 by { LeToLeFits(h.Unk2, 4); }
    assert r.Unk3 == h.Unk3 by { LeToLeFits(h.Unk3, 4); }
    assert r.SegmentFileSizes == h.SegmentFileSizes by {
      LeToLeFits(h.SegmentFileSizes[0], 4);
      LeToLeFits(h.SegmentFileSizes[1], 4);
      LeToLeFits(h.SegmentFileSizes[2], 4);
    }
    assert r.DynStr == h.DynStr by {
      LeToLeFits(ExtentToU64(h.DynStr), 8);
      ExtentRoundTrip(h.DynStr);
    }
    assert r.DynSym == h.DynSym by {
      LeToLeFits(ExtentToU64(h.DynSym), 8);
      ExtentRoundTrip(h.DynSym);
    }
  }

  /** The byte blocks and descriptors of a serialised header read back. */
  lemma HeaderBlocksRead(h: NsoHeader)
    requires WellSized(h)
    ensures var r := ReadNsoHeader(NsoHeaderToBytes(h)).value;
      && r.Magic == h.Magic && r.Segments == h.Segments && r.BuildId == h.BuildId
      && r.Padding == h.Padding && r.Hashes == h.Hashes
  {
    HeaderLayout(h);
    var r := ReadNsoHeader(NsoHeaderToBytes(h)).value;
    assert r.Segments == h.Segments by {
      SegmentRoundTrip(h.Segments[0], []);
      assert SegmentToBytes(h.Segments[0]) + [] == SegmentToBytes(h.Segments[0]);
      SegmentRoundTrip(h.Segments[1], []);
      assert SegmentToBytes(h.Segments[1]) + [] == SegmentToBytes(h.Segments[1]);
      SegmentRoundTrip(h.Segments[2], []);
      assert SegmentToBytes(h.Segments[2]) + [] == SegmentToBytes(h.Segments[2]);
    }
    assert r.Hashes == h.Hashes;
  }

  lemma SameWindow(data: seq<byte>, other: seq<byte>, a: nat, c: nat)
    requires a <= c <= NSO_HEADER_LENGTH <= |data| && NSO_HEADER_LENGTH <= |other|
    requires data[..NSO_HEADER_LENGTH] == other[..NSO_HEADER_LENGTH]
    ensures data[a..c] == other[a..c]
  {
    assert data[a..c] == data[..NSO_HEADER_LENGTH][a..c];
    assert other[a..c] == other[..NSO_HEADER_LENGTH][a..c];
  }

  /** Two buffers that agree on a window agree at each index in it. */
  lemma SameAt(a: seq<byte>, b: seq<byte>, lo: nat, hi: nat)
    requires lo <= hi <= |a| && hi <= |b| && a[lo..hi] == b[lo..hi]
    ensures forall k :: lo <= k < hi ==> a[k] == b[k]
  {
    forall k | lo <= k < hi ensures a[k] == b[k] {
      assert a[k] == a[lo..hi][k - lo];
      assert b[k] == b[lo..hi][k - lo];
    }
  }

  /** The offsets at which `ToByteArray` starts each field, and its end. */
  const HEADER_CUTS: seq<nat> :=
    [0, 4, 8, 12, 0x10, 0x20, 0x30, 0x40, 0x60, 0x64, 0x68, 0x6c, 0x90, 0x98, 0xa0, 0xc0, 0xe0, 0x100]

  /** Two 0x100-byte buffers equal on every field window are equal. */
  lemma SameByFields(b: seq<byte>, d: seq<byte>)
    requires |b| == NSO_HEADER_LENGTH && |d| == NSO_HEADER_LENGTH
    requires forall i :: 0 <= i < |HEADER_CUTS| - 1 ==>
      b[HEADER_CUTS[i]..HEADER_CUTS[i + 1]] == d[HEADER_CUTS[i]..HEADER_CUTS[i + 1]]
    ensures b == d
  {
    forall k | 0 <= k < NSO_HEADER_LENGTH ensures b[k] == d[k] {
      var i :| 0 <= i < |HEADER_CUTS| - 1 && HEADER_CUTS[i] <= k < HEADER_CUTS[i + 1];
      SameAt(b, d, HEADER_CUTS[i], HEADER_CUTS[i + 1]);
    }
  }

  /** The word and extent fields of the header just read serialise to the
      bytes they were read from. */
  lemma HeaderWordsBack(data: seq<byte>)
    requires |data| >= NSO_HEADER_LENGTH
    ensures var b := NsoHeaderToBytes(ReadNsoHeader(data).value);
      && b[4..8] == data[4..8] && b[8..12] == data[8..12] && b[12..16] == data[12..16]
      && b[0x60..0x64] == data[0x60..0x64] && b[0x64..0x68] == data[0x64..0x68]
      && b[0x68..0x6c] == data[0x68..0x6c]
      && b[0x90..0x98] == data[0x90..0x98] && b[0x98..0xa0] == data[0x98..0xa0]
  {
    var x := ReadNsoHeader(data).value;
    HeaderLayout(x);
    ToLeLe(data[4..8]);
    ToLeLe(data[8..12]);
    ToLeLe(data[12..16]);
    ToLeLe(data[0x60..0x64]);
    ToLeLe(data[0x64..0x68]);
    ToLeLe(data[0x68..0x6c]);
    U64RoundTrip(ReadU64(data, 0x90));
    ToLeLe(data[0x90..0x98]);
    U64RoundTrip(ReadU64(data, 0x98));
    ToLeLe(data[0x98..0xa0]);
  }

  /** The byte blocks and descriptors of the header just read serialise to
      the bytes they were read from. */
  lemma HeaderBlocksBack(data: seq<byte>)
    requires |data| >= NSO_HEADER_LENGTH
    ensures var b := NsoHeaderToBytes(ReadNsoHeader(data).value);
      && b[0..4] == data[0..4]
      && b[0x10..0x20] == data[0x10..0x20] && b[0x20..0x30] == data[0x20..0x30]
      && b[0x30..0x40] == data[0x30..0x40] && b[0x40..0x60] == data[0x40..0x60]
      && b[0x6c..0x90] == data[0x6c..0x90]
      && b[0xa0..0xc0] == data[0xa0..0xc0] && b[0xc0..0xe0] == data[0xc0..0xe0]
      && b[0xe0..0x100] == data[0xe0..0x100]
  {
    var x := ReadNsoHeader(data).value;
    HeaderLayout(x);
    SegmentBytesBack(data[0x10..0x20]);
    SegmentBytesBack(data[0x20..0x30]);
    SegmentBytesBack(data[0x30..0x40]);
  }

  /** Serialising the header just read reproduces the first 0x100 bytes. */
  lemma NsoHeaderBytesBack(data: seq<byte>)
    requires |data| >= NSO_HEADER_LENGTH
    ensures NsoHeaderToBytes(ReadNsoHeader(data).value) == data[..NSO_HEADER_LENGTH]
  {
    var b := NsoHeaderToBytes(ReadNsoHeader(data).value);
    var d := data[..NSO_HEADER_LENGTH];
    HeaderWordsBack(data);
    HeaderBlocksBack(data);
    forall i | 0 <= i < |HEADER_CUTS| - 1
      ensures b[HEADER_CUTS[i]..HEADER_CUTS[i + 1]] == d[HEADER_CUTS[i]..HEADER_CUTS[i + 1]]
    {
      assert d[HEADER_CUTS[i]..HEADER_CUTS[i + 1]] == data[HEADER_CUTS[i]..HEADER_CUTS[i + 1]];
    }
    SameByFields(b, d);
  }

  /** The corrected reader looks only at the first 0x100 bytes, and
      serialising what it read reproduces them. */
  lemma NsoHeaderPrefix(data: seq<byte>, other: seq<byte>)
    requires |data| >= NSO_HEADER_LENGTH && |other| >= NSO_HEADER_LENGTH
    requires data[..NSO_HEADER_LENGTH] == other[..NSO_HEADER_LENGTH]
    ensures ReadNsoHeader(data) == ReadNsoHeader(other)
    ensures NsoHeaderToBytes(ReadNsoHeader(data).value) == data[..NSO_HEADER_LENGTH]
  {
    NsoHeaderBytesBack(data);
    var x := ReadNsoHeader(data).value;
    var y := ReadNsoHeader(other).value;
    SameWindow(data, other, 0, 4);
    SameWindow(data, other, 4, 8);
    SameWindow(data, other, 8, 12);
    SameWindow(data, other, 12, 16);
    SameWindow(data, other, 0x10, 0x20);
    SameWindow(data, other, 0x20, 0x30);
    SameWindow(data, other, 0x30, 0x40);
    SameWindow(data, other, 0x40, 0x60);
    SameWindow(data, other, 0x60, 0x64);
    SameWindow(data, other, 0x64, 0x68);
    SameWindow(data, other, 0x68, 0x6c);
    SameWindow(data, other, 0x6c, 0x90);
    SameWindow(data, other, 0x90, 0x98);
    SameWindow(data, other, 0x98, 0xa0);
    SameWindow(data, other, 0xa0, 0xc0);
    SameWindow(data, other, 0xc0, 0xe0);
    SameWindow(data, other, 0xe0, 0x100);
    assert x.Segments == y.Segments;
    assert x.SegmentFileSizes == y.SegmentFileSizes;
    assert x.Hashes == y.Hashes;
  }

  /** Whatever follows a serialised header, reading gives the header back. */
  lemma NsoHeaderReadBackPrefix(h: NsoHeader, rest: seq<byte>)
    requires WellSized(h)
    ensures ReadNsoHeader(NsoHeaderToBytes(h) + rest) == Some(h)
  {
    var bytes := NsoHeaderToBytes(h);
    NsoHeaderRoundTrip(h);
    assert (bytes + rest)[..NSO_HEADER_LENGTH] == bytes[..NSO_HEADER_LENGTH];
    NsoHeaderPrefix(bytes + rest, bytes);
  }

  /** The as-written reader cannot read back even the default header. */
  lemma NsoHeaderAsWrittenFails()
    ensures ReadNsoHeaderAsWritten(NsoHeaderToBytes(DefaultNsoHeader())).Err?
    ensures ReadNsoHeader(NsoHeaderToBytes(DefaultNsoHeader())) == Some(DefaultNsoHeader())
  {
    NsoHeaderRoundTrip(DefaultNsoHeader());
  }
}

=== FILE: results.dfy ===
/** Optional values and success/error outcomes shared by every component.
    The C# code signals failures by throwing; here every such throw becomes
    an explicit error value. */
module Results {

  datatype Option<+T> = None | Some(value: T)

  datatype Result<+T, +E> = Ok(value: T) | Err(error: E) {
    predicate IsFailure() { Err? }

    function PropagateFailure<U>(): Result<U, E>
      requires Err?
    {
      Err(error)
    }

    function Extract(): T
      requires Ok?
    {
      value
    }
  }
}

=== FILE: string_table.dfy ===
/** The section-name string table the NSO-to-ELF reconstruction builds
    (`NsoFile.StringTable`): each distinct name is given the current
    watermark as its offset and the watermark moves past the name and its
    terminating NUL; the watermark is a 32-bit `uint`. */
module StringTables {
  import opened Bytes

  datatype StringTable = StringTable(Entries: map<string, u32>, Watermark: u32)

  /** `AddString`: a name already present changes nothing. */
  function AddString(t: StringTable, s: string): (r: StringTable)
    ensures s in r.Entries && r.Entries.Keys == t.Entries.Keys + {s}
    ensures s in t.Entries ==> r == t
    ensures s !in t.Entries ==> r.Entries[s] == t.Watermark
    ensures forall x :: x in t.Entries ==> x in r.Entries && r.Entries[x] == t.Entries[x]
  {
    if s in t.Entries then t
    else StringTable(t.Entries[s := t.Watermark], (t.Watermark + |s| + 1) % TWO_32)
  }

  /** The constructor: an empty table, then `AddString("")`. */
  function NewStringTable(): (r: StringTable)
    ensures r.Entries == map["" := 0] && r.Watermark == 1
  {
    AddString(StringTable(map[], 0), "")
  }

  /** `GetOffset` (`GetValueOrDefault`): 0 for a name never added. */
  function GetOffset(t: StringTable, s: string): (r: u32)
    ensures s in t.Entries ==> r == t.Entries[s]
    ensures s !in t.Entries ==> r == 0
  {
    if s in t.Entries then t.Entries[s] else 0
  }

  /** A name's slot: its characters and the NUL after them. */
  function SlotEnd(t: StringTable, s: string): int
    requires s in t.Entries
  {
    t.Entries[s] + |s| + 1
  }

  /** Every slot lies below the watermark and no two slots overlap. */
  ghost predicate WellLaid(t: StringTable) {
    && (forall a :: a in t.Entries ==> SlotEnd(t, a) <= t.Watermark)
    && (forall a, b :: a in t.Entries && b in t.Entries && a != b ==>
          SlotEnd(t, a) <= t.Entries[b] || SlotEnd(t, b) <= t.Entries[a])
  }

  /** The new table is laid out, and "" sits at offset 0. */
  lemma NewStringTableLaid()
    ensures WellLaid(NewStringTable())
    ensures GetOffset(NewStringTable(), "") == 0
  {
  }

  /** Adding a name keeps the layout as long as the watermark does not
      wrap around 2^32. */
  lemma AddStringKeepsLayout(t: StringTable, s: string)
    requires WellLaid(t)
    requires t.Watermark + |s| + 1 < TWO_32
    ensures WellLaid(AddString(t, s))
    ensures s !in t.Entries ==> AddString(t, s).Watermark == t.Watermark + |s| + 1
  {
    if s !in t.Entries {
      var r := AddString(t, s);
      forall a | a in r.Entries ensures SlotEnd(r, a) <= r.Watermark {
        if a != s {
          assert SlotEnd(r, a) == SlotEnd(t, a);
        }
      }
      forall a, b | a in r.Entries && b in r.Entries && a != b
        ensures SlotEnd(r, a) <= r.Entries[b] || SlotEnd(r, b) <= r.Entries[a]
      {
        if a != s && b != s {
          assert SlotEnd(r, a) == SlotEnd(t, a) && SlotEnd(r, b) == SlotEnd(t, b);
        } else if a == s {
          assert SlotEnd(r, b) == SlotEnd(t, b) <= t.Watermark;
        } else {
          assert SlotEnd(r, a) == SlotEnd(t, a) <= t.Watermark;
        }
      }
    }
  }

  /** Adding the same name twice is the same as adding it once. */
  lemma AddStringIdempotent(t: StringTable, s: string)
    ensures AddString(AddString(t, s), s) == AddString(t, s)
  {
  }

  /** In a laid-out table distinct names have distinct offsets; a table
      that holds "" at 0 gives every other present name a non-zero offset,
      so `GetOffset(name) != 0` tests presence for every name but "". */
  lemma OffsetsDistinct(t: StringTable, a: string, b: string)
    requires WellLaid(t)
    requires a in t.Entries && b in t.Entries && a != b
    ensures GetOffset(t, a) != GetOffset(t, b)
    ensures "" in t.Entries && t.Entries[""] == 0 && a != "" ==> GetOffset(t, a) != 0
  {
    if "" in t.Entries && t.Entries[""] == 0 && a != "" {
      assert SlotEnd(t, "") == 1 && SlotEnd(t, a) > 0;
    }
  }

  /** A name never added and the empty name both read as offset 0. */
  lemma AbsentReadsAsEmpty(t: StringTable, s: string)
    requires "" in t.Entries && t.Entries[""] == 0
    requires s !in t.Entries
    ensures GetOffset(t, s) == GetOffset(t, "") == 0
  {
  }

  /** Adding several names in order. */
  function AddStrings(t: StringTable, names: seq<string>): (r: StringTable)
    ensures r.Entries.Keys == t.Entries.Keys + set i | 0 <= i < |names| :: names[i]
    decreases |names|
  {
    if |names| == 0 then t else AddStrings(AddString(t, names[0]), names[1..])
  }

  /** Adding names one after another, as the reconstruction does for the
      fixed section names, keeps the table laid out while the watermark
      cannot wrap, and never moves an earlier name. */
  lemma {:induction false} AddStringsKeepsLayout(t: StringTable, names: seq<string>)
    requires WellLaid(t)
    requires t.Watermark + SlotsSize(names) < TWO_32
    ensures WellLaid(AddStrings(t, names))
    ensures forall x :: x in t.Entries ==> GetOffset(AddStrings(t, names), x) == GetOffset(t, x)
    decreases |names|
  {
    if |names| > 0 {
      AddStringKeepsLayout(t, names[0]);
      var t' := AddString(t, names[0]);
      assert t'.Watermark <= t.Watermark + |names[0]| + 1;
      AddStringsKeepsLayout(t', names[1..]);
    }
  }

  /** An upper bound on the space names take: every slot counted, repeats
      included. */
  function SlotsSize(names: seq<string>): nat
    decreases |names|
  {
    if |names| == 0 then 0 else |names[0]| + 1 + SlotsSize(names[1..])
  }
}
